=== FILE: README.md ===
# Multi-tenancy load-test kernels

This project models the decision logic of a multi-tenancy load-test
harness for a tenant-partitioned vector database (Weaviate). The
harness is a set of long-running scripts. Each one drives tenants
through their activity states (`ACTIVE`/`HOT`, `COLD`, `FROZEN`,
`OFFLOADED`), imports data, expires tenants through a TTL collection,
or generates query load. A few generic helpers wait for Kubernetes
jobs and pods, and read Prometheus.

Everything is stated over an abstract backend (module `Backend`). It holds:

- the tenants of the primary collection with their status, in listing order;
- the TTL collection, as a sequence of `(id, tenant_name, expiration)` records;
- for every tenant, the set of object ids written under deterministic ids.

The scripts talk to it through a small `Request` language:

- create tenants;
- bulk status update;
- upsert objects;
- write TTL records, delete TTL records, refresh a TTL record.

`ApplyAll` runs such requests in order. A rejected request ends the run,
because none of the scripts catch it.

Time is an abstract integer clock (`Clock = nat -> int`). Every random
choice is a `Draw` that is constrained only by its range. Reads of
data the scripts themselves write (for example the tenant list of the user-enabling
loop, the TTL ledger of the deactivator) are read from the modelled
store. Other answers are input functions indexed by attempt: listings
that may fail, status polls, query results, and the Kubernetes and
Prometheus responses. The outcome of a write (`CreateTenants`,
`UpdateStatus`, `UpsertObjects`, `WriteTtl`, `DeleteTtlRecords`,
`RefreshTtl`) is not an input: it follows from the store through
`Backend.Apply`. Only a status update naming an unknown tenant is
rejected, and an upsert into an unknown tenant changes nothing; the
`Backend.Apply` line under "Left out" says what this assumes of the
server. Loops that the scripts run forever, or until an outside
event, run over a bounded number of inputs (see "Left out").

Modules, one per script, plus shared ones:

| module | models |
|---|---|
| `Common` | `Option`, `Result`, tenant statuses, draws, clocks, `Min`/`Max`, `Distinct` |
| `Decimal` | decimal digit strings and zero padding, for tenant names |
| `Backend`, `Upserts` | the abstract database and what each request does to it |
| `SimulationImporter` | the wrapping import loop with zero-padded names and deterministic object ids |
| `ExpiredDeactivator` | the TTL-expiry tick |
| `UserEnabling` | the `FROZEN` sampler with object rewrite and TTL refresh |
| `Sampling` | sampling without replacement, the Fisher–Yates shuffle, `pickTenants` |
| `TierMigration` | the offloader and the onloader, as one model parameterised by a `Direction` |
| `TenantsAndData` | the bounded import with unpadded names and batch error logging |
| `Querying` | the query load generator |
| `CorruptionChecker` | the shard/object progress watcher |
| `ConcurrencyDiagnostics` | the concurrency latency test: mean, p99, `pickTenants` |
| `BlueChip` | the 1000-user activate/query/deactivate simulation |
| `K8s` | job and pod readiness, the wait loops, `${key}` substitution |
| `Prometheus` | the retried range query |

Behaviours of the scripts that the model keeps, including some that look unintended:

- **Retry exhaustion.** The tier-migration scripts do not raise when all 100 update attempts fail. They count the batch as moved and poll anyway.
- **Failed poll.** A failed status poll keeps the previous count in scope. With no earlier count, the comparison raises and ends the process (`PollFailed`).
- **Reactivation status.** The status keyword in the re-enabling script is misspelled, so the status written is a parameter (`written`), not `ACTIVE`.
- **Query failure.** A query fails on any row count other than 10, not only on fewer rows.
- **TTL expiry.** The tick writes `COLD` for every owner of an expired record, whatever that tenant's current status is.
- **Import features.** The continuous importer has no tenant-creation retry, no implicit-tenant ratio and no immediate deactivation.
- **Concurrency test 2.** With fewer tenants than a concurrency level, the level indexes past the picked tenants and the program panics (see "Findings").

## Model

| member | source | states |
|---|---|---|
| Decimal.ValueOfDigits | importer/simulation_importer.py:38 | the decimal rendering of n reads back as n |
| Decimal.PaddedDigitsInjective | importer/simulation_importer.py:38 | zero-padded renderings of two numbers are equal only when the numbers are |
| SimulationImporter.TenantNameShape | importer/simulation_importer.py:37-38 | for ids in [0, 10^10) the name is `tenant_` followed by exactly ten digits |
| SimulationImporter.TenantNameInjective | importer/simulation_importer.py:37-38 | two ids with the same tenant name are the same id, negative ids included |
| SimulationImporter.Window | importer/simulation_importer.py:47-53 | the window starts at the cursor, or at the minimum id once the cursor has passed the maximum; it ends `tenants_per_cycle` later, or at the maximum id when that would pass it; so its end never passes the maximum and its width is at most `tenants_per_cycle` |
| SimulationImporter.WindowBounds | importer/simulation_importer.py:47-53 | with min ≤ max and the cursor at or above min, the window lies in [min, max], is at most `tenants_per_cycle` wide and never contains the maximum id |
| SimulationImporter.CursorStaysAboveMin | importer/simulation_importer.py:59 | advancing the cursor by `tenants_per_cycle` keeps it at or above the minimum id, so the bounds hold on every cycle |
| SimulationImporter.ClippedWindowWraps | importer/simulation_importer.py:47-59 | the cursor advances by the full `tenants_per_cycle` even after a clipped window, so the next window starts over at the minimum |
| SimulationImporter.CursorAtMaxGivesEmptyWindow | importer/simulation_importer.py:51-53 | a cursor exactly at the maximum id gives an empty window |
| SimulationImporter.ObjectIds | importer/simulation_importer.py:75-88 | the object ids are exactly 0 .. objects_per_tenant-1, each once |
| SimulationImporter.CycleEffect | importer/simulation_importer.py:62-108 | a cycle cannot be rejected; it appends one fresh TTL record per window tenant; the window tenants exist; each holds its old objects plus ids below `objects_per_tenant`; other tenants' objects are unchanged |
| SimulationImporter.CycleTtlRecords | importer/simulation_importer.py:94-108 | old TTL records are kept; the k-th window tenant gets a record with a fresh id and expiration now + 90 s |
| SimulationImporter.ReimportIsIdempotent | importer/simulation_importer.py:86-88 | importing a window again changes no tenant and no object set; only the TTL collection grows, by the window size |
| SimulationImporter.ReimportDuplicatesTtl | importer/simulation_importer.py:101-108 | after a second import of a window, each of its tenants owns two TTL records, one per pass |
| SimulationImporter.CreateIsIdempotent | importer/simulation_importer.py:67 | creating the same tenants twice equals creating them once |
| Backend.Create | importer/simulation_importer.py:67 | tenant creation keeps existing tenants as a prefix; the names afterwards are the old ones plus the requested ones; new tenants are active; names stay unique |
| Backend.AddTtl | importer/simulation_importer.py:101-108 | writing TTL records appends one record per owner, in order, with consecutive fresh ids and the given expiration |
| Backend.SetStatus | importer/tenants_offloader.py:55-61 | a bulk status update gives exactly the named tenants the new status and leaves every other tenant and the order unchanged |
| Backend.Select | importer/tenants_offloader.py:48 | a name is selected exactly when some tenant with that name has one of the wanted statuses |
| Backend.DeleteTtl | importer/simulation_expired_deactivator.py:59-60 | after deletion the ledger holds exactly the records whose id was not deleted |
| Backend.SetExpiration | importer/simulation_user_enabling.py:119-124 | refreshing a record changes only the expiration of the record with that id |
| Upserts.UpsertEachEffect | importer/simulation_importer.py:68-70 | upserting into known tenants adds the ids to exactly those tenants and changes no tenant, no TTL record and no other tenant's objects |
| ExpiredDeactivator.PauseBounds | importer/simulation_expired_deactivator.py:37-39 | the pause lies in (0, 10] s after a short tick and is 0 after an overrun, so the next tick starts at max(now, last + 10) |
| ExpiredDeactivator.Expired | importer/simulation_expired_deactivator.py:41-45 | a record is selected exactly when it is in the ledger and its expiration is at or before now |
| ExpiredDeactivator.Fetch | importer/simulation_expired_deactivator.py:42-45 | the fetch returns min(#expired, 1000) expired records, and all of them when there are at most 1000 |
| ExpiredDeactivator.NothingExpiredNothingChanges | importer/simulation_expired_deactivator.py:47 | when nothing has expired a tick changes nothing at all |
| ExpiredDeactivator.TickValue | importer/simulation_expired_deactivator.py:47-60 | a tick is the bulk `COLD` update of the fetched records' owners followed by the deletion of those records, and nothing else |
| ExpiredDeactivator.TickEffect | importer/simulation_expired_deactivator.py:47-60 | owners of fetched records become `COLD`; every other tenant keeps its status; exactly the fetched records are deleted; unexpired and over-limit records remain; objects are untouched |
| ExpiredDeactivator.UnknownOwnerStopsTick | importer/simulation_expired_deactivator.py:49-57 | a fetched record naming an unknown tenant makes the bulk update, and hence the tick, fail before any deletion |
| ExpiredDeactivator.Step | importer/simulation_expired_deactivator.py:36-61 | a completed turn records its finish time as the last execution, whether or not anything expired, and succeeds exactly when its tick does |
| UserEnabling.FrozenNamesExact | importer/simulation_user_enabling.py:49-54 | a name is a candidate exactly when the backend reports it `FROZEN` |
| UserEnabling.RandomTenants | importer/simulation_user_enabling.py:74-79 | no names without candidates or tenants; with candidates and tenants it raises exactly when the share is negative, and otherwise picks min(share, #candidates) names, all candidates, distinct when the candidates are |
| UserEnabling.EnabledCount | importer/simulation_user_enabling.py:56-58 | a cycle raises exactly when some tenant is `FROZEN` and the share is negative; otherwise it picks 0 names without candidates and min(share, #FROZEN) distinct names with them |
| UserEnabling.RewriteIds | importer/simulation_user_enabling.py:85-88 | the rewrite picks `objects_to_update` distinct ids in [0, objects_per_tenant) and fails exactly when that count is negative or too large |
| UserEnabling.FirstRecordOf | importer/simulation_user_enabling.py:114-116 | the fetched record is the first one owned by the tenant, and none exactly when the tenant owns no record |
| UserEnabling.RefreshEffect | importer/simulation_user_enabling.py:109-124 | the refresh sets only the first record of the tenant to now + 90 s, touches nothing else, and writes nothing when the tenant has no record |
| UserEnabling.EnableTenant | importer/simulation_user_enabling.py:61-71 | only the enabled tenant changes status; it keeps all its objects and gains ids below `objects_per_tenant` only; no other tenant's objects change; it fails exactly when the rewrite sample is impossible |
| UserEnabling.EnableAll | importer/simulation_user_enabling.py:61-71 | enabling a list gives exactly the listed tenants the written status; others keep theirs and their objects |
| UserEnabling.EnableCycle | importer/simulation_user_enabling.py:46-71 | the cycle fails exactly when the sample raises (a negative share with a `FROZEN` tenant) or when some tenant was sampled and the rewrite sample is impossible; a successful cycle sets exactly the sampled tenants to the written status, keeps every other tenant and the objects of every other tenant, and changes only tenants that were `FROZEN` when listed |
| UserEnabling.ChosenWereFrozen | importer/simulation_user_enabling.py:49-58 | every tenant the sampler chose was `FROZEN` |
| UserEnabling.RewriteOverwrites | importer/simulation_user_enabling.py:103 | on a tenant holding all importer ids, the rewrite adds no object: it overwrites |
| Sampling.Sample | importer/simulation_user_enabling.py:78 | a sample of size k is a sub-multiset of the pool |
| Sampling.SampleOfDistinct | importer/simulation_user_enabling.py:78 | a sample draws only from the pool, and is free of repeats when the pool is |
| Sampling.Shuffle | concurrency-diagnostics/run.go:258-265 | the Fisher–Yates loop returns a permutation of its input |
| Sampling.PickDistinct | concurrency-diagnostics/run.go:251-269 | `pickTenants` returns min(n, len) elements, and no input position twice |
| TierMigration.Batch | importer/tenants_offloader.py:47-51 | a batch has at most `tenants_per_cycle` names, each of a tenant in a source status, and is empty after a failed listing |
| TierMigration.OnloadBatch | importer/tenants_onloader.py:47-51 | an onload batch holds only tenants reported `OFFLOADED`, and is not empty while some tenant is offloaded and `tenants_per_cycle` is positive |
| TierMigration.BatchIsPrefix | importer/tenants_offloader.py:48 | a batch is the first min(`tenants_per_cycle`, #eligible) eligible names in listing order |
| TierMigration.UpdateWithRetry | importer/tenants_offloader.py:53-67 | 1 to 100 attempts; the loop stops at the first success; all earlier attempts failed; 100 attempts when none succeeded; one backoff below 5000 ms per failure |
| TierMigration.RetrySucceedsIfAnyAttemptDoes | importer/tenants_offloader.py:53-67 | when any of the first 100 attempts would succeed, the update succeeds, no later than that attempt |
| TierMigration.UpdatedBatchIsNotReselected | importer/tenants_offloader.py:48-61 | after a successful update no batch tenant is eligible for the next batch |
| TierMigration.LastSeenIsLatest | importer/tenants_offloader.py:75-78 | the count in scope after n checks is the answer of the latest check that answered |
| TierMigration.LastSeenWithoutAnswers | importer/tenants_offloader.py:75-78 | while no check answers, the count left over from earlier batches stays in scope |
| TierMigration.Poll | importer/tenants_offloader.py:72-81 | 1 to 601 checks; the final count is the latest answered one (or the stale one); every earlier check saw a count other than the batch size before 600 s; it converges exactly on a count equal to the batch size, times out only after 600 s, and crashes exactly when the first check fails with no earlier count in scope, and then at once |
| TierMigration.Round | importer/tenants_offloader.py:47-91 | i and the counter grow by the batch size even when every update attempt failed; the update succeeds exactly when some attempt does, and then every batch tenant has the target status; non-batch tenants never change; the count carried to the next round is the latest answered poll, possibly one from an earlier batch; the round crashes exactly when no count is in scope and the first poll fails; the empty-batch exit needs a target count exactly equal to the total |
| TierMigration.Migrate | importer/tenants_offloader.py:45-91 | the counter always equals i; leaving by the total means i ≥ total, and a total ≤ 0 runs no round; the early exit means the target count equals the total; a crash happens only in a round with a non-empty batch while no poll has ever answered; every tenant ends unchanged or at the target |
| TierMigration.WarningComparesWithLastBatch | importer/tenants_offloader.py:96-101 | the closing warning stays silent once the target count reaches the last batch's size, even while it is below the total |
| TierMigration.EmptyLastBatchNeverWarns | importer/tenants_offloader.py:99-101 | after an empty last batch the warning never fires, however many tenants are missing |
| TenantsAndData.PlainNameInjective | importer/tenants_and_data.py:28 | unpadded tenant names of different indices differ |
| TenantsAndData.WindowNames | importer/tenants_and_data.py:23-28 | a window names `tenants_per_cycle` distinct tenants `tenant_<lo+k>` |
| TenantsAndData.InWindow | importer/tenants_and_data.py:23-28 | a name is in the window exactly when it is `tenant_t` for some t in [lo, lo + tpc) |
| TenantsAndData.AddObjects | importer/tenants_and_data.py:69-76 | loading adds `objects_per_tenant` objects to each window tenant and none to any other |
| TenantsAndData.ReloadAddsAgain | importer/tenants_and_data.py:74-97 | loading the same window twice doubles the added objects: objects without ids duplicate rather than upsert |
| TenantsAndData.Populate | importer/tenants_and_data.py:20-45 | ceil(total/tpc) windows; the tenants named are exactly `tenant_t` for t < windows·tpc, up to tpc-1 past the total; each gets `objects_per_tenant` objects; nothing else changes; the loop never ends when total > 0 and tpc ≤ 0 |
| TenantsAndData.LogEntriesExact | importer/tenants_and_data.py:64-65 | the messages are logged in order up to the first entry without a `message`, which raises; without such an entry every message is logged |
| TenantsAndData.HandleErrors | importer/tenants_and_data.py:57-65 | nothing is logged for no results; it raises exactly when some entry under a result's `errors.error` lacks a `message`; every logged message comes from some result's `errors.error` list |
| TenantsAndData.EveryMessageLogged | importer/tenants_and_data.py:57-65 | when nothing raises, every message under a result's `errors.error` is logged |
| TenantsAndData.HandleErrorsConcat | importer/tenants_and_data.py:58-65 | results are handled one after another, in order, and a raise in the first part ends the handling |
| Querying.ShardNames | importer/querying.py:121-127 | a node contributes exactly the names of its shards with at least 100 objects |
| Querying.BuildTenantList | importer/querying.py:117-128 | a name is listed exactly when some node has an eligible shard with that name |
| Querying.BuildTenantListConcat | importer/querying.py:120-127 | the list is built node after node, in order, so names may repeat across nodes |
| Querying.PickTenants | importer/querying.py:131-132 | exactly `no_of_tenants` picks (none when negative), all listed tenants; it raises exactly on an empty list with a positive count |
| Querying.Repeat | importer/querying.py:50 | the worker list has length n·p and only picked names |
| Querying.RepeatIndex | importer/querying.py:50 | the worker list is the pick list repeated whole: entry q·n + j is pick j |
| Querying.RepeatMultiplicity | importer/querying.py:50 | each tenant occurs p times as often among the workers as among the picks |
| Querying.Failures | importer/querying.py:93-103 | at most one failure is counted per query |
| Querying.Worker | importer/querying.py:72-114 | a qpm of 0 raises before the users gauge moves; a negative qpm with queries to send raises at the first wait and leaves the gauge one higher; otherwise the gauge is one higher while the worker runs and restored after; one latency observation and exactly one outcome counter per query sent; failures counted exactly |
| Querying.Run | importer/querying.py:34-54 | the tenants gauge is raised by n during the run and restored; n·p workers, all on listed tenants; every worker's queries are counted once; the users gauge ends raised by one per worker exactly when a negative qpm crashes them; an empty list with n > 0 raises |
| CorruptionChecker.SumsConcat | importer/schema_corruption_checker.py:16-17 | the tenant and object totals add up node by node |
| CorruptionChecker.SumShardsBounds | importer/schema_corruption_checker.py:16 | the tenant total is at least any single node's shard count |
| CorruptionChecker.MoreNodesKeepGoal | importer/schema_corruption_checker.py:13-23 | with non-negative shard counts, more reporting nodes never undo a reached goal, and their shards and objects add to the totals |
| CorruptionChecker.Watch | importer/schema_corruption_checker.py:26-30 | checks happen on iterations 0, 10, 20, …; the process exits at the first check that reaches the goal and not before |
| CorruptionChecker.MultipleOfTen | importer/schema_corruption_checker.py:28 | between two checks the only iteration divisible by 10 is the next check's |
| ConcurrencyDiagnostics.IntervalsArePositive | concurrency-diagnostics/run.go:63 | every concurrency level is between 1 and 50, so the mean never divides by zero |
| ConcurrencyDiagnostics.SortAscending | concurrency-diagnostics/run.go:185-187 | the sort returns a sorted permutation of the durations |
| ConcurrencyDiagnostics.P99Index | concurrency-diagnostics/run.go:189 | the p99 index is within the durations for every concurrency ≥ 1 |
| ConcurrencyDiagnostics.P99IsLastUpToHundred | concurrency-diagnostics/run.go:189-190 | up to concurrency 100 the p99 index is the last position |
| ConcurrencyDiagnostics.Mean | concurrency-diagnostics/run.go:183 | the mean is the total divided by the concurrency, rounded down |
| ConcurrencyDiagnostics.P99 | concurrency-diagnostics/run.go:189-190 | the p99 value is one of the durations and at least every duration up to the p99 index |
| ConcurrencyDiagnostics.LogTimes | concurrency-diagnostics/run.go:176-194 | the report carries the concurrency, the rounded-down mean and a p99 drawn from the durations that bounds the sorted prefix |
| ConcurrencyDiagnostics.P99IsMaximum | concurrency-diagnostics/run.go:185-190 | for the concurrency levels used, the reported p99 is the maximum duration |
| ConcurrencyDiagnostics.Collect | concurrency-diagnostics/run.go:92-123 | a group fails exactly when one of its queries fails; otherwise query i's duration sits at position i |
| ConcurrencyDiagnostics.QuerySingleTenant | concurrency-diagnostics/run.go:86-128 | a level fails exactly when one of its queries fails; otherwise the durations are collected and the level's report is the one `logTimes` makes from them for that concurrency |
| ConcurrencyDiagnostics.QueryManyTenantsAsWritten | concurrency-diagnostics/run.go:130-174 | the level panics exactly when fewer tenants were picked than the concurrency; a finished level's report is the one `logTimes` makes from the collected durations |
| ConcurrencyDiagnostics.FiveTenantsAtConcurrencySix | concurrency-diagnostics/run.go:135-141 | with five tenants, the level with concurrency 6 panics |
| ConcurrencyDiagnostics.FewerTenantsPanic | concurrency-diagnostics/run.go:135-141 | any level above the number of tenants panics |
| ConcurrencyDiagnostics.QueryManyTenants | concurrency-diagnostics/run.go:130-174 | one query per picked tenant: it never panics, fails exactly when one of those queries fails and reports, through `logTimes`, the durations of as many queries as were picked |
| ConcurrencyDiagnostics.CorrectedAgreesWhenTenantsSuffice | concurrency-diagnostics/run.go:130-174 | with as many tenants as the concurrency, the corrected level behaves as written |
| ConcurrencyDiagnostics.SingleTenantTest | concurrency-diagnostics/run.go:68-74 | test 1 never panics; it finishes exactly when every level passes, and then reports the 14 levels in order |
| ConcurrencyDiagnostics.ManyTenantsLevel | concurrency-diagnostics/run.go:130-141 | one level of test 2 as written panics exactly when there are fewer tenants than the level, and otherwise fails exactly when one of its queries fails |
| ConcurrencyDiagnostics.SingleTenantLevels | concurrency-diagnostics/run.go:70-74 | test 1 over any positive levels never panics; it finishes exactly when every level passes, then reports each level in order and has sent one query per unit of concurrency summed over the levels |
| ConcurrencyDiagnostics.ManyTenantsLevels | concurrency-diagnostics/run.go:76-81 | test 2 as written panics exactly when it reaches a level above the number of tenants with every earlier level passed, and finishes exactly when every level fits the tenants and passes |
| ConcurrencyDiagnostics.ManyTenantsTest | concurrency-diagnostics/run.go:76-81 | test 2 finishes only with at least 50 tenants and every level passing; a panic means fewer than 50 tenants |
| ConcurrencyDiagnostics.CorrectedManyTenantsLevels | concurrency-diagnostics/run.go:76-81 | with the corrected level, test 2 never panics and finishes exactly when every query to the picked tenants succeeds, each level reporting min(level, tenants) |
| ConcurrencyDiagnostics.Do | concurrency-diagnostics/run.go:35-61 | a listing error or an empty list fails before any query; the run panics exactly when test 1 passes and test 2 reaches a level above the number of tenants; it finishes exactly when the listing has at least 50 tenants and every level of both tests passes, and then reports both tests' 28 levels |
| BlueChip.SleepClosedForm | blue-chip/main.go:50-54 | the sleep after launch i is max(10, 500 - 5·(i div 10)) ms |
| BlueChip.SleepBounds | blue-chip/main.go:37 | the sleep never increases and stays within [10, 500] ms |
| BlueChip.LaunchTimeBounds | blue-chip/main.go:38-55 | n launches take between 10·n and 500·n ms of sleep |
| BlueChip.FetchAllTenants | blue-chip/main.go:68-80 | the names come in the same number and order as the fetched tenants; errors pass through |
| BlueChip.Launch | blue-chip/main.go:38-39 | exactly 1000 users, each on a listed tenant; an empty list panics |
| BlueChip.SimulateUser | blue-chip/main.go:82-101 | activation comes first; the trace is the activation alone exactly when activation fails, and otherwise the session goes on to a query or to the deactivation; queries run only after success and stop at the first failure; deactivation comes last, only after every query succeeded and only once a clock check is at or past the end of the session, every earlier check being before it; a trace ending in a query ends in a failing query made before the end of the session; at most 62 requests; success leaves the tenant `COLD` |
| BlueChip.Errors | blue-chip/main.go:41-47 | each user sends at most one error, so there are never more errors than users |
| K8s.JobCompletionStatus | k8s.py:22-49 | missing counts read as 0; complete exactly when the read succeeded and current ≥ desired; any error gives (False, 0, 0) |
| K8s.NoDesiredCountIsComplete | k8s.py:29-39 | a job without a desired count is complete at once |
| K8s.Deadline | k8s.py:79 | there is no deadline exactly when `max_wait_time` is missing or 0 |
| K8s.Wait | k8s.py:81-108 | the wait ends at the first ready check; it times out only at a check not ready and at or past the deadline; without a deadline it never times out |
| K8s.WaitForJobCompletion | k8s.py:78-108 | it returns at the first complete status; it raises the timeout only when the job is incomplete at or past the deadline; every check before the last is before the deadline; giving up takes exactly `maxChecks` checks, the last incomplete and before the deadline |
| K8s.CountReady | k8s.py:133-137 | the ready count never exceeds the number of pods |
| K8s.CountReadyConcat | k8s.py:133-137 | pods are counted one by one, in order |
| K8s.CheckPodsReady | k8s.py:126-142 | it counts the running pods whose containers are all ready; the desired count is returned unchanged; an error gives 0 |
| K8s.TooManyReadyKeepsWaiting | k8s.py:178 | more ready pods than desired does not end the wait |
| K8s.WaitForPodsReady | k8s.py:171-194 | the wait ends only on ready == desired; it times out only when that is false at or past the deadline; every check before the last is before the deadline; giving up takes exactly `maxChecks` checks, the last not ready and before the deadline |
| K8s.ReplaceIsSplitJoin | k8s.py:249 | replacing is splitting at the placeholder and joining with the value |
| K8s.SplitJoinRoundTrip | k8s.py:249 | splitting at a pattern and joining with it gives back the text |
| K8s.ReplaceBySelf | k8s.py:249 | replacing a pattern by itself leaves the text unchanged |
| K8s.ReplaceAbsent | k8s.py:249 | replacing an absent pattern leaves the text unchanged |
| K8s.ReplaceVariablesConcat | k8s.py:248-249 | the variables are substituted one after another on the running result |
| K8s.AbsentVariablesChangeNothing | k8s.py:248-249 | variables whose placeholders do not occur leave the content unchanged |
| Prometheus.Mean | prometheus.py:31 | the mean times the number of values is their sum |
| Prometheus.MeanBetween | prometheus.py:29-32 | the mean lies between the smallest and the largest value |
| Prometheus.TryOnce | prometheus.py:23-43 | an attempt answers exactly on a parsed 200 response whose result is empty or whose first series has values; that answer is 0.0 or the mean; anything else retries |
| Prometheus.Query | prometheus.py:5-46 | every request asks for the same window, fixed before the first one: it ends at the time of the call and spans `seconds_ago`; 1 to 5 requests; all requests but the last retried; the answer of the last one is returned, or 0.0 after five failed attempts |

## Left out

- Network, HTTP/gRPC transport, the client libraries, logging, printing, metrics servers and the final 30 s linger are not modelled. Only the counters and gauges the properties mention are kept (`Querying.Metrics`).
- Thread and goroutine fan-out (the query threads, the errgroup, the WaitGroup and the error channel) is not modelled: each worker or user runs sequentially.
- Random vectors and random payload fields are not modelled; they decide nothing.
- The query wait times in `querying.py` are floating point and are not modelled.
- Wall-clock time and sleeps are not modelled: time is an abstract clock. ISO-8601 expiration strings compare as integers.
- Backoff sleeps appear only as the drawn milliseconds.
- The backend's asynchronous convergence after a status update is an input (`observe` in `TierMigration.Poll`), not a consequence of the update.
- `TierMigration.Migrate`: the scripts loop until the total is reached. The model runs at most one round per supplied round input and reports `OutOfRounds` when they run out.
- `CorruptionChecker.Watch`: the script loops forever; the model stops after `maxIterations` iterations.
- `K8s.Wait`, `K8s.WaitForJobCompletion`, `K8s.WaitForPodsReady`: with no deadline the scripts wait forever. The model gives up after `maxChecks` checks (`GaveUp`).
- `TenantsAndData.Populate`: with a positive total and `tenants_per_cycle` ≤ 0 the script never terminates. The model reports this as `diverges` instead of looping.
- `UserEnabling.RandomTenants`: the script computes the share as `int(total * (percentage / 100))` in floating point, which can be one below the exact share. The model takes the share as a parameter that may be the exact share or one less (`PossibleShare`), rather than one fixed value. A negative percentage gives a share at or below zero, truncated toward zero as Python's `int` does.
- `ConcurrencyDiagnostics.P99Index`: computed as `(99 * c) / 100` in integers, not `int(0.99 * float64(c))`. The two agree for every concurrency level the script uses.
- `ConcurrencyDiagnostics.Mean`: durations are unbounded naturals, so the 64-bit nanosecond overflow of Go's `time.Duration` is not modelled.
- `Prometheus.Mean`: the mean is exact `real` arithmetic, not IEEE floating point.
- `Sampling.PickDistinct`: the count is a natural number. A negative count, which would make the Go slice expression panic, is not modelled; every caller passes a positive count.
- `Backend.Apply` and `Backend.Create`: creating a tenant that already exists is taken to leave it unchanged. The server's answer to such a request is not part of this model; `ReimportIsIdempotent` and `CreateIsIdempotent` rest on this choice. Upserting objects into a known tenant also succeeds whatever that tenant's status is. A server that does not activate tenants automatically would report failed objects for a `COLD` or `FROZEN` tenant, and the importer would only log them. `CycleEffect`, `ReimportIsIdempotent` and `UpsertEachEffect` rest on this too.
- `UserEnabling.EnableTenant`: when the rewrite sample is impossible, the script has already sent the status update, and then `random.sample` raises. The model returns only the error, without the store in which that tenant's status has changed.
- `Querying.Worker`: a negative qpm is taken to make the first wait negative, so `time.sleep` raises. The draw of exactly 0.0, which gives a zero wait, is not modelled.
- `ExpiredDeactivator.TickEffect`: the fetched records are deleted as one set. The script deletes them one by one, so a failure part-way through is not modelled.
- `BlueChip.SimulateUser`: the pause between queries (at least 1000 ms) is a property of the supplied clock, not a drawn value. The activation status `HOT` is the model's `Active`.
- The Kubernetes API wrappers `get_external_ip_by_app_name`, `get_external_ip`, `apply_yaml` and `scale_deployment` are not modelled: they are thin calls into the Kubernetes client.
- `replace_variables_in_yaml` reads the file contents as an input; the file read is not modelled.
- `run.py` and `cli_config.py` (CLI menus and infrastructure subprocesses) are not modelled.
- `importer/reset_schema.py`, `importer/simulation_schema.py` and `weaviate_interaction.py` (schema declarations and client set-up) are not modelled.
- The wait callback in `wait_for_job_completion` is not modelled; it only observes.
- The Prometheus URL and parameter formatting is not modelled.
- `COLD` and `FROZEN` remain distinct statuses. No link between the TTL expiry (which writes `COLD`) and the re-enabler (which reads `FROZEN`) is assumed.

## Findings

| source | as written | input that shows it | evidently intended | confidence | as-written member | corrected member |
|---|---|---|---|---|---|---|
| concurrency-diagnostics/run.go:135-141 | `queryManyTenants` picks `min(concurrency, len(tenants))` tenants but indexes `tenants[i]` for every `i < concurrency` | 5 tenants and concurrency level 6: `tenants[5]` is out of range and the program panics, although `do` only rejects an empty list | one query per picked tenant, reporting the number actually picked | not executed | ConcurrencyDiagnostics.FiveTenantsAtConcurrencySix | ConcurrencyDiagnostics.QueryManyTenants |

=== FILE: backend.dfy ===
/** The tenant-partitioned store as the load-test processes see it: the
    tenants of the primary collection with their activity status, the TTL
    collection (one record per write, addressed by a backend-assigned id),
    and, per tenant, the ids of the objects written with deterministic
    ids.  The processes talk to it only through `Request`s. */
module Backend {
  import opened Common

  /** A record of the TTL collection.  `id` stands for the uuid the backend
      assigns to the record when it is written. */
  datatype TtlRecord = TtlRecord(id: nat, tenantName: string, expiration: int)

  datatype Store = Store(
    tenants: seq<Tenant>,            // in listing order
    ledger: seq<TtlRecord>,          // in the order queries return them
    nextId: nat,                     // no record has an id at or above this
    objects: map<string, set<nat>>)  // object ids `UUID(int=i)` per tenant

  predicate UniqueNames(ts: seq<Tenant>)
  {
    forall i, j :: 0 <= i < j < |ts| ==> ts[i].name != ts[j].name
  }

  predicate FreshIds(ledger: seq<TtlRecord>, nextId: nat)
  {
    && (forall i :: 0 <= i < |ledger| ==> ledger[i].id < nextId)
    && (forall i, j :: 0 <= i < j < |ledger| ==> ledger[i].id != ledger[j].id)
  }

  predicate Valid(st: Store)
  {
    UniqueNames(st.tenants) && FreshIds(st.ledger, st.nextId)
  }

  function Names(ts: seq<Tenant>): (r: seq<string>)
    ensures |r| == |ts| && forall i :: 0 <= i < |ts| ==> r[i] == ts[i].name
  {
    seq(|ts|, i requires 0 <= i < |ts| => ts[i].name)
  }

  function NameSet(ts: seq<Tenant>): set<string>
  {
    set i | 0 <= i < |ts| :: ts[i].name
  }

  /** The status the backend reports for `name`, if it knows the tenant. */
  function StatusOf(ts: seq<Tenant>, name: string): (r: Option<Status>)
    ensures r.None? <==> name !in NameSet(ts)
    ensures r.Some? ==> exists i :: 0 <= i < |ts| && ts[i] == Tenant(name, r.value)
  {
    if |ts| == 0 then None
    else if ts[0].name == name then Some(ts[0].status)
    else
      var r := StatusOf(ts[1..], name);
      assert NameSet(ts) == {ts[0].name} + NameSet(ts[1..]) by {
        forall n | n in NameSet(ts) ensures n in {ts[0].name} + NameSet(ts[1..]) {
          var i :| 0 <= i < |ts| && ts[i].name == n;
          if i > 0 { assert ts[1..][i - 1].name == n; }
        }
      }
      r
  }

  /** The names of the tenants whose status is one of `wanted`, in listing
      order. */
  function Select(ts: seq<Tenant>, wanted: set<Status>): (r: seq<string>)
    ensures |r| <= |ts|
    ensures forall n :: n in r <==> exists i :: 0 <= i < |ts| && ts[i].name == n && ts[i].status in wanted
  {
    if |ts| == 0 then []
    else
      var rest := Select(ts[1..], wanted);
      forall n | n in rest ensures exists i :: 0 <= i < |ts| && ts[i].name == n && ts[i].status in wanted {
        var i :| 0 <= i < |ts[1..]| && ts[1..][i].name == n && ts[1..][i].status in wanted;
        assert ts[i + 1] == ts[1..][i];
      }
      forall i | 1 <= i < |ts| && ts[i].status in wanted ensures ts[i].name in rest {
        assert ts[1..][i - 1] == ts[i];
      }
      if ts[0].status in wanted then [ts[0].name] + rest else rest
  }

  /** How many tenants have status `s`. */
  function CountStatus(ts: seq<Tenant>, s: Status): (r: nat)
    ensures r <= |ts|
  {
    if |ts| == 0 then 0 else (if ts[0].status == s then 1 else 0) + CountStatus(ts[1..], s)
  }

  /** Bulk status update of the named tenants; all other tenants keep
      their status, and names and order do not change. */
  function SetStatus(ts: seq<Tenant>, names: set<string>, s: Status): (r: seq<Tenant>)
    ensures |r| == |ts|
    ensures forall i :: 0 <= i < |ts| ==> r[i].name == ts[i].name
    ensures forall i :: 0 <= i < |ts| && ts[i].name in names ==> r[i].status == s
    ensures forall i :: 0 <= i < |ts| && ts[i].name !in names ==> r[i] == ts[i]
  {
    seq(|ts|, i requires 0 <= i < |ts| => if ts[i].name in names then Tenant(ts[i].name, s) else ts[i])
  }

  /** Creates one tenant unless it is already known. */
  function AddIfMissing(ts: seq<Tenant>, name: string): (r: seq<Tenant>)
    ensures |ts| <= |r| && r[..|ts|] == ts
    ensures NameSet(r) == NameSet(ts) + {name}
    ensures forall i :: |ts| <= i < |r| ==> r[i] == Tenant(name, Active)
    ensures UniqueNames(ts) ==> UniqueNames(r)
  {
    if name in NameSet(ts) then ts
    else
      var r := ts + [Tenant(name, Active)];
      assert r[|ts|].name == name;
      assert NameSet(r) == NameSet(ts) + {name} by {
        forall n | n in NameSet(r) ensures n in NameSet(ts) + {name} {
          var i :| 0 <= i < |r| && r[i].name == n;
          if i < |ts| { assert ts[i].name == n; }
        }
        forall n | n in NameSet(ts) ensures n in NameSet(r) {
          var i :| 0 <= i < |ts| && ts[i].name == n;
          assert r[i].name == n;
        }
      }
      r
  }

  /** Tenant creation: names not yet known are appended as `Active`
      tenants, names already known are left as they are. */
  function Create(ts: seq<Tenant>, names: seq<string>): (r: seq<Tenant>)
    ensures |ts| <= |r| && r[..|ts|] == ts
    ensures forall n :: n in NameSet(r) <==> n in NameSet(ts) || n in names
    ensures forall i :: |ts| <= i < |r| ==> r[i].status == Active
    ensures UniqueNames(ts) ==> UniqueNames(r)
    decreases |names|
  {
    if |names| == 0 then ts
    else
      var ts' := AddIfMissing(ts, names[0]);
      assert forall n :: n in names <==> n == names[0] || n in names[1..];
      var r := Create(ts', names[1..]);
      assert r[..|ts|] == r[..|ts'|][..|ts|];
      assert forall i :: |ts| <= i < |ts'| ==> r[i] == r[..|ts'|][i];
      r
  }

  /** Appends one TTL record per name, all with the same expiration, with
      fresh ids. */
  function AddTtl(ledger: seq<TtlRecord>, nextId: nat, names: seq<string>, expiration: int): (r: seq<TtlRecord>)
    ensures |r| == |ledger| + |names| && r[..|ledger|] == ledger
    ensures forall k :: 0 <= k < |names| ==>
              r[|ledger| + k] == TtlRecord(nextId + k, names[k], expiration)
  {
    ledger + seq(|names|, k requires 0 <= k < |names| => TtlRecord(nextId + k, names[k], expiration))
  }

  /** Deletes the records with the given ids; the others keep their order. */
  function DeleteTtl(ledger: seq<TtlRecord>, ids: set<nat>): (r: seq<TtlRecord>)
    ensures |r| <= |ledger|
    ensures forall x :: x in r <==> x in ledger && x.id !in ids
  {
    if |ledger| == 0 then []
    else
      var rest := DeleteTtl(ledger[1..], ids);
      assert forall x :: x in ledger <==> x == ledger[0] || x in ledger[1..];
      if ledger[0].id in ids then rest else [ledger[0]] + rest
  }

  /** Sets the expiration of the record with the given id. */
  function SetExpiration(ledger: seq<TtlRecord>, id: nat, expiration: int): (r: seq<TtlRecord>)
    ensures |r| == |ledger|
    ensures forall i :: 0 <= i < |ledger| && ledger[i].id == id ==> r[i] == ledger[i].(expiration := expiration)
    ensures forall i :: 0 <= i < |ledger| && ledger[i].id != id ==> r[i] == ledger[i]
  {
    seq(|ledger|, i requires 0 <= i < |ledger| =>
      if ledger[i].id == id then ledger[i].(expiration := expiration) else ledger[i])
  }

  /** A call into the backend, as the processes issue them. */
  datatype Request =
    | CreateTenants(names: seq<string>)
    | UpdateStatus(targets: seq<string>, status: Status)
    | UpsertObjects(tenant: string, ids: seq<nat>)
    | WriteTtl(owners: seq<string>, expiration: int)
    | DeleteTtlRecords(recordIds: set<nat>)
    | RefreshTtl(id: nat, newExpiration: int)

  /** What a request does.  A status update naming an unknown tenant is
      rejected as a whole; objects written to an unknown tenant are
      reported as failed objects and change nothing. */
  function Apply(st: Store, q: Request): Result<Store>
  {
    match q
    case CreateTenants(names) => Ok(st.(tenants := Create(st.tenants, names)))
    case UpdateStatus(targets, s) =>
      if forall n :: n in targets ==> n in NameSet(st.tenants)
      then Ok(st.(tenants := SetStatus(st.tenants, (set n | n in targets), s)))
      else Err("tenant not found")
    case UpsertObjects(t, ids) =>
      if t in NameSet(st.tenants)
      then Ok(st.(objects := st.objects[t := (if t in st.objects then st.objects[t] else {}) + (set i | i in ids)]))
      else Ok(st)
    case WriteTtl(owners, e) =>
      Ok(st.(ledger := AddTtl(st.ledger, st.nextId, owners, e), nextId := st.nextId + |owners|))
    case DeleteTtlRecords(ids) => Ok(st.(ledger := DeleteTtl(st.ledger, ids)))
    case RefreshTtl(id, e) => Ok(st.(ledger := SetExpiration(st.ledger, id, e)))
  }

  /** Requests issued one after the other; the first rejected one ends the
      run (none of the callers catch it). */
  function ApplyAll(st: Store, qs: seq<Request>): Result<Store>
    decreases |qs|
  {
    if |qs| == 0 then Ok(st)
    else
      match Apply(st, qs[0])
      case Err(e) => Err(e)
      case Ok(st') => ApplyAll(st', qs[1..])
  }

  /** Two accepted requests in front of a list: the list then runs from
      the store they leave. */
  lemma ApplyTwo(st: Store, a: Request, b: Request, rest: seq<Request>, st1: Store, st2: Store)
    requires Apply(st, a) == Ok(st1) && Apply(st1, b) == Ok(st2)
    ensures ApplyAll(st, [a, b] + rest) == ApplyAll(st2, rest)
  {
    var qs := [a, b] + rest;
    assert qs[0] == a && qs[1..][0] == b && qs[1..][1..] == rest;
  }

  /** Every request keeps the store well formed. */
  lemma ApplyValid(st: Store, q: Request)
    requires Valid(st)
    ensures Apply(st, q).Ok? ==> Valid(Apply(st, q).value)
  {
    match q
    case DeleteTtlRecords(ids) =>
      var r := DeleteTtl(st.ledger, ids);
      assert forall i :: 0 <= i < |r| ==> r[i] in st.ledger;
      DeleteKeepsDistinct(st.ledger, ids, st.nextId);
    case _ =>
  }

  lemma {:induction false} DeleteKeepsDistinct(ledger: seq<TtlRecord>, ids: set<nat>, nextId: nat)
    requires FreshIds(ledger, nextId)
    ensures FreshIds(DeleteTtl(ledger, ids), nextId)
  {
    if |ledger| > 0 {
      var tail := ledger[1..];
      DeleteKeepsDistinct(tail, ids, nextId);
      var rest := DeleteTtl(tail, ids);
      if ledger[0].id !in ids {
        assert DeleteTtl(ledger, ids) == [ledger[0]] + rest;
        forall j | 0 <= j < |rest| ensures rest[j].id != ledger[0].id {
          assert rest[j] in tail;
          var k :| 0 <= k < |tail| && tail[k] == rest[j];
          assert tail[k] == ledger[k + 1];
        }
      }
    }
  }

  lemma {:induction false} ApplyAllValid(st: Store, qs: seq<Request>)
    requires Valid(st)
    ensures ApplyAll(st, qs).Ok? ==> Valid(ApplyAll(st, qs).value)
    decreases |qs|
  {
    if |qs| > 0 {
      ApplyValid(st, qs[0]);
      if Apply(st, qs[0]).Ok? {
        ApplyAllValid(Apply(st, qs[0]).value, qs[1..]);
      }
    }
  }

  /** Running two request lists one after the other is running their
      concatenation. */
  lemma {:induction false} ApplyAllAppend(st: Store, a: seq<Request>, b: seq<Request>)
    ensures ApplyAll(st, a + b) ==
      (match ApplyAll(st, a) case Err(e) => Err(e) case Ok(st') => ApplyAll(st', b))
    decreases |a|
  {
    if |a| == 0 {
      assert a + b == b;
    } else {
      assert (a + b)[1..] == a[1..] + b;
      if Apply(st, a[0]).Ok? {
        ApplyAllAppend(Apply(st, a[0]).value, a[1..], b);
      }
    }
  }
}

/** Writing objects with deterministic ids: a batch of upserts, one per
    tenant, each naming the same object ids. */
module Upserts {
  import opened Common
  import opened Backend

  /** The object ids a tenant holds; none if it has never been written. */
  function ObjectsOf(st: Store, t: string): set<nat>
  {
    if t in st.objects then st.objects[t] else {}
  }

  /** One upsert request per tenant, all with the same ids. */
  function UpsertEach(names: seq<string>, ids: seq<nat>): (r: seq<Request>)
    ensures |r| == |names|
    ensures forall k :: 0 <= k < |names| ==> r[k] == UpsertObjects(names[k], ids)
  {
    seq(|names|, k requires 0 <= k < |names| => UpsertObjects(names[k], ids))
  }

  /** Upserting into known tenants adds the ids to exactly those tenants
      and touches nothing else. */
  lemma {:induction false} UpsertEachEffect(st: Store, names: seq<string>, ids: seq<nat>)
    requires forall n :: n in names ==> n in NameSet(st.tenants)
    ensures ApplyAll(st, UpsertEach(names, ids)).Ok?
    ensures var r := ApplyAll(st, UpsertEach(names, ids)).value;
      && r.tenants == st.tenants && r.ledger == st.ledger && r.nextId == st.nextId
      && (forall n :: n in names ==> n in r.objects && r.objects[n] == ObjectsOf(st, n) + set i | i in ids)
      && (forall n :: n !in names ==> ObjectsOf(r, n) == ObjectsOf(st, n) && (n in r.objects <==> n in st.objects))
    decreases |names|
  {
    var qs := UpsertEach(names, ids);
    if |names| > 0 {
      var n0 := names[0];
      var st1 := Apply(st, qs[0]).value;
      assert st1 == st.(objects := st.objects[n0 := ObjectsOf(st, n0) + set i | i in ids]);
      assert qs[1..] == UpsertEach(names[1..], ids);
      UpsertEachEffect(st1, names[1..], ids);
    }
  }
}

=== FILE: blue_chip.dfy ===
/** The "blue-chip" user simulation: 1000 simulated users are launched at
    a slowly increasing rate, each against a random tenant; a user
    activates its tenant, queries it for a minute and deactivates it. */
module BlueChip {
  import opened Common
  import opened Backend

  const Users := 1000

  /** Capacity of the error channel. */
  const ErrorCapacity := 1000

  const InitialSleepMs := 500
  const SleepStepMs := 5
  const SleepFloorMs := 10

  /** Length of a user's query session. */
  const SessionMs := 60000

  /** The pause between two queries is `rand.Intn(5000) + 1000` ms. */
  const MinPauseMs := 1000
  const PauseRangeMs := 5000

  /** The sleep after launching user `i`: it starts at 500 ms and, after
      every tenth launch, drops by 5 ms while it is above 10 ms. */
  function Sleep(i: nat): (ms: int)
  {
    if i == 0 then InitialSleepMs
    else
      var prev := Sleep(i - 1);
      if (i - 1) % 10 == 9 && prev > SleepFloorMs then prev - SleepStepMs else prev
  }

  /** The schedule in closed form: one step per completed group of ten. */
  lemma {:induction false} SleepClosedForm(i: nat)
    ensures Sleep(i) == Max(SleepFloorMs, InitialSleepMs - SleepStepMs * (i / 10))
  {
    if i > 0 {
      SleepClosedForm(i - 1);
      if (i - 1) % 10 == 9 {
        assert i / 10 == (i - 1) / 10 + 1;
      } else {
        assert i / 10 == (i - 1) / 10;
      }
    }
  }

  /** The sleep never increases and never drops below 10 ms. */
  lemma SleepBounds(i: nat, j: nat)
    requires i <= j
    ensures SleepFloorMs <= Sleep(j) <= Sleep(i) <= InitialSleepMs
  {
    SleepClosedForm(i);
    SleepClosedForm(j);
    assert i / 10 <= j / 10;
  }

  /** `fetchAllTenants`: the names, in listing order. */
  function FetchAllTenants(listing: Result<seq<Tenant>>): (r: Result<seq<string>>)
    ensures r.Err? <==> listing.Err?
    ensures r.Ok? ==> |r.value| == |listing.value|
    ensures r.Ok? ==> forall i :: 0 <= i < |r.value| ==> r.value[i] == listing.value[i].name
  {
    if listing.Err? then Err(listing.error) else Ok(Names(listing.value))
  }

  /** The launch loop: which tenant each of the 1000 users gets, and the
      sleeps between launches.  `rand.Intn` panics on an empty list. */
  function Launch(tenants: seq<string>, draw: Draw): (r: Result<seq<string>>)
    requires InRange(draw)
    ensures r.Err? <==> |tenants| == 0
    ensures r.Ok? ==> |r.value| == Users
    ensures r.Ok? ==> forall i :: 0 <= i < Users ==> r.value[i] in tenants
  {
    if |tenants| == 0 then Err("invalid argument to Intn")
    else Ok(seq(Users, i requires 0 <= i < Users => tenants[draw(i, |tenants|)]))
  }

  /** The total time spent sleeping in the launch loop. */
  function LaunchTime(n: nat): (ms: int)
  {
    if n == 0 then 0 else LaunchTime(n - 1) + Sleep(n - 1)
  }

  lemma {:induction false} LaunchTimeBounds(n: nat)
    ensures SleepFloorMs * n <= LaunchTime(n) <= InitialSleepMs * n
  {
    if n > 0 {
      LaunchTimeBounds(n - 1);
      SleepBounds(0, n - 1);
    }
  }

  datatype Event = Activate(tenant: string) | Query(tenant: string) | Deactivate(tenant: string)

  /** What the backend answers one user: whether activation, query k and
      deactivation fail, and the time at each check of the session loop. */
  datatype UserEnv = UserEnv(activateFails: bool, queryFails: nat -> bool, deactivateFails: bool, clock: Clock)

  /** `simulateUser`: the requests it sends, in order, the error it returns
      and the tenants afterwards.  `start` is when the session's one-minute
      deadline was set, right after activation. */
  method SimulateUser(tenant: string, ts: seq<Tenant>, env: UserEnv, start: int)
    returns (trace: seq<Event>, err: Option<string>, ts': seq<Tenant>)
    requires Advances(env.clock, MinPauseMs) && start <= env.clock(0)
    ensures 1 <= |trace| && trace[0] == Activate(tenant)
    ensures env.activateFails ==> trace == [Activate(tenant)] && err.Some? && ts' == ts
    ensures env.activateFails <==> |trace| == 1
    ensures |trace| >= 2 ==> trace[|trace| - 1] == Query(tenant) || trace[|trace| - 1] == Deactivate(tenant)
    ensures forall q: nat :: 1 <= q < |trace| - 1 ==> trace[q] == Query(tenant) && !env.queryFails(q - 1)
    ensures Deactivate(tenant) in trace <==> trace[|trace| - 1] == Deactivate(tenant)
    ensures trace[|trace| - 1] == Deactivate(tenant) ==>
      !env.activateFails && forall k :: 0 <= k < |trace| - 2 ==> !env.queryFails(k)
    ensures trace[|trace| - 1] == Deactivate(tenant) ==>
      && env.clock(|trace| - 2) >= start + SessionMs
      && forall k :: 0 <= k < |trace| - 2 ==> env.clock(k) < start + SessionMs
    ensures trace[|trace| - 1] == Query(tenant) ==>
      && env.queryFails(|trace| - 2)
      && forall k :: 0 <= k <= |trace| - 2 ==> env.clock(k) < start + SessionMs
    ensures |trace| <= 2 + SessionMs / MinPauseMs
    ensures err.None? <==> trace[|trace| - 1] == Deactivate(tenant) && !env.deactivateFails
    ensures err.None? ==> ts' == SetStatus(ts, {tenant}, Cold)
  {
    trace := [Activate(tenant)];
    if env.activateFails {
      return trace, Some("failed to activate tenant"), ts;
    }
    ts' := SetStatus(ts, {tenant}, Active);
    var k := 0;
    while env.clock(k) < start + SessionMs
      invariant 0 <= k <= SessionMs / MinPauseMs
      invariant |trace| == k + 1 && trace[0] == Activate(tenant)
      invariant forall m :: 1 <= m < |trace| ==> trace[m] == Query(tenant) && !env.queryFails(m - 1)
      invariant ts' == SetStatus(ts, {tenant}, Active)
      invariant forall m :: 0 <= m < k ==> env.clock(m) < start + SessionMs
      decreases SessionMs / MinPauseMs - k
    {
      AdvancesFar(env.clock, MinPauseMs, k);
      var before := trace;
      trace := before + [Query(tenant)];
      assert forall m :: 1 <= m < |before| ==> trace[m] == before[m];
      if env.queryFails(k) {
        return trace, Some("query using near vector failed"), ts';
      }
      k := k + 1;
    }
    assert forall m :: 0 <= m < k ==> !env.queryFails(m) by {
      forall m | 0 <= m < k ensures !env.queryFails(m) {
        assert trace[m + 1] == Query(tenant);
      }
    }
    trace := trace + [Deactivate(tenant)];
    if env.deactivateFails {
      return trace, Some("failed to disable tenant"), ts';
    }
    SetStatusTwice(ts, tenant);
    return trace, None, SetStatus(ts', {tenant}, Cold);
  }

  /** A later status update of the same tenant overrides an earlier one. */
  lemma SetStatusTwice(ts: seq<Tenant>, tenant: string)
    ensures SetStatus(SetStatus(ts, {tenant}, Active), {tenant}, Cold) == SetStatus(ts, {tenant}, Cold)
  {
  }

  /** The users' errors: at most one per user, so at most the channel's
      capacity, and sends into it never block. */
  function Errors(results: seq<Option<string>>): (errs: seq<string>)
    ensures |errs| <= |results|
    ensures forall e :: e in errs ==> Some(e) in results
  {
    if |results| == 0 then []
    else
      var rest := Errors(results[1..]);
      (if results[0].Some? then [results[0].value] else []) + rest
  }

  lemma ErrorsFitChannel(results: seq<Option<string>>)
    requires |results| == Users
    ensures |Errors(results)| <= ErrorCapacity
  {
  }
}

=== FILE: common.dfy ===
/** Shared vocabulary of the load-test model: failure-carrying results, the
    tenant activity status, the source of random choices and the abstract
    clock.  Every other module imports this one. */
module Common {

  /** An optional value (Python's `None`, Go's zero value). */
  datatype Option<T> = None | Some(value: T)

  /** Either a value or the error that a call raised. */
  datatype Result<T> = Ok(value: T) | Err(error: string)

  /** The activity status of a tenant.  `HOT`, the older name the clients
      use when they activate a tenant, is `Active` here.  `Cold` and
      `Frozen` are kept apart: one process writes `Cold`, another reads
      `Frozen`, and nothing in the code links the two. */
  datatype Status = Active | Cold | Frozen | Offloaded

  /** A tenant as the backend lists it. */
  datatype Tenant = Tenant(name: string, status: Status)

  /** A source of random numbers: `draw(k, b)` is the k-th draw of a
      uniform choice in `[0, b)` (Python's `randrange(b)`, `random.choice`,
      Go's `rand.Intn(b)`).  No generator is modelled; any function that
      stays in range is a possible run. */
  type Draw = (nat, nat) -> nat

  ghost predicate InRange(draw: Draw)
  {
    forall k: nat, b: nat {:trigger draw(k, b)} :: 0 < b ==> draw(k, b) < b
  }

  /** An abstract clock read at successive checks of a loop: the time of
      check k.  Every check is followed by a pause of at least `gap`
      time units before the next one, so any later check is at least
      `gap` later. */
  type Clock = nat -> int

  ghost predicate Advances(clock: Clock, gap: nat)
  {
    forall i: nat, j: nat {:trigger clock(i), clock(j)} :: i < j ==> clock(i) + gap <= clock(j)
  }

  lemma {:induction false} AdvancesFar(clock: Clock, gap: nat, k: nat)
    requires Advances(clock, gap)
    ensures clock(0) + k * gap <= clock(k)
  {
    if k > 0 {
      AdvancesFar(clock, gap, k - 1);
      assert clock(k - 1) + gap <= clock(k);
      assert (k - 1) * gap + gap == k * gap;
    }
  }

  function Min(a: int, b: int): int { if a <= b then a else b }

  function Max(a: int, b: int): int { if a >= b then a else b }

  /** Python's `s[:k]`: a negative `k` counts from the end. */
  function SliceTo<T>(s: seq<T>, k: int): (r: seq<T>)
    ensures |r| <= |s| && r == s[..|r|]
    ensures 0 <= k ==> |r| == Min(k, |s|)
  {
    if k >= 0 then s[..Min(k, |s|)] else s[..Max(0, |s| + k)]
  }

  /** Python's `range(lo, hi)` as a sequence. */
  function Range(lo: int, hi: int): (r: seq<int>)
    ensures |r| == Max(0, hi - lo)
    ensures forall i :: 0 <= i < |r| ==> r[i] == lo + i
    decreases hi - lo
  {
    if lo >= hi then [] else [lo] + Range(lo + 1, hi)
  }

  predicate Distinct<T(==)>(s: seq<T>)
  {
    forall i, j :: 0 <= i < j < |s| ==> s[i] != s[j]
  }
}

=== FILE: concurrency_diagnostics.dfy ===
/** The concurrency diagnostic: for each concurrency level it sends that
    many simultaneous vector queries, first all to one tenant and then to
    different tenants, and logs the mean and 99th-percentile latency of
    each round. */
module ConcurrencyDiagnostics {
  import opened Common
  import opened Sampling

  /** The concurrency levels, in the order they are tried. */
  const ConcurrencyIntervals: seq<nat> := [1, 2, 3, 4, 5, 6, 7, 8, 9, 10, 20, 30, 40, 50]

  lemma IntervalsArePositive()
    ensures forall k :: 0 <= k < |ConcurrencyIntervals| ==> 1 <= ConcurrencyIntervals[k] <= 50
  {
  }

  predicate Sorted(s: seq<nat>)
  {
    forall i, j :: 0 <= i < j < |s| ==> s[i] <= s[j]
  }

  function Insert(x: nat, s: seq<nat>): (r: seq<nat>)
    requires Sorted(s)
    ensures |r| == |s| + 1
    ensures Sorted(r)
    ensures multiset(r) == multiset(s) + multiset{x}
  {
    if |s| == 0 then [x]
    else if x <= s[0] then
      SortedCons(x, s);
      [x] + s
    else
      var rest := Insert(x, s[1..]);
      assert s == [s[0]] + s[1..];
      LowerBoundKept(rest, s[1..], x, s[0]);
      SortedCons(s[0], rest);
      [s[0]] + rest
  }

  /** A sorted sequence stays sorted under a head no larger than any of
      its elements. */
  lemma SortedCons(a: nat, t: seq<nat>)
    requires Sorted(t) && forall k :: 0 <= k < |t| ==> a <= t[k]
    ensures Sorted([a] + t)
  {
  }

  /** A lower bound of `t` and `x` bounds every permutation of `t` plus `x`. */
  lemma LowerBoundKept(r: seq<nat>, t: seq<nat>, x: nat, lo: nat)
    requires multiset(r) == multiset(t) + multiset{x}
    requires lo <= x && forall k :: 0 <= k < |t| ==> lo <= t[k]
    ensures forall k :: 0 <= k < |r| ==> lo <= r[k]
  {
    forall k | 0 <= k < |r| ensures lo <= r[k] {
      assert r[k] in multiset(r);
      if r[k] != x {
        assert r[k] in multiset(t);
      }
    }
  }

  /** The ascending `sort.Slice` of the durations. */
  function SortAscending(s: seq<nat>): (r: seq<nat>)
    ensures |r| == |s|
    ensures Sorted(r)
    ensures multiset(r) == multiset(s)
  {
    if |s| == 0 then []
    else
      assert s == [s[0]] + s[1..];
      Insert(s[0], SortAscending(s[1..]))
  }

  function Total(ds: seq<nat>): nat
  {
    if |ds| == 0 then 0 else ds[0] + Total(ds[1..])
  }

  /** Summing one more element at the end adds it to the total. */
  lemma {:induction false} TotalAppend(ds: seq<nat>, x: nat)
    ensures Total(ds + [x]) == Total(ds) + x
    decreases |ds|
  {
    if |ds| > 0 {
      assert (ds + [x])[1..] == ds[1..] + [x];
      TotalAppend(ds[1..], x);
    }
  }

  /** `int(0.99 * float64(concurrency))`, with the product taken exactly. */
  function P99Index(concurrency: nat): (k: nat)
    requires 1 <= concurrency
    ensures k < concurrency
  {
    (99 * concurrency) / 100
  }

  /** Up to a hundred queries the 99th percentile is the slowest one. */
  lemma P99IsLastUpToHundred(concurrency: nat)
    requires 1 <= concurrency <= 100
    ensures P99Index(concurrency) == concurrency - 1
  {
    assert 100 * (concurrency - 1) <= 99 * concurrency < 100 * concurrency;
  }

  datatype Report = Report(concurrency: nat, mean: nat, p99: nat)

  /** `totalDuration / time.Duration(concurrency)`: Go's quotient, which
      for non-negative operands is the quotient rounded down. */
  function Mean(total: nat, concurrency: nat): (m: nat)
    requires 1 <= concurrency
    ensures m * concurrency <= total < (m + 1) * concurrency
  {
    var q := total / concurrency;
    DivBounds(total, concurrency);
    q
  }

  /** The element at the 99th-percentile index of the sorted durations. */
  function P99(sorted: seq<nat>): (p: nat)
    requires 1 <= |sorted| && Sorted(sorted)
    ensures p in sorted
    ensures forall k :: 0 <= k <= P99Index(|sorted|) ==> sorted[k] <= p
  {
    sorted[P99Index(|sorted|)]
  }

  /** `logTimes`: the truncated mean and the 99th-percentile duration. */
  function LogTimes(concurrency: nat, durations: seq<nat>): (r: Report)
    requires 1 <= concurrency && |durations| == concurrency
    ensures r.concurrency == concurrency
    ensures r.mean * concurrency <= Total(durations) < (r.mean + 1) * concurrency
    ensures r.p99 in durations
    ensures var sorted := SortAscending(durations);
      forall k :: 0 <= k <= P99Index(concurrency) ==> sorted[k] <= r.p99
  {
    var sorted := SortAscending(durations);
    var p99 := P99(sorted);
    assert p99 in multiset(durations) by {
      assert p99 in multiset(sorted);
    }
    Report(concurrency, Mean(Total(durations), concurrency), p99)
  }

  /** Go's `/` on non-negative operands: the quotient rounded down. */
  lemma DivBounds(t: nat, c: nat)
    requires 1 <= c
    ensures (t / c) * c <= t < (t / c + 1) * c
  {
    var q, m := t / c, t % c;
    assert t == q * c + m && 0 <= m < c;
    assert (q + 1) * c == q * c + c;
  }

  /** For every level the diagnostic uses, the logged p99 is the maximum. */
  lemma P99IsMaximum(concurrency: nat, durations: seq<nat>)
    requires 1 <= concurrency <= 100 && |durations| == concurrency
    ensures forall k :: 0 <= k < |durations| ==> durations[k] <= LogTimes(concurrency, durations).p99
  {
    P99IsLastUpToHundred(concurrency);
    var sorted := SortAscending(durations);
    forall k | 0 <= k < |durations| ensures durations[k] <= LogTimes(concurrency, durations).p99 {
      assert durations[k] in multiset(sorted);
      var j :| 0 <= j < |sorted| && sorted[j] == durations[k];
    }
  }

  /** What one query came back with. */
  datatype Answer =
    | Answered(duration: nat, errors: seq<string>)
    | ClientError(message: string)

  predicate Fails(a: Answer)
  {
    a.ClientError? || |a.errors| > 0
  }

  /** The durations of `count` queries, or an error when any of them
      failed (the group returns one of the failures). */
  function Collect(count: nat, answers: nat -> Answer): (r: Result<seq<nat>>)
    ensures r.Err? <==> exists i :: 0 <= i < count && Fails(answers(i))
    ensures r.Ok? ==> |r.value| == count
    ensures r.Ok? ==> forall i :: 0 <= i < count ==> r.value[i] == answers(i).duration
  {
    if count == 0 then Ok([])
    else
      var prefix := Collect(count - 1, answers);
      var last := answers(count - 1);
      if prefix.Err? then prefix
      else if last.ClientError? then Err(last.message)
      else if |last.errors| > 0 then Err(last.errors[0])
      else Ok(prefix.value + [last.duration])
  }

  /** `querySingleTenant`: `concurrency` queries against one tenant. */
  function QuerySingleTenant(concurrency: nat, answers: nat -> Answer): (r: Result<Report>)
    requires 1 <= concurrency
    ensures r.Err? <==> exists i :: 0 <= i < concurrency && Fails(answers(i))
    ensures r.Ok? ==> r.value.concurrency == concurrency
    ensures r.Ok? ==> Collect(concurrency, answers).Ok? && r.value == LogTimes(concurrency, Collect(concurrency, answers).value)
  {
    var durations := Collect(concurrency, answers);
    if durations.Err? then Err(durations.error) else Ok(LogTimes(concurrency, durations.value))
  }

  datatype Outcome<T> = Finished(value: T) | Failed(error: string) | Panicked(reason: string)

  /** `queryManyTenants` as written: the picks are capped at the number of
      tenants but the loop still indexes `tenants[i]` for every
      `i < concurrency`. */
  function QueryManyTenantsAsWritten(concurrency: nat, picks: seq<string>, answers: nat -> Answer): (r: Outcome<Report>)
    requires 1 <= concurrency
    ensures r.Panicked? <==> |picks| < concurrency
    ensures r.Failed? <==> concurrency <= |picks| && exists i :: 0 <= i < concurrency && Fails(answers(i))
    ensures r.Finished? ==> r.value.concurrency == concurrency
    ensures r.Finished? ==>
      Collect(concurrency, answers).Ok? && r.value == LogTimes(concurrency, Collect(concurrency, answers).value)
  {
    if |picks| < concurrency then Panicked("index out of range")
    else
      var r := QuerySingleTenant(concurrency, answers);
      if r.Err? then Failed(r.error) else Finished(r.value)
  }

  /** Five tenants at concurrency six: `pickTenants` returns five, and the
      sixth query indexes past them. */
  method FiveTenantsAtConcurrencySix(draw: Draw, answers: nat -> Answer) returns (r: Outcome<Report>)
    requires InRange(draw)
    ensures r.Panicked?
  {
    var picks := PickDistinct(6, ["t0", "t1", "t2", "t3", "t4"], draw);
    r := QueryManyTenantsAsWritten(6, picks, answers);
  }

  /** Whenever there are fewer tenants than the concurrency level, the
      as-written round panics. */
  lemma FewerTenantsPanic(concurrency: nat, tenants: seq<string>, picks: seq<string>, answers: nat -> Answer)
    requires 1 <= concurrency && |tenants| < concurrency && |picks| == Min(concurrency, |tenants|)
    ensures QueryManyTenantsAsWritten(concurrency, picks, answers).Panicked?
  {
  }

  /** The corrected round: one query per picked tenant, so the number of
      concurrent queries is capped together with the picks. */
  function QueryManyTenants(concurrency: nat, picks: seq<string>, answers: nat -> Answer): (r: Outcome<Report>)
    requires 1 <= |picks| <= concurrency
    ensures !r.Panicked?
    ensures r.Failed? <==> exists i :: 0 <= i < |picks| && Fails(answers(i))
    ensures r.Finished? ==> r.value.concurrency == |picks|
    ensures r.Finished? ==>
      Collect(|picks|, answers).Ok? && r.value == LogTimes(|picks|, Collect(|picks|, answers).value)
  {
    var r := QuerySingleTenant(|picks|, answers);
    if r.Err? then Failed(r.error) else Finished(r.value)
  }

  /** Where the tenants suffice, the corrected round is the original one. */
  lemma CorrectedAgreesWhenTenantsSuffice(concurrency: nat, picks: seq<string>, answers: nat -> Answer)
    requires 1 <= concurrency == |picks|
    ensures QueryManyTenants(concurrency, picks, answers) == QueryManyTenantsAsWritten(concurrency, picks, answers)
  {
  }

  /** Some query of a level with `concurrency` queries fails. */
  predicate LevelFails(concurrency: nat, answers: nat -> Answer)
  {
    exists i :: 0 <= i < concurrency && Fails(answers(i))
  }

  /** Every level passes. */
  predicate AllLevelsPass(levels: seq<nat>, answers: nat -> nat -> Answer)
  {
    forall k :: 0 <= k < |levels| ==> !LevelFails(levels[k], answers(k))
  }

  /** Test 2 as written reaches a level above the number of tenants: every
      earlier level had enough tenants and passed. */
  predicate ReachesShortLevel(levels: seq<nat>, tenantCount: nat, answers: nat -> nat -> Answer)
  {
    exists k :: 0 <= k < |levels| && tenantCount < levels[k] && PassedBefore(levels, tenantCount, answers, k)
  }

  predicate PassedBefore(levels: seq<nat>, tenantCount: nat, answers: nat -> nat -> Answer, k: nat)
    requires k <= |levels|
  {
    forall m :: 0 <= m < k ==> levels[m] <= tenantCount && !LevelFails(levels[m], answers(m))
  }

  /** Test 2 stops at a level that fits the tenants and fails: no later
      level is reached. */
  lemma FailedLevelStops(levels: seq<nat>, tenantCount: nat, answers: nat -> nat -> Answer, k: nat)
    requires k < |levels| && PassedBefore(levels, tenantCount, answers, k)
    requires levels[k] <= tenantCount && LevelFails(levels[k], answers(k))
    ensures !ReachesShortLevel(levels, tenantCount, answers)
    ensures !PassedBefore(levels, tenantCount, answers, |levels|)
  {
  }

  /** Test 2 stops at the first level above the number of tenants. */
  lemma ShortLevelStops(levels: seq<nat>, tenantCount: nat, answers: nat -> nat -> Answer, k: nat)
    requires k < |levels| && PassedBefore(levels, tenantCount, answers, k)
    requires tenantCount < levels[k]
    ensures ReachesShortLevel(levels, tenantCount, answers)
    ensures !PassedBefore(levels, tenantCount, answers, |levels|)
  {
  }

  lemma PassedStep(levels: seq<nat>, tenantCount: nat, answers: nat -> nat -> Answer, k: nat)
    requires k < |levels| && PassedBefore(levels, tenantCount, answers, k)
    requires levels[k] <= tenantCount && !LevelFails(levels[k], answers(k))
    ensures PassedBefore(levels, tenantCount, answers, k + 1)
  {
  }

  /** A test 2 that passed every level reached none above the tenants. */
  lemma PassedAllStops(levels: seq<nat>, tenantCount: nat, answers: nat -> nat -> Answer)
    requires PassedBefore(levels, tenantCount, answers, |levels|)
    ensures !ReachesShortLevel(levels, tenantCount, answers)
  {
  }

  /** Test 1: every level against one tenant.  `answers(k)` answers the
      queries of level k. */
  method SingleTenantTest(answers: nat -> nat -> Answer) returns (out: Outcome<seq<Report>>, sent: nat)
    ensures out.Panicked? == false
    ensures out.Finished? <==> AllLevelsPass(ConcurrencyIntervals, answers)
    ensures out.Finished? ==> |out.value| == |ConcurrencyIntervals|
    ensures out.Finished? ==> forall k :: 0 <= k < |out.value| ==> out.value[k].concurrency == ConcurrencyIntervals[k]
  {
    IntervalsArePositive();
    out, sent := SingleTenantLevels(ConcurrencyIntervals, answers);
  }

  /** One level of test 1. */
  method SingleTenantLevel(level: nat, answers: nat -> Answer) returns (r: Result<Report>)
    requires 1 <= level
    ensures r.Err? <==> LevelFails(level, answers)
    ensures r.Ok? ==> r.value.concurrency == level
  {
    r := QuerySingleTenant(level, answers);
  }

  /** Test 1 over any list of positive levels, stopping at the first
      failed level. */
  method SingleTenantLevels(levels: seq<nat>, answers: nat -> nat -> Answer)
    returns (out: Outcome<seq<Report>>, sent: nat)
    requires forall k :: 0 <= k < |levels| ==> 1 <= levels[k]
    ensures out.Panicked? == false
    ensures out.Finished? <==> AllLevelsPass(levels, answers)
    ensures out.Finished? ==> |out.value| == |levels|
    ensures out.Finished? ==> forall k :: 0 <= k < |out.value| ==> out.value[k].concurrency == levels[k]
    ensures out.Finished? ==> sent == Total(levels)
  {
    var reports: seq<Report> := [];
    sent := 0;
    var k := 0;
    while k < |levels|
      invariant 0 <= k <= |levels|
      invariant |reports| == k
      invariant forall m :: 0 <= m < k ==> reports[m].concurrency == levels[m]
      invariant forall m :: 0 <= m < k ==> !LevelFails(levels[m], answers(m))
      invariant sent == Total(levels[..k])
    {
      var r := SingleTenantLevel(levels[k], answers(k));
      TotalAppend(levels[..k], levels[k]);
      assert levels[..k + 1] == levels[..k] + [levels[k]];
      sent := sent + levels[k];
      if r.Err? {
        return Failed(r.error), sent;
      }
      reports := reports + [r.value];
      k := k + 1;
    }
    assert levels[..k] == levels;
    out := Finished(reports);
  }

  /** Test 2: every level against distinct picked tenants, as written: it
      finishes only with at least 50 tenants, the last level. */
  method ManyTenantsTest(tenants: seq<string>, draw: Draw, answers: nat -> nat -> Answer)
    returns (out: Outcome<seq<Report>>, sent: nat)
    requires InRange(draw) && 1 <= |tenants|
    ensures out.Panicked? <==> ReachesShortLevel(ConcurrencyIntervals, |tenants|, answers)
    ensures out.Finished? <==> 50 <= |tenants| && AllLevelsPass(ConcurrencyIntervals, answers)
    ensures out.Panicked? ==> |tenants| < 50
    ensures out.Finished? ==> |out.value| == |ConcurrencyIntervals|
    ensures out.Finished? ==> forall k :: 0 <= k < |out.value| ==>
      out.value[k].concurrency == ConcurrencyIntervals[k]
  {
    IntervalsArePositive();
    out, sent := ManyTenantsLevels(ConcurrencyIntervals, tenants, draw, answers);
    if out.Finished? {
      assert ConcurrencyIntervals[13] <= |tenants|;
    }
    if out.Panicked? {
      var k :| 0 <= k < |ConcurrencyIntervals| && |tenants| < ConcurrencyIntervals[k]
        && PassedBefore(ConcurrencyIntervals, |tenants|, answers, k);
      assert ConcurrencyIntervals[k] <= 50;
    }
  }

  /** One level of test 2 as written: pick the tenants, then query. */
  method ManyTenantsLevel(level: nat, tenants: seq<string>, draw: Draw, answers: nat -> Answer)
    returns (r: Outcome<Report>)
    requires InRange(draw) && 1 <= level
    ensures r.Panicked? <==> |tenants| < level
    ensures r.Failed? <==> level <= |tenants| && LevelFails(level, answers)
    ensures r.Finished? ==> r.value.concurrency == level
  {
    var picks := PickDistinct(level, tenants, draw);
    r := QueryManyTenantsAsWritten(level, picks, answers);
  }

  /** Test 2 as written over any list of positive levels: it stops at the
      first level that fails or that has more queries than tenants, the
      latter with a panic.  `sent` counts the queries launched, including
      the one per tenant that a panicking level starts before it indexes
      past the picked tenants. */
  method ManyTenantsLevels(levels: seq<nat>, tenants: seq<string>, draw: Draw, answers: nat -> nat -> Answer)
    returns (out: Outcome<seq<Report>>, sent: nat)
    requires InRange(draw) && 1 <= |tenants|
    requires forall k :: 0 <= k < |levels| ==> 1 <= levels[k]
    ensures out.Panicked? <==> ReachesShortLevel(levels, |tenants|, answers)
    ensures out.Finished? <==> PassedBefore(levels, |tenants|, answers, |levels|)
    ensures out.Finished? ==> |out.value| == |levels|
    ensures out.Finished? ==> forall k :: 0 <= k < |out.value| ==> out.value[k].concurrency == levels[k]
  {
    var reports: seq<Report> := [];
    sent := 0;
    var k := 0;
    while k < |levels|
      invariant 0 <= k <= |levels|
      invariant |reports| == k
      invariant forall m :: 0 <= m < k ==> reports[m].concurrency == levels[m]
      invariant PassedBefore(levels, |tenants|, answers, k)
    {
      var r := ManyTenantsLevel(levels[k], tenants, draw, answers(k));
      if r.Panicked? {
        ShortLevelStops(levels, |tenants|, answers, k);
        return Panicked(r.reason), sent + |tenants|;
      }
      sent := sent + levels[k];
      if r.Failed? {
        FailedLevelStops(levels, |tenants|, answers, k);
        return Failed(r.error), sent;
      }
      PassedStep(levels, |tenants|, answers, k);
      reports := reports + [r.value];
      k := k + 1;
    }
    PassedAllStops(levels, |tenants|, answers);
    out := Finished(reports);
  }

  /** Test 2 with the corrected level: no panic, and a level fails exactly
      when one of the queries to the tenants it picked fails. */
  method CorrectedManyTenantsLevels(levels: seq<nat>, tenants: seq<string>, draw: Draw, answers: nat -> nat -> Answer)
    returns (out: Outcome<seq<Report>>, sent: nat)
    requires InRange(draw) && 1 <= |tenants|
    requires forall k :: 0 <= k < |levels| ==> 1 <= levels[k]
    ensures out.Panicked? == false
    ensures out.Finished? <==> forall k :: 0 <= k < |levels| ==> !LevelFails(Min(levels[k], |tenants|), answers(k))
    ensures out.Finished? ==> |out.value| == |levels|
    ensures out.Finished? ==> forall k :: 0 <= k < |out.value| ==>
      out.value[k].concurrency == Min(levels[k], |tenants|)
  {
    var reports: seq<Report> := [];
    sent := 0;
    var k := 0;
    while k < |levels|
      invariant 0 <= k <= |levels|
      invariant |reports| == k
      invariant forall m :: 0 <= m < k ==> reports[m].concurrency == Min(levels[m], |tenants|)
      invariant forall m :: 0 <= m < k ==> !LevelFails(Min(levels[m], |tenants|), answers(m))
    {
      var picks := PickDistinct(levels[k], tenants, draw);
      var r := QueryManyTenants(levels[k], picks, answers(k));
      sent := sent + |picks|;
      if r.Failed? {
        return Failed(r.error), sent;
      }
      reports := reports + [r.value];
      k := k + 1;
    }
    out := Finished(reports);
  }

  /** `do`: list the tenants, refuse an empty list before any query, then
      run both tests, stopping at the first error.  `answers(b)` answers
      the queries of round b (rounds 0 to 13 are test 1, 14 to 27 test 2);
      `sent` counts the queries issued.  With fewer than 50 tenants the
      run never finishes: test 2 panics unless an earlier level fails. */
  method Do(listing: Result<seq<string>>, draw: Draw, answers: nat -> nat -> Answer)
    returns (out: Outcome<seq<Report>>, sent: nat)
    requires InRange(draw)
    ensures listing.Err? ==> out == Failed(listing.error) && sent == 0
    ensures listing.Ok? && |listing.value| == 0 ==> out.Failed? && sent == 0
    ensures out.Panicked? <==>
      && listing.Ok? && 1 <= |listing.value|
      && AllLevelsPass(ConcurrencyIntervals, answers)
      && ReachesShortLevel(ConcurrencyIntervals, |listing.value|, k => answers(|ConcurrencyIntervals| + k))
    ensures out.Finished? <==>
      && listing.Ok? && 50 <= |listing.value|
      && AllLevelsPass(ConcurrencyIntervals, answers)
      && AllLevelsPass(ConcurrencyIntervals, k => answers(|ConcurrencyIntervals| + k))
    ensures out.Finished? ==> |out.value| == 2 * |ConcurrencyIntervals|
    ensures out.Finished? ==> forall k :: 0 <= k < |ConcurrencyIntervals| ==>
      && out.value[k].concurrency == ConcurrencyIntervals[k]
      && out.value[|ConcurrencyIntervals| + k].concurrency == ConcurrencyIntervals[k]
  {
    if listing.Err? {
      return Failed(listing.error), 0;
    }
    var tenants := listing.value;
    if |tenants| == 0 {
      return Failed("no tenants found for class"), 0;
    }
    var first, sentFirst := SingleTenantTest(answers);
    if !first.Finished? {
      return first, sentFirst;
    }
    var second, sentSecond := ManyTenantsTest(tenants, draw, k => answers(|ConcurrencyIntervals| + k));
    sent := sentFirst + sentSecond;
    if !second.Finished? {
      return second, sent;
    }
    out := Finished(first.value + second.value);
  }
}

=== FILE: corruption_checker.dfy ===
/** The progress watcher: every tenth iteration it reads the per-node
    statistics, adds up shards (one per tenant) and objects, and ends the
    process successfully once the tenant goal is reached. */
module CorruptionChecker {

  /** The `stats` of one node in the verbose node status. */
  datatype NodeStats = NodeStats(shardCount: int, objectCount: int)

  /** The check runs on iterations that are multiples of this. */
  const CheckEvery := 10

  function SumShards(nodes: seq<NodeStats>): int
  {
    if |nodes| == 0 then 0 else nodes[0].shardCount + SumShards(nodes[1..])
  }

  function SumObjects(nodes: seq<NodeStats>): int
  {
    if |nodes| == 0 then 0 else nodes[0].objectCount + SumObjects(nodes[1..])
  }

  /** The totals do not depend on how the nodes are grouped. */
  lemma {:induction false} SumsConcat(a: seq<NodeStats>, b: seq<NodeStats>)
    ensures SumShards(a + b) == SumShards(a) + SumShards(b)
    ensures SumObjects(a + b) == SumObjects(a) + SumObjects(b)
    decreases |a|
  {
    if |a| == 0 {
      assert a + b == b;
    } else {
      assert (a + b)[1..] == a[1..] + b;
      SumsConcat(a[1..], b);
    }
  }

  /** With non-negative counts, the total is at least any single node's. */
  lemma {:induction false} SumShardsBounds(nodes: seq<NodeStats>, k: nat)
    requires k < |nodes|
    requires forall j :: 0 <= j < |nodes| ==> nodes[j].shardCount >= 0
    ensures nodes[k].shardCount <= SumShards(nodes)
    decreases k
  {
    if k > 0 {
      assert nodes[1..][k - 1] == nodes[k];
      SumShardsNonNegative(nodes[1..]);
      SumShardsBounds(nodes[1..], k - 1);
    } else {
      SumShardsNonNegative(nodes[1..]);
    }
  }

  lemma {:induction false} SumShardsNonNegative(nodes: seq<NodeStats>)
    requires forall j :: 0 <= j < |nodes| ==> nodes[j].shardCount >= 0
    ensures SumShards(nodes) >= 0
    decreases |nodes|
  {
    if |nodes| > 0 {
      SumShardsNonNegative(nodes[1..]);
    }
  }

  datatype Progress = Progress(tenants: int, objects: int, reached: bool)

  /** `check_progess` on one response. */
  function CheckProgress(nodes: seq<NodeStats>, goal: int): (p: Progress)
    ensures p.tenants == SumShards(nodes) && p.objects == SumObjects(nodes)
    ensures p.reached <==> SumShards(nodes) >= goal
  {
    var tenants := SumShards(nodes);
    Progress(tenants, SumObjects(nodes), tenants >= goal)
  }

  /** The verdict is monotone in the nodes reporting: with non-negative
      shard counts, nodes that join the response never undo a reached goal,
      and their shards and objects add to the totals. */
  lemma {:induction false} MoreNodesKeepGoal(a: seq<NodeStats>, b: seq<NodeStats>, goal: int)
    requires forall j :: 0 <= j < |b| ==> b[j].shardCount >= 0
    ensures CheckProgress(a, goal).reached ==> CheckProgress(a + b, goal).reached
    ensures CheckProgress(a + b, goal).tenants == CheckProgress(a, goal).tenants + CheckProgress(b, goal).tenants
    ensures CheckProgress(a + b, goal).objects == CheckProgress(a, goal).objects + CheckProgress(b, goal).objects
  {
    SumsConcat(a, b);
    SumShardsNonNegative(b);
  }

  /** The `while True` loop, cut after `maxIterations` iterations.
      `responses(c)` is what the c-th check reads.  `exited` means the
      process ended with status 0, at iteration `i`. */
  method Watch(goal: int, responses: nat -> seq<NodeStats>, maxIterations: nat)
    returns (exited: bool, i: nat, checks: nat)
    ensures exited ==> 1 <= checks && i == CheckEvery * (checks - 1) && SumShards(responses(checks - 1)) >= goal
    ensures forall c :: 0 <= c < checks && !(exited && c == checks - 1) ==> SumShards(responses(c)) < goal
    ensures !exited ==> i == maxIterations && CheckEvery * checks - 9 <= maxIterations <= CheckEvery * checks
    ensures 0 < maxIterations ==> 1 <= checks
  {
    i := 0;
    checks := 0;
    while i < maxIterations
      invariant i <= maxIterations
      invariant CheckEvery * checks - 9 <= i <= CheckEvery * checks
      invariant forall c :: 0 <= c < checks ==> SumShards(responses(c)) < goal
      invariant 0 < i ==> 1 <= checks
    {
      MultipleOfTen(i, checks);
      if i % CheckEvery == 0 {
        var p := CheckProgress(responses(checks), goal);
        checks := checks + 1;
        if p.reached {
          return true, i, checks;
        }
      }
      i := i + 1;
    }
    exited := false;
  }

  /** Between two consecutive checks the only multiple of ten is the next
      check's iteration. */
  lemma MultipleOfTen(i: nat, checks: nat)
    requires CheckEvery * checks - 9 <= i <= CheckEvery * checks
    ensures i % CheckEvery == 0 <==> i == CheckEvery * checks
  {
    if i % CheckEvery == 0 {
      var q := i / CheckEvery;
      assert i == CheckEvery * q;
      assert q == checks;
    }
  }
}

=== FILE: decimal.dfy ===
/** Decimal rendering of integers, as Python's `str(n)` and the
    zero-padded `f"{n:0Wd}"` format produce it, together with the parser
    that inverts both. */
module Decimal {
  import Common

  predicate IsDigit(c: char) { '0' <= c <= '9' }

  predicate AllDigits(s: string) { forall i :: 0 <= i < |s| ==> IsDigit(s[i]) }

  function DigitChar(d: nat): (c: char)
    requires d < 10
    ensures IsDigit(c)
  {
    (48 + d) as char
  }

  function DigitValue(c: char): nat
    requires IsDigit(c)
  {
    c as int - 48
  }

  function Pow10(k: nat): (r: nat)
    ensures r >= 1
  {
    if k == 0 then 1 else 10 * Pow10(k - 1)
  }

  /** The shortest decimal spelling of `n`: "0" for zero, no leading zeros
      otherwise. */
  function Digits(n: nat): (s: string)
    ensures |s| >= 1 && AllDigits(s)
    decreases n
  {
    if n < 10 then [DigitChar(n)] else Digits(n / 10) + [DigitChar(n % 10)]
  }

  /** The number a digit string spells; leading zeros do not count. */
  function Value(s: string): nat
    requires AllDigits(s)
  {
    if |s| == 0 then 0 else Value(s[..|s| - 1]) * 10 + DigitValue(s[|s| - 1])
  }

  function Zeros(k: nat): (s: string)
    ensures |s| == k && AllDigits(s)
    ensures forall i :: 0 <= i < k ==> s[i] == '0'
  {
    seq(k, _ => '0')
  }

  /** `s` left-padded with zeros to at least `width` characters. */
  function ZeroPad(s: string, width: nat): (r: string)
    requires AllDigits(s)
    ensures AllDigits(r)
    ensures |r| == Common.Max(|s|, width)
    ensures Value(r) == Value(s)
  {
    var z := Zeros(if |s| < width then width - |s| else 0);
    ValueIgnoresLeadingZeros(z, s);
    z + s
  }

  lemma {:induction false} ValueOfDigits(n: nat)
    ensures Value(Digits(n)) == n
    decreases n
  {
    if n >= 10 {
      ValueOfDigits(n / 10);
      var s := Digits(n / 10) + [DigitChar(n % 10)];
      assert s[..|s| - 1] == Digits(n / 10);
    }
  }

  lemma {:induction false} ValueIgnoresLeadingZeros(z: string, s: string)
    requires AllDigits(s)
    requires forall i :: 0 <= i < |z| ==> z[i] == '0'
    ensures AllDigits(z + s)
    ensures Value(z + s) == Value(s)
    decreases |s|
  {
    var t := z + s;
    assert AllDigits(t) by {
      forall i | 0 <= i < |t| ensures IsDigit(t[i]) {
        if i < |z| { assert t[i] == z[i]; } else { assert t[i] == s[i - |z|]; }
      }
    }
    if |s| == 0 {
      assert t == z;
      ValueOfZeros(z);
    } else {
      var s' := s[..|s| - 1];
      assert t[..|t| - 1] == z + s';
      ValueIgnoresLeadingZeros(z, s');
    }
  }

  lemma {:induction false} ValueOfZeros(z: string)
    requires forall i :: 0 <= i < |z| ==> z[i] == '0'
    ensures AllDigits(z) && Value(z) == 0
  {
    if |z| > 0 {
      ValueOfZeros(z[..|z| - 1]);
    }
  }

  /** A number below 10^k has at most k digits. */
  lemma {:induction false} DigitsLength(n: nat, k: nat)
    requires 1 <= k && n < Pow10(k)
    ensures |Digits(n)| <= k
    decreases k
  {
    if n >= 10 {
      assert k > 1;
      DigitsLength(n / 10, k - 1);
    }
  }

  /** Two numbers with the same decimal spelling, padded or not, are equal. */
  lemma PaddedDigitsInjective(a: nat, b: nat, wa: nat, wb: nat)
    requires ZeroPad(Digits(a), wa) == ZeroPad(Digits(b), wb)
    ensures a == b
  {
    ValueOfDigits(a);
    ValueOfDigits(b);
  }
}

=== FILE: expired_deactivator.dfy ===
/** The TTL-expiry process: every tick it fetches up to 1000 TTL records
    that have expired, sets their tenants to `COLD` in one bulk update and
    deletes those records. */
module ExpiredDeactivator {
  import opened Common
  import opened Backend

  /** Seconds between the starts of two ticks. */
  const TickInterval := 10

  /** The largest number of records one tick fetches. */
  const FetchLimit := 1000

  /** How long the loop sleeps before a tick, given the time elapsed since
      the previous tick finished. */
  function Pause(elapsed: int): int
  {
    if elapsed < TickInterval then TickInterval - elapsed else 0
  }

  /** The pause lies in `(0, TickInterval]` after a short tick and is zero
      after one that overran the interval, so the next query starts at
      `max(now, last + TickInterval)`. */
  lemma PauseBounds(last: int, now: int)
    requires last <= now
    ensures 0 <= Pause(now - last) <= TickInterval
    ensures Pause(now - last) > 0 <==> now - last < TickInterval
    ensures now + Pause(now - last) == Max(now, last + TickInterval)
  {
  }

  /** The records whose expiration is at or before `now`, in query order.
      The source compares ISO-8601 UTC strings; on the abstract clock that
      is integer comparison. */
  function Expired(ledger: seq<TtlRecord>, now: int): (r: seq<TtlRecord>)
    ensures |r| <= |ledger|
    ensures forall x :: x in r <==> x in ledger && x.expiration <= now
  {
    if |ledger| == 0 then []
    else
      var rest := Expired(ledger[1..], now);
      assert forall x :: x in ledger <==> x == ledger[0] || x in ledger[1..];
      if ledger[0].expiration <= now then [ledger[0]] + rest else rest
  }

  /** The records one tick fetches: the first `FetchLimit` expired ones. */
  function Fetch(ledger: seq<TtlRecord>, now: int): (r: seq<TtlRecord>)
    ensures |r| == Min(|Expired(ledger, now)|, FetchLimit)
    ensures forall x :: x in r ==> x in ledger && x.expiration <= now
    ensures |Expired(ledger, now)| <= FetchLimit ==> r == Expired(ledger, now)
  {
    var e := Expired(ledger, now);
    assert forall x :: x in SliceTo(e, FetchLimit) ==> x in e;
    SliceTo(e, FetchLimit)
  }

  function Owners(rs: seq<TtlRecord>): (r: seq<string>)
    ensures |r| == |rs| && forall k :: 0 <= k < |rs| ==> r[k] == rs[k].tenantName
  {
    seq(|rs|, k requires 0 <= k < |rs| => rs[k].tenantName)
  }

  function Ids(rs: seq<TtlRecord>): set<nat>
  {
    set x | x in rs :: x.id
  }

  /** What a tick asks of the backend: nothing when no record expired,
      otherwise one bulk `COLD` update for the owners, then the deletion
      of the fetched records. */
  function TickRequests(fetched: seq<TtlRecord>): seq<Request>
  {
    if |fetched| == 0 then [] else [UpdateStatus(Owners(fetched), Cold), DeleteTtlRecords(Ids(fetched))]
  }

  /** One tick at time `now`.  A rejected update ends the process, which
      is the `Err` case. */
  function Tick(st: Store, now: int): Result<Store>
  {
    ApplyAll(st, TickRequests(Fetch(st.ledger, now)))
  }

  /** With nothing expired a tick changes nothing at all. */
  lemma NothingExpiredNothingChanges(st: Store, now: int)
    requires forall i :: 0 <= i < |st.ledger| ==> st.ledger[i].expiration > now
    ensures Tick(st, now) == Ok(st)
  {
    NoneExpired(st.ledger, now);
  }

  lemma {:induction false} NoneExpired(ledger: seq<TtlRecord>, now: int)
    requires forall i :: 0 <= i < |ledger| ==> ledger[i].expiration > now
    ensures Expired(ledger, now) == []
  {
    if |ledger| > 0 {
      NoneExpired(ledger[1..], now);
    }
  }

  /** The store after a tick that fetched something: the owners' bulk
      update, then the deletion, as the only two changes. */
  lemma TickValue(st: Store, now: int) returns (st': Store)
    requires forall x :: x in Fetch(st.ledger, now) ==> x.tenantName in NameSet(st.tenants)
    ensures var fetched := Fetch(st.ledger, now);
      st' == st.(tenants := SetStatus(st.tenants, (set n | n in Owners(fetched)), Cold),
                 ledger := DeleteTtl(st.ledger, Ids(fetched)))
    ensures Tick(st, now) == Ok(st')
  {
    st' := RequestsEffect(st, Fetch(st.ledger, now));
  }

  /** `TickRequests` for any fetched records whose owners exist. */
  lemma RequestsEffect(st: Store, fetched: seq<TtlRecord>) returns (st': Store)
    requires forall x :: x in fetched ==> x.tenantName in NameSet(st.tenants)
    ensures st' == st.(tenants := SetStatus(st.tenants, (set n | n in Owners(fetched)), Cold),
                       ledger := DeleteTtl(st.ledger, Ids(fetched)))
    ensures ApplyAll(st, TickRequests(fetched)) == Ok(st')
  {
    st' := st.(tenants := SetStatus(st.tenants, (set n | n in Owners(fetched)), Cold),
               ledger := DeleteTtl(st.ledger, Ids(fetched)));
    if |fetched| > 0 {
      var qs := TickRequests(fetched);
      assert forall n :: n in Owners(fetched) ==> n in NameSet(st.tenants) by {
        forall n | n in Owners(fetched) ensures n in NameSet(st.tenants) {
          var k :| 0 <= k < |fetched| && Owners(fetched)[k] == n;
          assert fetched[k] in fetched;
        }
      }
      var st1 := st.(tenants := SetStatus(st.tenants, (set n | n in Owners(fetched)), Cold));
      assert Apply(st, qs[0]) == Ok(st1);
      assert qs[1..] == [DeleteTtlRecords(Ids(fetched))];
      assert Apply(st1, qs[1]) == Ok(st');
      assert ApplyAll(st1, qs[1..]) == ApplyAll(st', qs[1..][1..]);
    } else {
      assert Ids(fetched) == {};
      DeleteNothing(st.ledger);
      assert (set n | n in Owners(fetched)) == {};
      assert SetStatus(st.tenants, {}, Cold) == st.tenants;
    }
  }

  lemma {:induction false} DeleteNothing(ledger: seq<TtlRecord>)
    ensures DeleteTtl(ledger, {}) == ledger
  {
    if |ledger| > 0 {
      DeleteNothing(ledger[1..]);
    }
  }

  /** A tick whose fetched records all name existing tenants sets exactly
      those tenants to `COLD`, leaves every other tenant as it was, deletes
      exactly the fetched records and keeps all the others (those not yet
      expired and those beyond the fetch limit). */
  lemma TickEffect(st: Store, now: int)
    requires Valid(st)
    requires forall x :: x in Fetch(st.ledger, now) ==> x.tenantName in NameSet(st.tenants)
    ensures Tick(st, now).Ok?
    ensures var st' := Tick(st, now).value;
      var fetched := Fetch(st.ledger, now);
      && |st'.tenants| == |st.tenants|
      && (forall i :: 0 <= i < |st.tenants| ==> st'.tenants[i].name == st.tenants[i].name)
      && (forall i :: 0 <= i < |st.tenants| && st.tenants[i].name in Owners(fetched) ==>
            st'.tenants[i].status == Cold)
      && (forall i :: 0 <= i < |st.tenants| && st.tenants[i].name !in Owners(fetched) ==>
            st'.tenants[i] == st.tenants[i])
      && (forall x :: x in st'.ledger <==> x in st.ledger && x !in fetched)
      && st'.objects == st.objects
  {
    var fetched := Fetch(st.ledger, now);
    var st' := TickValue(st, now);
    forall x | x in st.ledger
      ensures x.id in Ids(fetched) <==> x in fetched
    {
      if x.id in Ids(fetched) {
        var y :| y in fetched && y.id == x.id;
        SameIdSameRecord(st.ledger, st.nextId, x, y);
      }
    }
  }

  lemma SameIdSameRecord(ledger: seq<TtlRecord>, nextId: nat, x: TtlRecord, y: TtlRecord)
    requires FreshIds(ledger, nextId) && x in ledger && y in ledger && x.id == y.id
    ensures x == y
  {
    var i :| 0 <= i < |ledger| && ledger[i] == x;
    var j :| 0 <= j < |ledger| && ledger[j] == y;
    assert i == j;
  }

  /** A fetched record naming a tenant the backend does not know makes the
      bulk update fail: the tick raises before deleting anything. */
  lemma UnknownOwnerStopsTick(st: Store, now: int, x: TtlRecord)
    requires x in Fetch(st.ledger, now) && x.tenantName !in NameSet(st.tenants)
    ensures Tick(st, now).Err?
  {
    var fetched := Fetch(st.ledger, now);
    var k :| 0 <= k < |fetched| && fetched[k] == x;
    assert Owners(fetched)[k] == x.tenantName;
  }

  /** The process state between ticks. */
  datatype Deactivator = Deactivator(store: Store, lastExecution: int)

  /** One turn of the loop: the loop starts at `start`, sleeps, runs a tick
      at `start + Pause`, and records `finish` as the last execution, also
      when nothing had expired. */
  function Step(d: Deactivator, start: int, finish: int): (r: Result<Deactivator>)
    ensures r.Ok? ==> r.value.lastExecution == finish
    ensures r.Ok? <==> Tick(d.store, start + Pause(start - d.lastExecution)).Ok?
  {
    match Tick(d.store, start + Pause(start - d.lastExecution))
    case Err(e) => Err(e)
    case Ok(st') => Ok(Deactivator(st', finish))
  }
}

=== FILE: k8s.dfy ===
/** The Kubernetes helpers the orchestration waits on: job completion,
    StatefulSet readiness, the two polling loops over them, and the
    `${name}` substitution applied to manifests before they are applied. */
module K8s {
  import opened Common

  /** The parts of a Job the completion check reads. */
  datatype Job = Job(completions: Option<int>, succeeded: Option<int>)

  function OrZero(v: Option<int>): int
  {
    if v.Some? then v.value else 0
  }

  datatype JobStatus = JobStatus(complete: bool, current: int, desired: int)

  /** `get_job_completion_status`: missing counts read as 0; any error
      reading the job gives `(False, 0, 0)`. */
  function JobCompletionStatus(read: Result<Job>): (r: JobStatus)
    ensures read.Err? ==> r == JobStatus(false, 0, 0)
    ensures read.Ok? ==> r.current == OrZero(read.value.succeeded) && r.desired == OrZero(read.value.completions)
    ensures r.complete <==> read.Ok? && r.current >= r.desired
  {
    match read
    case Err(_) => JobStatus(false, 0, 0)
    case Ok(job) =>
      var desired := OrZero(job.completions);
      var current := OrZero(job.succeeded);
      JobStatus(current >= desired, current, desired)
  }

  /** A job without a desired completion count is complete at once. */
  lemma NoDesiredCountIsComplete(job: Job)
    requires job.completions.None? && (job.succeeded.None? || job.succeeded.value >= 0)
    ensures JobCompletionStatus(Ok(job)).complete
  {
  }

  /** `end_time`: none when `max_wait_time` is `None` or 0. */
  function Deadline(start: int, maxWait: Option<int>): (d: Option<int>)
    ensures d.None? <==> maxWait.None? || maxWait.value == 0
    ensures d.Some? ==> d.value == start + maxWait.value
  {
    if maxWait.None? || maxWait.value == 0 then None else Some(start + maxWait.value)
  }

  datatype WaitOutcome = Done | TimedOut | GaveUp

  /** A time before the deadline, if there is one. */
  predicate BeforeDeadline(t: int, deadline: Option<int>)
  {
    deadline.None? || t < deadline.value
  }

  /** The shared shape of both waits: check k succeeds when `ready(k)`;
      otherwise, when a deadline is set and the time read after check k,
      `clock(k)`, has reached it, the wait raises `TimeoutError`.  The
      model stops after `maxChecks` checks (`GaveUp`). */
  method Wait(ready: nat -> bool, clock: Clock, deadline: Option<int>, maxChecks: nat)
    returns (out: WaitOutcome, checks: nat)
    ensures checks <= maxChecks
    ensures forall k: nat :: k < checks - 1 ==> !ready(k) && BeforeDeadline(clock(k), deadline)
    ensures out == Done ==> 1 <= checks && ready(checks - 1)
    ensures out == TimedOut ==>
      1 <= checks && !ready(checks - 1) && deadline.Some? && clock(checks - 1) >= deadline.value
    ensures out == GaveUp ==>
      && checks == maxChecks
      && (checks == 0 || (!ready(checks - 1) && BeforeDeadline(clock(checks - 1), deadline)))
  {
    checks := 0;
    while checks < maxChecks
      invariant checks <= maxChecks
      invariant forall k: nat :: k < checks ==> !ready(k) && BeforeDeadline(clock(k), deadline)
    {
      if ready(checks) {
        return Done, checks + 1;
      }
      if deadline.Some? && clock(checks) >= deadline.value {
        return TimedOut, checks + 1;
      }
      checks := checks + 1;
    }
    out := GaveUp;
  }

  /** `wait_for_job_completion` over the successive reads of the job. */
  method WaitForJobCompletion(snapshots: nat -> Result<Job>, clock: Clock, start: int, maxWait: Option<int>, maxChecks: nat)
    returns (out: WaitOutcome, checks: nat)
    ensures out == Done ==> 1 <= checks && JobCompletionStatus(snapshots(checks - 1)).complete
    ensures checks <= maxChecks
    ensures forall k: nat :: k < checks - 1 ==> !JobCompletionStatus(snapshots(k)).complete
    ensures forall k: nat :: k < checks - 1 ==> BeforeDeadline(clock(k), Deadline(start, maxWait))
    ensures out == TimedOut ==>
      && 1 <= checks && !JobCompletionStatus(snapshots(checks - 1)).complete
      && maxWait.Some? && maxWait.value != 0 && clock(checks - 1) >= start + maxWait.value
    ensures out == GaveUp ==>
      && checks == maxChecks
      && (checks == 0 || (!JobCompletionStatus(snapshots(checks - 1)).complete
                          && BeforeDeadline(clock(checks - 1), Deadline(start, maxWait))))
  {
    var ready := (k: nat) => JobCompletionStatus(snapshots(k)).complete;
    out, checks := Wait(ready, clock, Deadline(start, maxWait), maxChecks);
    forall k: nat | k < checks - 1 ensures !JobCompletionStatus(snapshots(k)).complete {
      assert !ready(k);
    }
  }

  /** The parts of a pod the readiness check reads.  The container
      statuses may be absent. */
  datatype Pod = Pod(phase: string, containerStatuses: Option<seq<bool>>)

  predicate AllReady(statuses: seq<bool>)
  {
    forall i :: 0 <= i < |statuses| ==> statuses[i]
  }

  /** A running pod without container statuses makes `all(...)` raise. */
  predicate Unreadable(p: Pod)
  {
    p.phase == "Running" && p.containerStatuses.None?
  }

  predicate IsReady(p: Pod)
  {
    p.phase == "Running" && p.containerStatuses.Some? && AllReady(p.containerStatuses.value)
  }

  /** Pods in phase Running whose containers are all ready. */
  function CountReady(pods: seq<Pod>): (n: nat)
    ensures n <= |pods|
  {
    if |pods| == 0 then 0 else (if IsReady(pods[0]) then 1 else 0) + CountReady(pods[1..])
  }

  lemma {:induction false} CountReadyConcat(a: seq<Pod>, b: seq<Pod>)
    ensures CountReady(a + b) == CountReady(a) + CountReady(b)
    decreases |a|
  {
    if |a| == 0 {
      assert a + b == b;
    } else {
      assert (a + b)[1..] == a[1..] + b;
      CountReadyConcat(a[1..], b);
    }
  }

  /** `check_statefulset_pods_ready_and_count`: the ready count and the
      desired count, unchanged; any error (including a running pod with no
      container statuses) gives a ready count of 0. */
  function CheckPodsReady(listing: Result<seq<Pod>>, desired: int): (r: (nat, int))
    ensures r.1 == desired
    ensures listing.Err? ==> r.0 == 0
    ensures listing.Ok? && (exists i :: 0 <= i < |listing.value| && Unreadable(listing.value[i])) ==> r.0 == 0
    ensures listing.Ok? && (forall i :: 0 <= i < |listing.value| ==> !Unreadable(listing.value[i])) ==>
      r.0 == CountReady(listing.value)
    ensures listing.Ok? ==> r.0 <= |listing.value|
  {
    if listing.Err? then (0, desired)
    else if exists i :: 0 <= i < |listing.value| && Unreadable(listing.value[i]) then (0, desired)
    else (CountReady(listing.value), desired)
  }

  /** The readiness wait ends only on exact equality: more ready pods than
      desired keeps it waiting. */
  predicate PodsReady(listing: Result<seq<Pod>>, desired: int)
  {
    var r := CheckPodsReady(listing, desired);
    r.0 == r.1
  }

  lemma TooManyReadyKeepsWaiting(pods: seq<Pod>, desired: int)
    requires forall i :: 0 <= i < |pods| ==> !Unreadable(pods[i])
    requires CountReady(pods) > desired
    ensures !PodsReady(Ok(pods), desired)
  {
  }

  /** `wait_for_statefulset_pods_ready_with_display`. */
  method WaitForPodsReady(listings: nat -> Result<seq<Pod>>, desired: int, clock: Clock, start: int,
                          maxWait: Option<int>, maxChecks: nat)
    returns (out: WaitOutcome, checks: nat)
    ensures out == Done ==> 1 <= checks && CheckPodsReady(listings(checks - 1), desired).0 == desired
    ensures checks <= maxChecks
    ensures forall k: nat :: k < checks - 1 ==> CheckPodsReady(listings(k), desired).0 != desired
    ensures forall k: nat :: k < checks - 1 ==> BeforeDeadline(clock(k), Deadline(start, maxWait))
    ensures out == TimedOut ==>
      && 1 <= checks && CheckPodsReady(listings(checks - 1), desired).0 != desired
      && maxWait.Some? && maxWait.value != 0 && clock(checks - 1) >= start + maxWait.value
    ensures out == GaveUp ==>
      && checks == maxChecks
      && (checks == 0 || (CheckPodsReady(listings(checks - 1), desired).0 != desired
                          && BeforeDeadline(clock(checks - 1), Deadline(start, maxWait))))
  {
    var ready := (k: nat) => PodsReady(listings(k), desired);
    out, checks := Wait(ready, clock, Deadline(start, maxWait), maxChecks);
    forall k: nat | k < checks - 1 ensures CheckPodsReady(listings(k), desired).0 != desired {
      assert !ready(k);
    }
  }

  /** Does `pat` occur in `s` at position `i`? */
  predicate OccursAt(s: string, pat: string, i: int)
  {
    0 <= i <= |s| - |pat| && s[i..i + |pat|] == pat
  }

  predicate Occurs(s: string, pat: string)
  {
    exists i :: 0 <= i <= |s| - |pat| && OccursAt(s, pat, i)
  }

  /** Python's `str.replace(pat, val)` for a non-empty `pat`: left to
      right, non-overlapping. */
  function ReplaceAll(s: string, pat: string, val: string): string
    requires |pat| > 0
    decreases |s|
  {
    if |s| < |pat| then s
    else if s[..|pat|] == pat then val + ReplaceAll(s[|pat|..], pat, val)
    else [s[0]] + ReplaceAll(s[1..], pat, val)
  }

  /** Python's `str.split(pat)`: the pieces between the occurrences. */
  function Split(s: string, pat: string): (parts: seq<string>)
    requires |pat| > 0
    ensures |parts| >= 1
    decreases |s|
  {
    if |s| < |pat| then [s]
    else if s[..|pat|] == pat then [""] + Split(s[|pat|..], pat)
    else
      var rest := Split(s[1..], pat);
      [[s[0]] + rest[0]] + rest[1..]
  }

  /** `sep.join(parts)`. */
  function Join(parts: seq<string>, sep: string): string
    requires |parts| >= 1
    decreases |parts|
  {
    if |parts| == 1 then parts[0] else parts[0] + sep + Join(parts[1..], sep)
  }

  lemma JoinPrepend(c: char, parts: seq<string>, sep: string)
    requires |parts| >= 1
    ensures Join([[c] + parts[0]] + parts[1..], sep) == [c] + Join(parts, sep)
  {
    var ps := [[c] + parts[0]] + parts[1..];
    if |parts| > 1 {
      assert ps[1..] == parts[1..];
    }
  }

  /** Replacing is splitting at the placeholder and joining with the value. */
  lemma {:induction false} ReplaceIsSplitJoin(s: string, pat: string, val: string)
    requires |pat| > 0
    ensures ReplaceAll(s, pat, val) == Join(Split(s, pat), val)
    decreases |s|
  {
    if |s| < |pat| {
    } else if s[..|pat|] == pat {
      ReplaceIsSplitJoin(s[|pat|..], pat, val);
      var rest := Split(s[|pat|..], pat);
      assert ([""] + rest)[1..] == rest;
    } else {
      ReplaceIsSplitJoin(s[1..], pat, val);
      JoinPrepend(s[0], Split(s[1..], pat), val);
    }
  }

  /** Replacing a placeholder by itself changes nothing. */
  lemma {:induction false} ReplaceBySelf(s: string, pat: string)
    requires |pat| > 0
    ensures ReplaceAll(s, pat, pat) == s
    decreases |s|
  {
    if |s| >= |pat| {
      if s[..|pat|] == pat {
        ReplaceBySelf(s[|pat|..], pat);
        assert s == s[..|pat|] + s[|pat|..];
      } else {
        ReplaceBySelf(s[1..], pat);
        assert s == [s[0]] + s[1..];
      }
    }
  }

  /** Splitting and joining back with the same separator is the identity. */
  lemma SplitJoinRoundTrip(s: string, pat: string)
    requires |pat| > 0
    ensures Join(Split(s, pat), pat) == s
  {
    ReplaceIsSplitJoin(s, pat, pat);
    ReplaceBySelf(s, pat);
  }

  /** A placeholder that does not occur leaves the content unchanged. */
  lemma {:induction false} ReplaceAbsent(s: string, pat: string, val: string)
    requires |pat| > 0 && !Occurs(s, pat)
    ensures ReplaceAll(s, pat, val) == s
    decreases |s|
  {
    if |s| >= |pat| {
      assert s[0..|pat|] == s[..|pat|];
      assert !OccursAt(s, pat, 0);
      assert !Occurs(s[1..], pat) by {
        if Occurs(s[1..], pat) {
          var i :| 0 <= i <= |s[1..]| - |pat| && OccursAt(s[1..], pat, i);
          assert s[1..][i..i + |pat|] == s[i + 1..i + 1 + |pat|];
          assert OccursAt(s, pat, i + 1);
        }
      }
      ReplaceAbsent(s[1..], pat, val);
      assert s == [s[0]] + s[1..];
    }
  }

  /** `${key}`. */
  function Placeholder(key: string): (p: string)
    ensures |p| == |key| + 3
  {
    "${" + key + "}"
  }

  /** `replace_variables_in_yaml` on the file's content: the variables in
      the dictionary's order, each applied to the result of the previous. */
  function ReplaceVariables(content: string, variables: seq<(string, string)>): string
    decreases |variables|
  {
    if |variables| == 0 then content
    else
      var last := variables[|variables| - 1];
      ReplaceAll(ReplaceVariables(content, variables[..|variables| - 1]), Placeholder(last.0), last.1)
  }

  /** Substituting two groups of variables is substituting the first
      group and then the second. */
  lemma {:induction false} ReplaceVariablesConcat(content: string, a: seq<(string, string)>, b: seq<(string, string)>)
    ensures ReplaceVariables(content, a + b) == ReplaceVariables(ReplaceVariables(content, a), b)
    decreases |b|
  {
    if |b| == 0 {
      assert a + b == a;
    } else {
      assert (a + b)[..|a + b| - 1] == a + b[..|b| - 1];
      ReplaceVariablesConcat(content, a, b[..|b| - 1]);
    }
  }

  /** Variables whose placeholders never occur leave the content as it is. */
  lemma {:induction false} AbsentVariablesChangeNothing(content: string, variables: seq<(string, string)>)
    requires forall i :: 0 <= i < |variables| ==> !Occurs(content, Placeholder(variables[i].0))
    ensures ReplaceVariables(content, variables) == content
    decreases |variables|
  {
    if |variables| > 0 {
      AbsentVariablesChangeNothing(content, variables[..|variables| - 1]);
      ReplaceAbsent(content, Placeholder(variables[|variables| - 1].0), variables[|variables| - 1].1);
    }
  }
}

=== FILE: prometheus.dfy ===
/** The metrics reader: a range query over the last `seconds_ago`
    seconds, retried up to five times, answering the mean of the first
    series' values. */
module Prometheus {
  import opened Common

  const MaxAttempts := 5

  /** Query step, in seconds. */
  const StepSeconds := 10

  datatype Window = Window(start: int, end: int)

  /** The range queried: it ends now and spans `seconds_ago`. */
  function QueryWindow(now: int, secondsAgo: int): (w: Window)
    ensures w.end == now
    ensures w.end - w.start == secondsAgo
  {
    Window(now - secondsAgo, now)
  }

  /** One series of the response: its values, or `None` when one of them
      does not convert to a float. */
  datatype Series = Series(values: Option<seq<real>>)

  datatype Body = Unparseable | Parsed(result: seq<Series>)

  datatype Response =
    | RequestFailed                      // the request itself raised
    | Answered(status: int, body: Body)

  function Sum(vs: seq<real>): real
  {
    if |vs| == 0 then 0.0 else vs[0] + Sum(vs[1..])
  }

  function Mean(vs: seq<real>): (m: real)
    requires |vs| > 0
    ensures m * |vs| as real == Sum(vs)
  {
    Sum(vs) / |vs| as real
  }

  lemma {:induction false} SumBounds(vs: seq<real>, lo: real, hi: real)
    requires forall i :: 0 <= i < |vs| ==> lo <= vs[i] <= hi
    ensures lo * |vs| as real <= Sum(vs) <= hi * |vs| as real
    decreases |vs|
  {
    if |vs| > 0 {
      SumBounds(vs[1..], lo, hi);
      assert lo * |vs| as real == lo + lo * |vs[1..]| as real;
      assert hi * |vs| as real == hi + hi * |vs[1..]| as real;
    }
  }

  /** The mean lies between the smallest and the largest value. */
  lemma MeanBetween(vs: seq<real>, lo: real, hi: real)
    requires |vs| > 0
    requires forall i :: 0 <= i < |vs| ==> lo <= vs[i] <= hi
    ensures lo <= Mean(vs) <= hi
  {
    SumBounds(vs, lo, hi);
    var n := |vs| as real;
    var m := Mean(vs);
    assert (m - lo) * n >= 0.0 && (hi - m) * n >= 0.0;
  }

  datatype Attempt = Answer(value: real) | Retry

  /** What one attempt yields: an answer ends the loop, anything else
      (request error, non-200 status, parse failure, an unconvertible
      value, an empty value list dividing by zero) moves on. */
  function TryOnce(r: Response): (a: Attempt)
    ensures a.Answer? <==>
      && r.Answered? && r.status == 200 && r.body.Parsed?
      && (|r.body.result| == 0 || (r.body.result[0].values.Some? && |r.body.result[0].values.value| > 0))
    ensures a.Answer? && |r.body.result| == 0 ==> a.value == 0.0
    ensures a.Answer? && |r.body.result| > 0 ==> a.value == Mean(r.body.result[0].values.value)
  {
    match r
    case RequestFailed => Retry
    case Answered(status, body) =>
      if status != 200 then Retry
      else match body
        case Unparseable => Retry
        case Parsed(result) =>
          if |result| == 0 then Answer(0.0)
          else match result[0].values
            case None => Retry
            case Some(vs) => if |vs| == 0 then Retry else Answer(Mean(vs))
  }

  /** `query` at time `now`: `server(w, k)` is what request k gets when it
      asks for the window `w`.  The window is fixed before the first
      request, so every retry asks for the same range, the last
      `seconds_ago` seconds before the call. */
  method Query(now: int, secondsAgo: int, server: (Window, nat) -> Response)
    returns (value: real, requests: nat, window: Window)
    ensures window.end == now && window.end - window.start == secondsAgo
    ensures 1 <= requests <= MaxAttempts
    ensures forall k: nat :: k < requests - 1 ==> TryOnce(server(window, k)).Retry?
    ensures TryOnce(server(window, requests - 1)).Answer? ==> value == TryOnce(server(window, requests - 1)).value
    ensures TryOnce(server(window, requests - 1)).Retry? ==> requests == MaxAttempts && value == 0.0
  {
    window := QueryWindow(now, secondsAgo);
    requests := 0;
    while requests < MaxAttempts
      invariant requests <= MaxAttempts
      invariant forall k: nat :: k < requests ==> TryOnce(server(window, k)).Retry?
    {
      var a := TryOnce(server(window, requests));
      if a.Answer? {
        return a.value, requests + 1, window;
      }
      requests := requests + 1;
    }
    value := 0.0;
  }
}

=== FILE: querying.dfy ===
/** The query load process: choose tenants with enough objects, pick some
    of them with replacement, give each pick several workers, and have each
    worker send a fixed number of vector queries, counting outcomes. */
module Querying {
  import opened Common

  /** A shard as the node status endpoint reports it; in this collection
      every shard is one tenant and carries the tenant's name. */
  datatype Shard = Shard(name: string, objectCount: int)
  datatype Node = Node(shards: seq<Shard>)

  /** Shards with fewer objects are too fresh to query. */
  const MinObjects := 100

  /** Every query asks for this many results and fails on any other count. */
  const Limit := 10

  predicate Eligible(s: Shard)
  {
    s.objectCount >= MinObjects
  }

  /** The eligible names of one node's shards, in order. */
  function ShardNames(shards: seq<Shard>): (r: seq<string>)
    ensures |r| <= |shards|
    ensures forall n :: n in r <==> exists k :: 0 <= k < |shards| && shards[k].name == n && Eligible(shards[k])
  {
    if |shards| == 0 then []
    else
      var rest := ShardNames(shards[1..]);
      assert forall k :: 1 <= k < |shards| ==> shards[k] == shards[1..][k - 1];
      if Eligible(shards[0]) then [shards[0].name] + rest else rest
  }

  /** `build_tenant_list`: the eligible shard names, node by node. */
  function BuildTenantList(nodes: seq<Node>): (r: seq<string>)
    ensures forall n :: n in r <==>
      exists i, k :: 0 <= i < |nodes| && 0 <= k < |nodes[i].shards|
        && nodes[i].shards[k].name == n && Eligible(nodes[i].shards[k])
  {
    if |nodes| == 0 then []
    else
      var rest := BuildTenantList(nodes[1..]);
      assert forall i :: 1 <= i < |nodes| ==> nodes[i] == nodes[1..][i - 1];
      ShardNames(nodes[0].shards) + rest
  }

  /** Node order is preserved: the list for two groups of nodes is the
      list for the first followed by the list for the second. */
  lemma {:induction false} BuildTenantListConcat(a: seq<Node>, b: seq<Node>)
    ensures BuildTenantList(a + b) == BuildTenantList(a) + BuildTenantList(b)
    decreases |a|
  {
    if |a| == 0 {
      assert a + b == b;
    } else {
      assert (a + b)[1..] == a[1..] + b;
      BuildTenantListConcat(a[1..], b);
    }
  }

  /** `pick_tenants`: `n` independent choices, so a tenant may come up more
      than once; `random.choice` on an empty list raises. */
  function PickTenants(tenants: seq<string>, n: int, draw: Draw): (r: Result<seq<string>>)
    requires InRange(draw)
    ensures r.Err? <==> |tenants| == 0 && n > 0
    ensures r.Ok? ==> |r.value| == Max(0, n)
    ensures r.Ok? ==> forall k :: 0 <= k < |r.value| ==> r.value[k] in tenants
  {
    if n <= 0 then Ok([])
    else if |tenants| == 0 then Err("Cannot choose from an empty sequence")
    else Ok(seq(n, k requires 0 <= k < n => tenants[draw(k, |tenants|)]))
  }

  /** `tenants * parallel_queries_per_tenant`: the picks, repeated. */
  function Repeat(picks: seq<string>, times: int): (r: seq<string>)
    ensures |r| == |picks| * Max(0, times)
    ensures forall x :: x in r ==> x in picks
    decreases times
  {
    if times <= 0 then [] else picks + Repeat(picks, times - 1)
  }

  /** Copy `q` of the picks occupies positions `q * n` to `q * n + n - 1`. */
  lemma {:induction false} RepeatIndex(picks: seq<string>, times: int, q: nat, j: nat)
    requires q < times && j < |picks|
    ensures q * |picks| + j < |Repeat(picks, times)|
    ensures Repeat(picks, times)[q * |picks| + j] == picks[j]
    decreases times
  {
    var rest := Repeat(picks, times - 1);
    assert Repeat(picks, times) == picks + rest;
    if q > 0 {
      RepeatIndex(picks, times - 1, q - 1, j);
      MulStep(q, |picks|);
      assert Repeat(picks, times)[q * |picks| + j] == rest[(q - 1) * |picks| + j];
    }
  }

  lemma MulStep(a: int, b: int)
    ensures a * b == (a - 1) * b + b
  {
  }

  /** Each pick gets exactly `parallel_queries_per_tenant` workers (more
      when the same tenant was picked several times). */
  lemma {:induction false} RepeatMultiplicity(picks: seq<string>, times: int, t: string)
    ensures multiset(Repeat(picks, times))[t] == Max(0, times) * multiset(picks)[t]
    decreases times
  {
    if times > 0 {
      var rest := Repeat(picks, times - 1);
      RepeatMultiplicity(picks, times - 1, t);
      assert Repeat(picks, times) == picks + rest;
      assert multiset(picks + rest)[t] == multiset(picks)[t] + multiset(rest)[t];
      MulStep(times, multiset(picks)[t]);
    }
  }

  /** What one query returns. */
  datatype Response =
    | Raised                                  // the client raised
    | Answer(hasErrors: bool, rows: nat)      // a response, with or without an `errors` key

  /** A query fails when it raised, reported errors, or returned anything
      but exactly `Limit` rows. */
  predicate Failed(r: Response)
  {
    match r
    case Raised => true
    case Answer(hasErrors, rows) => hasErrors || rows != Limit
  }

  /** Number of failed queries among the first `n`. */
  function Failures(responses: nat -> Response, n: nat): (c: nat)
    ensures c <= n
  {
    if n == 0 then 0 else Failures(responses, n - 1) + (if Failed(responses(n - 1)) then 1 else 0)
  }

  /** The metrics the load-test keeps. */
  datatype Metrics = Metrics(observations: nat, success: nat, failure: nat, users: int, tenants: int)

  /** The number of queries a worker with these settings sends: none when
      `qpm` is not positive, because computing the wait raises (zero) or
      the first `time.sleep` rejects its negative argument. */
  function Sent(total: int, qpm: int): nat
  {
    if qpm > 0 then Max(0, total) else 0
  }

  /** Whether a worker's thread dies after it raised the users gauge, so
      that the gauge is never lowered again. */
  predicate LeavesUserRaised(total: int, qpm: int)
  {
    qpm < 0 && total > 0
  }

  /** `query`: one worker, sequentially.  `users` is the gauge while the
      worker is querying; `crashed` means the thread ended by an exception:
      `60 / qpm` with `qpm == 0` raises before the gauge is raised, and with
      `qpm < 0` the first wait is negative and `time.sleep` raises inside
      the loop (the wait `2 * random() * 60 / qpm` is negative unless the
      draw is exactly 0). */
  method Worker(total: int, qpm: int, responses: nat -> Response, m: Metrics)
    returns (m': Metrics, users: int, crashed: bool)
    ensures crashed <==> qpm == 0 || LeavesUserRaised(total, qpm)
    ensures users == m.users + (if qpm == 0 then 0 else 1)
    ensures m'.users == m.users + (if LeavesUserRaised(total, qpm) then 1 else 0)
    ensures m'.tenants == m.tenants
    ensures m'.observations == m.observations + Sent(total, qpm)
    ensures m'.failure == m.failure + Failures(responses, Sent(total, qpm))
    ensures m'.success + m'.failure == m.success + m.failure + Sent(total, qpm)
  {
    if qpm == 0 {
      return m, m.users, true;
    }
    m' := m.(users := m.users + 1);
    users := m'.users;
    if qpm < 0 && total > 0 {
      return m', users, true;
    }
    crashed := false;
    var i := 0;
    while i < total
      invariant 0 <= i <= Max(0, total)
      invariant m'.users == m.users + 1 && m'.tenants == m.tenants
      invariant m'.observations == m.observations + i
      invariant m'.failure == m.failure + Failures(responses, i)
      invariant m'.success + m'.failure == m.success + m.failure + i
    {
      m' := m'.(observations := m'.observations + 1);
      if Failed(responses(i)) {
        m' := m'.(failure := m'.failure + 1);
      } else {
        m' := m'.(success := m'.success + 1);
      }
      i := i + 1;
    }
    m' := m'.(users := m'.users - 1);
  }

  /** `do`, with the workers run one after another: the tenant gauge is
      raised by the number of picks and lowered by the same amount, and
      every worker's queries are counted once.  A worker thread that
      raises ends alone; `do` still joins the others. */
  method Run(nodes: seq<Node>, n: int, parallel: int, total: int, qpm: int, responses: nat -> nat -> Response,
             draw: Draw, m: Metrics)
    returns (r: Result<seq<string>>, m': Metrics, tenantsDuring: int)
    requires InRange(draw)
    ensures r.Err? <==> |BuildTenantList(nodes)| == 0 && n > 0
    ensures r.Err? ==> m' == m
    ensures r.Ok? ==> |r.value| == Max(0, n) * Max(0, parallel)
    ensures r.Ok? ==> forall k :: 0 <= k < |r.value| ==> r.value[k] in BuildTenantList(nodes)
    ensures r.Ok? ==> tenantsDuring == m.tenants + Max(0, n)
    ensures m'.tenants == m.tenants
    ensures r.Ok? ==> m'.users == m.users + (if LeavesUserRaised(total, qpm) then |r.value| else 0)
    ensures r.Ok? ==> m'.observations == m.observations + |r.value| * Sent(total, qpm)
    ensures r.Ok? ==> m'.success + m'.failure == m.success + m.failure + |r.value| * Sent(total, qpm)
  {
    var picks := PickTenants(BuildTenantList(nodes), n, draw);
    tenantsDuring := m.tenants;
    if picks.Err? {
      return Err(picks.error), m, tenantsDuring;
    }
    var workers := Repeat(picks.value, parallel);
    assert |workers| == Max(0, n) * Max(0, parallel);
    assert forall k :: 0 <= k < |workers| ==> workers[k] in BuildTenantList(nodes) by {
      forall k | 0 <= k < |workers| ensures workers[k] in BuildTenantList(nodes) {
        assert workers[k] in workers;
        var j :| 0 <= j < |picks.value| && picks.value[j] == workers[k];
      }
    }
    m' := m.(tenants := m.tenants + |picks.value|);
    tenantsDuring := m'.tenants;
    var w := 0;
    while w < |workers|
      invariant 0 <= w <= |workers|
      invariant m'.tenants == tenantsDuring
      invariant m'.users == m.users + (if LeavesUserRaised(total, qpm) then w else 0)
      invariant m'.observations == m.observations + w * Sent(total, qpm)
      invariant m'.success + m'.failure == m.success + m.failure + w * Sent(total, qpm)
    {
      var usersDuring, crashed;
      m', usersDuring, crashed := Worker(total, qpm, responses(w), m');
      MulStep(w + 1, Sent(total, qpm));
      w := w + 1;
    }
    m' := m'.(tenants := m'.tenants - |picks.value|);
    r := Ok(workers);
  }
}

=== FILE: sampling.dfy ===
/** Random selection from a sequence: Python's `random.sample` (without
    replacement, by the pool method) and Go's Fisher-Yates shuffle.  The
    random numbers come from a `Draw`; only their ranges are assumed. */
module Sampling {
  import opened Common

  /** `s` without position `j`: the last element takes its place, as in
      the pool method of `random.sample`. */
  function RemoveAt<T>(s: seq<T>, j: nat): (r: seq<T>)
    requires j < |s|
    ensures |r| == |s| - 1
    ensures multiset(r) + multiset{s[j]} == multiset(s)
  {
    var last := |s| - 1;
    var t := s[j := s[last]];
    assert s == s[..last] + [s[last]];
    assert t == t[..last] + [t[last]];
    if j == last then
      t[..last]
    else
      assert multiset(t) == multiset(s) - multiset{s[j]} + multiset{s[last]};
      t[..last]
  }

  /** `random.sample(pool, k)`: `k` elements at distinct positions of
      `pool`, chosen by the draws numbered `step`, `step + 1`, ... */
  function Sample<T>(pool: seq<T>, k: nat, draw: Draw, step: nat): (r: seq<T>)
    requires InRange(draw) && k <= |pool|
    ensures |r| == k
    ensures multiset(r) <= multiset(pool)
    decreases k
  {
    if k == 0 then []
    else
      var j := draw(step, |pool|);
      var rest := Sample(RemoveAt(pool, j), k - 1, draw, step + 1);
      [pool[j]] + rest
  }

  lemma {:induction false} DistinctMultiplicity<T>(s: seq<T>, x: T)
    requires Distinct(s)
    ensures multiset(s)[x] <= 1
  {
    if |s| > 0 {
      assert s == [s[0]] + s[1..];
      assert Distinct(s[1..]);
      DistinctMultiplicity(s[1..], x);
      if x == s[0] {
        assert x !in s[1..];
      }
    }
  }

  lemma RepeatMultiplicity<T>(s: seq<T>, i: nat, j: nat)
    requires i < j < |s| && s[i] == s[j]
    ensures multiset(s)[s[i]] >= 2
  {
    assert s == s[..j] + s[j..];
    assert s[i] in s[..j];
    assert s[j] in s[j..];
  }

  /** A sequence whose multiset fits in that of a distinct sequence is
      itself distinct: each element was taken from one position only. */
  lemma SubMultisetOfDistinct<T>(r: seq<T>, pool: seq<T>)
    requires multiset(r) <= multiset(pool) && Distinct(pool)
    ensures Distinct(r)
  {
    forall i, j | 0 <= i < j < |r| ensures r[i] != r[j] {
      if r[i] == r[j] {
        RepeatMultiplicity(r, i, j);
        DistinctMultiplicity(pool, r[i]);
      }
    }
  }

  /** A sample of distinct names holds distinct names, all from the pool. */
  lemma SampleOfDistinct<T>(pool: seq<T>, k: nat, draw: Draw, step: nat)
    requires InRange(draw) && k <= |pool|
    ensures Distinct(pool) ==> Distinct(Sample(pool, k, draw, step))
    ensures forall x :: x in Sample(pool, k, draw, step) ==> x in pool
  {
    var r := Sample(pool, k, draw, step);
    if Distinct(pool) {
      SubMultisetOfDistinct(r, pool);
    }
    forall x | x in r ensures x in pool {
      assert x in multiset(r);
    }
  }

  /** Fisher-Yates on a copy of the input: for i from the last index down
      to 1, swap position i with a position j drawn from [0, i].  The
      result is a permutation of the input. */
  method Shuffle<T>(s: seq<T>, draw: Draw) returns (r: seq<T>)
    requires InRange(draw)
    ensures |r| == |s|
    ensures multiset(r) == multiset(s)
  {
    r := s;
    var i := |s| - 1;
    while i > 0
      invariant i < |s| || |s| == 0
      invariant |r| == |s|
      invariant multiset(r) == multiset(s)
    {
      var j := draw(i, i + 1);
      assert j <= i;
      r := r[i := r[j]][j := r[i]];
      i := i - 1;
    }
  }

  /** `pickTenants(n, tenants)`: the first `min(n, len(tenants))` elements
      of a shuffled copy, so no position of the input is picked twice. */
  method PickDistinct<T>(n: nat, s: seq<T>, draw: Draw) returns (r: seq<T>)
    requires InRange(draw)
    ensures |r| == Min(n, |s|)
    ensures multiset(r) <= multiset(s)
  {
    var shuffled := Shuffle(s, draw);
    var m := if n > |s| then |s| else n;
    r := shuffled[..m];
    assert shuffled == r + shuffled[m..];
    assert multiset(shuffled) == multiset(r) + multiset(shuffled[m..]);
  }
}

=== FILE: simulation_importer.dfy ===
/** The continuous import loop: a window of tenant ids slides from the
    minimum to the maximum id and wraps around; for every window it writes
    one TTL record per tenant, creates the tenants and writes
    `objects_per_tenant` objects into each with ids `UUID(int=i)`. */
module SimulationImporter {
  import opened Common
  import opened Decimal
  import opened Backend
  import opened Upserts

  /** Seconds a tenant lives before its TTL record expires. */
  const Ttl := 90

  datatype Config = Config(
    minTenantId: int,
    maxTenantId: int,
    objectsPerTenant: int,
    tenantsPerCycle: int)

  /** The id as Python formats `{id:010d}`: zero-padded to ten
      characters, a minus sign taking one of the ten. */
  function PaddedId(id: int): string
  {
    if id >= 0 then ZeroPad(Digits(id), 10) else "-" + ZeroPad(Digits(-id), 9)
  }

  /** `tenant_` followed by the padded id. */
  function TenantName(id: int): string
  {
    "tenant_" + PaddedId(id)
  }

  /** Ids below 10^10 give `tenant_` and exactly ten digits. */
  lemma TenantNameShape(id: int)
    requires 0 <= id < Pow10(10)
    ensures |TenantName(id)| == 17
    ensures TenantName(id)[..7] == "tenant_"
    ensures AllDigits(TenantName(id)[7..])
  {
    DigitsLength(id, 10);
    assert TenantName(id)[7..] == ZeroPad(Digits(id), 10);
  }

  lemma PaddedIdSign(id: int)
    ensures |PaddedId(id)| > 0
    ensures PaddedId(id)[0] == '-' <==> id < 0
  {
    if id >= 0 {
      assert IsDigit(ZeroPad(Digits(id), 10)[0]);
    }
  }

  lemma PaddedIdInjective(a: int, b: int)
    requires PaddedId(a) == PaddedId(b)
    ensures a == b
  {
    PaddedIdSign(a);
    PaddedIdSign(b);
    if a >= 0 && b >= 0 {
      PaddedDigitsInjective(a, b, 10, 10);
    } else if a < 0 && b < 0 {
      assert PaddedId(a)[1..] == ZeroPad(Digits(-a), 9);
      assert PaddedId(b)[1..] == ZeroPad(Digits(-b), 9);
      PaddedDigitsInjective(-a, -b, 9, 9);
    }
  }

  /** Different ids never share a name. */
  lemma TenantNameInjective(a: int, b: int)
    requires TenantName(a) == TenantName(b)
    ensures a == b
  {
    assert TenantName(a)[7..] == PaddedId(a);
    assert TenantName(b)[7..] == PaddedId(b);
    PaddedIdInjective(a, b);
  }

  /** The half-open window `[lo, up)` one cycle imports, given the cursor
      `lower`: a cursor past the maximum starts over at the minimum, and
      the upper end is clipped to the maximum id. */
  function Window(cfg: Config, lower: int): (w: (int, int))
    ensures w.1 <= cfg.maxTenantId
    ensures w.1 - w.0 <= cfg.tenantsPerCycle
    ensures lower <= cfg.maxTenantId ==> w.0 == lower
    ensures lower > cfg.maxTenantId ==> w.0 == cfg.minTenantId
    ensures w.0 + cfg.tenantsPerCycle <= cfg.maxTenantId ==> w.1 == w.0 + cfg.tenantsPerCycle
    ensures w.0 + cfg.tenantsPerCycle > cfg.maxTenantId ==> w.1 == cfg.maxTenantId
  {
    var lo := if lower > cfg.maxTenantId then cfg.minTenantId else lower;
    var up := if lo + cfg.tenantsPerCycle > cfg.maxTenantId then cfg.maxTenantId else lo + cfg.tenantsPerCycle;
    (lo, up)
  }

  /** The cursor after a cycle: the window start plus `tenants_per_cycle`,
      whether or not the window was clipped. */
  function NextLower(cfg: Config, lower: int): int
  {
    Window(cfg, lower).0 + cfg.tenantsPerCycle
  }

  /** With `min <= max` and a cursor that never falls below the minimum,
      every window lies inside `[min, max]`, is at most `tenants_per_cycle`
      wide and never contains the maximum id itself. */
  lemma WindowBounds(cfg: Config, lower: int)
    requires cfg.minTenantId <= cfg.maxTenantId && 0 <= cfg.tenantsPerCycle
    requires cfg.minTenantId <= lower
    ensures var (lo, up) := Window(cfg, lower);
      && cfg.minTenantId <= lo <= up <= cfg.maxTenantId
      && up - lo <= cfg.tenantsPerCycle
      && cfg.maxTenantId !in Range(lo, up)
  {
  }

  /** The cursor keeps the invariant `min <= lower` the bounds rely on. */
  lemma CursorStaysAboveMin(cfg: Config, lower: int)
    requires 0 <= cfg.tenantsPerCycle && cfg.minTenantId <= lower
    ensures cfg.minTenantId <= NextLower(cfg, lower)
  {
  }

  /** A clipped window is the last before the wrap: the next window starts
      over at the minimum id. */
  lemma ClippedWindowWraps(cfg: Config, lower: int)
    requires Window(cfg, lower).1 < Window(cfg, lower).0 + cfg.tenantsPerCycle
    ensures Window(cfg, NextLower(cfg, lower)).0 == cfg.minTenantId
  {
  }

  /** When `max - lower` is a multiple of `tenants_per_cycle` the cursor
      lands on the maximum id itself, and that cycle's window is empty. */
  lemma CursorAtMaxGivesEmptyWindow(cfg: Config)
    requires 0 <= cfg.tenantsPerCycle
    ensures Window(cfg, cfg.maxTenantId) == (cfg.maxTenantId, cfg.maxTenantId)
  {
  }

  function WindowNames(lo: int, up: int): (r: seq<string>)
    ensures |r| == Max(0, up - lo)
    ensures forall k :: 0 <= k < |r| ==> r[k] == TenantName(lo + k)
  {
    var ids := Range(lo, up);
    seq(|ids|, k requires 0 <= k < |ids| => TenantName(ids[k]))
  }

  /** The object ids `UUID(int=i)` for `i` in `range(n)`, in order. */
  function ObjectIds(n: int): (r: seq<nat>)
    ensures |r| == Max(0, n) && Distinct(r)
    ensures forall i :: i in r <==> 0 <= i < n
    decreases n
  {
    if n <= 0 then []
    else
      var r := ObjectIds(n - 1);
      assert forall i :: 0 <= i < |r| ==> r[i] in r;
      r + [n - 1]
  }

  /** What one cycle asks of the backend, in order: the TTL records for
      the whole window (all expiring at `now + Ttl`), then the tenants,
      then one batch of objects per tenant. */
  function CycleRequests(cfg: Config, lower: int, now: int): (r: seq<Request>)
    ensures var names := WindowNames(Window(cfg, lower).0, Window(cfg, lower).1);
      && |r| == 2 + |names|
      && r[0] == WriteTtl(names, now + Ttl)
      && r[1] == CreateTenants(names)
      && r[2..] == UpsertEach(names, ObjectIds(cfg.objectsPerTenant))
  {
    var (lo, up) := Window(cfg, lower);
    var names := WindowNames(lo, up);
    [WriteTtl(names, now + Ttl), CreateTenants(names)] + UpsertEach(names, ObjectIds(cfg.objectsPerTenant))
  }

  /** One cycle of the import loop: the requests' effect and the next
      cursor.  None of the requests can be rejected. */
  function Cycle(cfg: Config, st: Store, lower: int, now: int): (r: (Store, int))
  {
    var res := ApplyAll(st, CycleRequests(cfg, lower, now));
    CycleEffect(cfg, st, lower, now);
    (res.value, NextLower(cfg, lower))
  }

  /** The effect of one cycle on the store: one new TTL record per window
      tenant, with fresh ids and expiration `now + Ttl`, appended after the
      old ones; the window tenants exist; each window tenant holds exactly
      its old objects plus ids `0 .. objects_per_tenant - 1`; the objects
      of every other tenant are unchanged. */
  lemma CycleEffect(cfg: Config, st: Store, lower: int, now: int)
    ensures ApplyAll(st, CycleRequests(cfg, lower, now)).Ok?
    ensures var r := ApplyAll(st, CycleRequests(cfg, lower, now)).value;
      var names := WindowNames(Window(cfg, lower).0, Window(cfg, lower).1);
      && r.ledger == AddTtl(st.ledger, st.nextId, names, now + Ttl)
      && r.nextId == st.nextId + |names|
      && r.tenants == Create(st.tenants, names)
      && (forall n, i :: n in names ==>
            (i in ObjectsOf(r, n) <==> i in ObjectsOf(st, n) || 0 <= i < cfg.objectsPerTenant))
      && (forall n :: n !in names ==> ObjectsOf(r, n) == ObjectsOf(st, n))
  {
    var w := Window(cfg, lower);
    var names := WindowNames(w.0, w.1);
    var ids := ObjectIds(cfg.objectsPerTenant);
    var qs := CycleRequests(cfg, lower, now);
    assert qs == [WriteTtl(names, now + Ttl), CreateTenants(names)] + UpsertEach(names, ids);
    var r := ImportEffect(st, names, now + Ttl, ids);
    assert ApplyAll(st, qs) == Ok(r);
    AllIdsWritten(st, r, names, ids, cfg.objectsPerTenant);
  }

  /** Writing every id below `n` to the window tenants: each then holds
      exactly its old objects and the ids below `n`. */
  lemma AllIdsWritten(st: Store, r: Store, names: seq<string>, ids: seq<nat>, n: int)
    requires forall i :: i in ids <==> 0 <= i < n
    requires forall t :: t in names ==> ObjectsOf(r, t) == ObjectsOf(st, t) + set i | i in ids
    ensures forall t, i :: t in names ==> (i in ObjectsOf(r, t) <==> i in ObjectsOf(st, t) || 0 <= i < n)
  {
    forall t, i | t in names ensures i in ObjectsOf(r, t) <==> i in ObjectsOf(st, t) || 0 <= i < n {
      assert i in ids <==> 0 <= i < n;
    }
  }

  /** The requests of a cycle for any names and ids: TTL records, then
      tenants, then the objects. */
  lemma ImportEffect(st: Store, names: seq<string>, e: int, ids: seq<nat>) returns (r: Store)
    ensures ApplyAll(st, [WriteTtl(names, e), CreateTenants(names)] + UpsertEach(names, ids)) == Ok(r)
    ensures r.ledger == AddTtl(st.ledger, st.nextId, names, e)
    ensures r.nextId == st.nextId + |names|
    ensures r.tenants == Create(st.tenants, names)
    ensures forall n :: n in names ==> ObjectsOf(r, n) == ObjectsOf(st, n) + set i | i in ids
    ensures forall n :: n !in names ==> ObjectsOf(r, n) == ObjectsOf(st, n)
  {
    var st2 := PrefixStep(st, names, e, ids);
    UpsertEachEffect(st2, names, ids);
    r := ApplyAll(st2, UpsertEach(names, ids)).value;
  }

  /** The first two requests of a cycle: TTL records, then tenants. */
  lemma PrefixStep(st: Store, names: seq<string>, e: int, ids: seq<nat>) returns (st2: Store)
    ensures st2 == st.(ledger := AddTtl(st.ledger, st.nextId, names, e),
                       nextId := st.nextId + |names|,
                       tenants := Create(st.tenants, names))
    ensures ApplyAll(st, [WriteTtl(names, e), CreateTenants(names)] + UpsertEach(names, ids))
         == ApplyAll(st2, UpsertEach(names, ids))
    ensures forall n :: n in names ==> n in NameSet(st2.tenants)
  {
    var st1 := st.(ledger := AddTtl(st.ledger, st.nextId, names, e), nextId := st.nextId + |names|);
    st2 := st1.(tenants := Create(st.tenants, names));
    ApplyTwo(st, WriteTtl(names, e), CreateTenants(names), UpsertEach(names, ids), st1, st2);
  }

  /** The ledger after a cycle keeps the old records as a prefix and adds,
      for the k-th tenant of the window, a record with a fresh id that
      expires at `now + Ttl`. */
  lemma CycleTtlRecords(cfg: Config, st: Store, lower: int, now: int, k: nat)
    requires k < Max(0, Window(cfg, lower).1 - Window(cfg, lower).0)
    ensures var r := Cycle(cfg, st, lower, now).0;
      && |st.ledger| + k < |r.ledger|
      && r.ledger[..|st.ledger|] == st.ledger
      && r.ledger[|st.ledger| + k] == TtlRecord(st.nextId + k, TenantName(Window(cfg, lower).0 + k), now + Ttl)
  {
    var w := Window(cfg, lower);
    var names := WindowNames(w.0, w.1);
    var ledger := CycleLedger(cfg, st, lower, now);
    AddTtlAt(st.ledger, st.nextId, names, now + Ttl, k);
  }

  lemma CycleLedger(cfg: Config, st: Store, lower: int, now: int) returns (ledger: seq<TtlRecord>)
    ensures ledger == Cycle(cfg, st, lower, now).0.ledger
    ensures ledger == AddTtl(st.ledger, st.nextId, WindowNames(Window(cfg, lower).0, Window(cfg, lower).1), now + Ttl)
  {
    CycleEffect(cfg, st, lower, now);
    ledger := Cycle(cfg, st, lower, now).0.ledger;
  }

  lemma AddTtlAt(ledger: seq<TtlRecord>, nextId: nat, names: seq<string>, e: int, k: nat)
    requires k < |names|
    ensures var r := AddTtl(ledger, nextId, names, e);
      |ledger| + k < |r| && r[..|ledger|] == ledger && r[|ledger| + k] == TtlRecord(nextId + k, names[k], e)
  {
  }

  /** Re-importing a window (after the cursor wrapped around to it) changes
      no tenant and no object: the deterministic ids turn the second import
      into updates.  The TTL collection, which has no deterministic ids,
      grows by the window size again. */
  lemma ReimportIsIdempotent(cfg: Config, st: Store, lower: int, now1: int, now2: int)
    ensures var st1 := Cycle(cfg, st, lower, now1).0;
      var st2 := Cycle(cfg, st1, lower, now2).0;
      var w := Window(cfg, lower);
      && st2.tenants == st1.tenants
      && (forall n :: ObjectsOf(st2, n) == ObjectsOf(st1, n))
      && |st2.ledger| == |st1.ledger| + Max(0, w.1 - w.0)
  {
    var st1 := Cycle(cfg, st, lower, now1).0;
    CycleEffect(cfg, st, lower, now1);
    CycleEffect(cfg, st1, lower, now2);
    var (lo, up) := Window(cfg, lower);
    var names := WindowNames(lo, up);
    CreateIsIdempotent(st.tenants, names);
  }

  lemma CreateIsIdempotent(ts: seq<Tenant>, names: seq<string>)
    ensures Create(Create(ts, names), names) == Create(ts, names)
  {
    var r := Create(ts, names);
    var r2 := Create(r, names);
    assert NameSet(r2) == NameSet(r);
    CreateKnownIsIdentity(r, names);
  }

  lemma {:induction false} CreateKnownIsIdentity(ts: seq<Tenant>, names: seq<string>)
    requires forall n :: n in names ==> n in NameSet(ts)
    ensures Create(ts, names) == ts
    decreases |names|
  {
    if |names| > 0 {
      CreateKnownIsIdentity(ts, names[1..]);
    }
  }

  /** Because TTL records are appended and never upserted, a tenant whose
      window is imported twice owns two TTL records afterwards. */
  lemma ReimportDuplicatesTtl(cfg: Config, st: Store, lower: int, now1: int, now2: int, k: nat)
    requires k < Max(0, Window(cfg, lower).1 - Window(cfg, lower).0)
    ensures var st1 := Cycle(cfg, st, lower, now1).0;
      var st2 := Cycle(cfg, st1, lower, now2).0;
      var name := TenantName(Window(cfg, lower).0 + k);
      exists i, j :: 0 <= i < j < |st2.ledger|
        && st2.ledger[i] == TtlRecord(st.nextId + k, name, now1 + Ttl)
        && st2.ledger[j] == TtlRecord(st1.nextId + k, name, now2 + Ttl)
  {
    var st1 := Cycle(cfg, st, lower, now1).0;
    var st2 := Cycle(cfg, st1, lower, now2).0;
    CycleTtlRecords(cfg, st, lower, now1, k);
    CycleTtlRecords(cfg, st1, lower, now2, k);
    var i := |st.ledger| + k;
    var j := |st1.ledger| + k;
    assert st2.ledger[i] == st1.ledger[i];
  }
}

=== FILE: tenants_and_data.dfy ===
/** The simple bulk loader: tenants `tenant_{t}` (no padding) created in
    windows of `tenants_per_cycle`, each loaded with `objects_per_tenant`
    objects whose uuids the backend assigns, plus the batch error callback. */
module TenantsAndData {
  import opened Common
  import opened Decimal
  import opened Backend

  /** `tenant_{t}` with the plain decimal form of `t`. */
  function PlainName(t: nat): string
  {
    "tenant_" + Digits(t)
  }

  lemma PlainNameInjective(a: nat, b: nat)
    requires PlainName(a) == PlainName(b)
    ensures a == b
  {
    assert PlainName(a)[7..] == Digits(a);
    assert PlainName(b)[7..] == Digits(b);
    ValueOfDigits(a);
    ValueOfDigits(b);
  }

  /** The names of `range(lo, lo + tenants_per_cycle)`. */
  function WindowNames(lo: nat, tenantsPerCycle: int): (r: seq<string>)
    ensures |r| == Max(0, tenantsPerCycle)
    ensures forall k :: 0 <= k < |r| ==> r[k] == PlainName(lo + k)
    ensures Distinct(r)
  {
    var r := seq(Max(0, tenantsPerCycle), k requires 0 <= k < Max(0, tenantsPerCycle) => PlainName(lo + k));
    assert Distinct(r) by {
      forall i, j | 0 <= i < j < |r| ensures r[i] != r[j] {
        if r[i] == r[j] {
          PlainNameInjective(lo + i, lo + j);
        }
      }
    }
    r
  }

  /** A window holds exactly the names of its ids. */
  lemma InWindow(lo: nat, tenantsPerCycle: int, n: string)
    ensures n in WindowNames(lo, tenantsPerCycle) <==>
      exists t: nat :: lo <= t < lo + tenantsPerCycle && n == PlainName(t)
  {
    var w := WindowNames(lo, tenantsPerCycle);
    if n in w {
      var k :| 0 <= k < |w| && w[k] == n;
      assert lo <= lo + k < lo + tenantsPerCycle && n == PlainName(lo + k);
    }
    if exists t: nat :: lo <= t < lo + tenantsPerCycle && n == PlainName(t) {
      var t: nat :| lo <= t < lo + tenantsPerCycle && n == PlainName(t);
      assert w[t - lo] == n;
    }
  }

  /** Objects whose uuid the backend assigns, so the model counts them. */
  function Count(objects: map<string, nat>, n: string): nat
  {
    if n in objects then objects[n] else 0
  }

  /** `load_records`: every tenant of the window gets `count` new objects. */
  function AddObjects(objects: map<string, nat>, names: seq<string>, count: nat): (r: map<string, nat>)
    requires Distinct(names)
    ensures forall n :: n in names ==> Count(r, n) == Count(objects, n) + count
    ensures forall n :: n !in names ==> Count(r, n) == Count(objects, n)
    decreases |names|
  {
    if |names| == 0 then objects
    else
      var r := AddObjects(objects[names[0] := Count(objects, names[0]) + count], names[1..], count);
      assert forall n :: n in names <==> n == names[0] || n in names[1..];
      assert names[0] !in names[1..];
      r
  }

  /** Loading a window again adds its objects again: the loader is not
      idempotent, unlike the importer with deterministic ids. */
  lemma ReloadAddsAgain(objects: map<string, nat>, names: seq<string>, count: nat, n: string)
    requires Distinct(names) && n in names
    ensures Count(AddObjects(AddObjects(objects, names, count), names, count), n) == Count(objects, n) + 2 * count
  {
  }

  datatype Data = Data(tenants: seq<Tenant>, objects: map<string, nat>)

  /** One iteration: create the window's tenants, then load each of them. */
  function LoadWindow(d: Data, lo: nat, tenantsPerCycle: int, objectsPerTenant: int): Data
  {
    var names := WindowNames(lo, tenantsPerCycle);
    Data(Create(d.tenants, names), AddObjects(d.objects, names, Max(0, objectsPerTenant)))
  }

  /** The tenants after the windows below `i`. */
  ghost predicate CreatedBelow(data: Data, d: Data, i: nat)
  {
    forall n :: n in NameSet(d.tenants) <==>
      n in NameSet(data.tenants) || exists t: nat :: t < i && n == PlainName(t)
  }

  /** The object counts after the windows below `i`. */
  ghost predicate LoadedBelow(data: Data, d: Data, i: nat, objectsPerTenant: int)
  {
    && (forall t: nat :: t < i ==>
          Count(d.objects, PlainName(t)) == Count(data.objects, PlainName(t)) + Max(0, objectsPerTenant))
    && (forall n :: Count(d.objects, n) != Count(data.objects, n) ==>
          exists t: nat :: t < i && n == PlainName(t))
  }

  lemma CreateStep(data: Data, d: Data, i: nat, tenantsPerCycle: int, objectsPerTenant: int)
    requires 0 < tenantsPerCycle && CreatedBelow(data, d, i)
    ensures CreatedBelow(data, LoadWindow(d, i, tenantsPerCycle, objectsPerTenant), i + tenantsPerCycle)
  {
    forall n ensures n in WindowNames(i, tenantsPerCycle) <==>
      exists t: nat :: i <= t < i + tenantsPerCycle && n == PlainName(t)
    {
      InWindow(i, tenantsPerCycle, n);
    }
  }

  lemma LoadStep(data: Data, d: Data, i: nat, tenantsPerCycle: int, objectsPerTenant: int)
    requires 0 < tenantsPerCycle && LoadedBelow(data, d, i, objectsPerTenant)
    ensures LoadedBelow(data, LoadWindow(d, i, tenantsPerCycle, objectsPerTenant), i + tenantsPerCycle, objectsPerTenant)
  {
    var names := WindowNames(i, tenantsPerCycle);
    var d' := LoadWindow(d, i, tenantsPerCycle, objectsPerTenant);
    forall n ensures n in names <==> exists t: nat :: i <= t < i + tenantsPerCycle && n == PlainName(t) {
      InWindow(i, tenantsPerCycle, n);
    }
    forall t: nat | t < i + tenantsPerCycle
      ensures Count(d'.objects, PlainName(t)) == Count(data.objects, PlainName(t)) + Max(0, objectsPerTenant)
    {
      if t < i {
        if PlainName(t) in names {
          var u: nat :| i <= u < i + tenantsPerCycle && PlainName(t) == PlainName(u);
          PlainNameInjective(t, u);
        }
      } else {
        assert names[t - i] == PlainName(t);
        if Count(d.objects, PlainName(t)) != Count(data.objects, PlainName(t)) {
          var u: nat :| u < i && PlainName(t) == PlainName(u);
          PlainNameInjective(t, u);
        }
      }
    }
  }

  ghost predicate PopulatedBelow(data: Data, d: Data, i: nat, objectsPerTenant: int)
  {
    CreatedBelow(data, d, i) && LoadedBelow(data, d, i, objectsPerTenant)
  }

  lemma PopulateStep(data: Data, d: Data, i: nat, tenantsPerCycle: int, objectsPerTenant: int)
    requires 0 < tenantsPerCycle && PopulatedBelow(data, d, i, objectsPerTenant)
    ensures PopulatedBelow(data, LoadWindow(d, i, tenantsPerCycle, objectsPerTenant), i + tenantsPerCycle, objectsPerTenant)
  {
    CreateStep(data, d, i, tenantsPerCycle, objectsPerTenant);
    LoadStep(data, d, i, tenantsPerCycle, objectsPerTenant);
  }

  /** The `while i < total_tenants` loop of `do`.  With a non-positive
      `tenants_per_cycle` and a positive total the loop never ends and
      never creates a tenant (`diverges`). */
  method Populate(total: int, tenantsPerCycle: int, objectsPerTenant: int, data: Data)
    returns (diverges: bool, windows: nat, d: Data)
    ensures diverges <==> 0 < total && tenantsPerCycle <= 0
    ensures diverges ==> windows == 0 && d == data
    ensures total <= 0 ==> windows == 0 && d == data
    ensures !diverges && 0 < total ==>
      total <= windows * tenantsPerCycle && (windows - 1) * tenantsPerCycle < total
    ensures !diverges ==> forall n ::
      n in NameSet(d.tenants) <==>
        n in NameSet(data.tenants) || exists t: nat :: t < windows * tenantsPerCycle && n == PlainName(t)
    ensures !diverges ==> forall t: nat :: t < windows * tenantsPerCycle ==>
      Count(d.objects, PlainName(t)) == Count(data.objects, PlainName(t)) + Max(0, objectsPerTenant)
    ensures forall n :: Count(d.objects, n) != Count(data.objects, n) ==>
      exists t: nat :: t < windows * tenantsPerCycle && n == PlainName(t)
    ensures UniqueNames(data.tenants) ==> UniqueNames(d.tenants)
  {
    if 0 < total && tenantsPerCycle <= 0 {
      return true, 0, data;
    }
    diverges := false;
    windows := 0;
    d := data;
    var i: nat := 0;
    while i < total
      invariant i == windows * tenantsPerCycle
      invariant windows == 0 ==> d == data
      invariant windows > 0 ==> 0 < total && (windows - 1) * tenantsPerCycle < total
      invariant PopulatedBelow(data, d, i, objectsPerTenant)
      invariant UniqueNames(data.tenants) ==> UniqueNames(d.tenants)
      decreases total - i
    {
      PopulateStep(data, d, i, tenantsPerCycle, objectsPerTenant);
      d := LoadWindow(d, i, tenantsPerCycle, objectsPerTenant);
      assert i + tenantsPerCycle == (windows + 1) * tenantsPerCycle;
      assert ((windows + 1) - 1) * tenantsPerCycle == i;
      i := i + tenantsPerCycle;
      windows := windows + 1;
    }
  }

  /** The parts of a batch response the callback looks at:
      `result.errors.error[*].message`, each level possibly absent. */
  datatype ErrorEntry = ErrorEntry(message: Option<string>)
  datatype ErrorList = ErrorList(error: Option<seq<ErrorEntry>>)
  datatype ResultBody = ResultBody(errors: Option<ErrorList>)
  datatype BatchResult = BatchResult(result: Option<ResultBody>)

  /** The error entries of one result; none when any level is missing. */
  function Entries(r: BatchResult): seq<ErrorEntry>
  {
    if r.result.Some? && r.result.value.errors.Some? && r.result.value.errors.value.error.Some?
    then r.result.value.errors.value.error.value
    else []
  }

  /** The entries of all results, in order. */
  function AllEntries(rs: seq<BatchResult>): (es: seq<ErrorEntry>)
    ensures forall e :: e in es <==> exists k :: 0 <= k < |rs| && e in Entries(rs[k])
  {
    if |rs| == 0 then []
    else
      var rest := AllEntries(rs[1..]);
      forall e | e in rest ensures exists k :: 0 <= k < |rs| && e in Entries(rs[k]) {
        var k :| 0 <= k < |rs[1..]| && e in Entries(rs[1..][k]);
        assert rs[k + 1] == rs[1..][k];
      }
      forall k | 1 <= k < |rs| ensures forall e :: e in Entries(rs[k]) ==> e in rest {
        assert rs[1..][k - 1] == rs[k];
      }
      Entries(rs[0]) + rest
  }

  /** What the callback leaves behind: the lines logged, and whether it
      raised `KeyError` on an entry without a `message`. */
  datatype Logged = Logged(lines: seq<string>, raised: bool)

  /** Logs entries in order; the first entry without a message raises and
      ends the loop. */
  function LogEntries(es: seq<ErrorEntry>): Logged
  {
    if |es| == 0 then Logged([], false)
    else match es[0].message
      case None => Logged([], true)
      case Some(m) =>
        var rest := LogEntries(es[1..]);
        Logged([m] + rest.lines, rest.raised)
  }

  /** The callback raises exactly when some entry lacks a message; it logs
      the messages before the first such entry, all of them when there is
      none. */
  lemma {:induction false} LogEntriesExact(es: seq<ErrorEntry>)
    ensures var out := LogEntries(es);
      && (out.raised <==> exists i :: 0 <= i < |es| && es[i].message.None?)
      && |out.lines| <= |es|
      && (forall i :: 0 <= i < |out.lines| ==> es[i].message == Some(out.lines[i]))
      && (out.raised ==> es[|out.lines|].message.None?)
      && (!out.raised ==> |out.lines| == |es|)
    decreases |es|
  {
    if |es| > 0 && es[0].message.Some? {
      LogEntriesExact(es[1..]);
      assert forall i :: 1 <= i < |es| ==> es[i] == es[1..][i - 1];
    }
  }

  /** `handle_errors`: the lines it logs, in order, and whether it raised. */
  function HandleErrors(results: Option<seq<BatchResult>>): (out: Logged)
    ensures results.None? ==> out == Logged([], false)
    ensures out.raised <==> (results.Some? &&
      exists k, e :: 0 <= k < |results.value| && e in Entries(results.value[k]) && e.message.None?)
    ensures results.Some? ==> forall m :: m in out.lines ==>
      exists k :: 0 <= k < |results.value| && ErrorEntry(Some(m)) in Entries(results.value[k])
  {
    match results
    case None => Logged([], false)
    case Some(rs) =>
      var es := AllEntries(rs);
      var out := LogEntries(es);
      LogEntriesExact(es);
      assert out.raised <==> exists e :: e in es && e.message.None? by {
        if out.raised {
          var i :| 0 <= i < |es| && es[i].message.None?;
          assert es[i] in es;
        }
      }
      assert forall m :: m in out.lines ==> ErrorEntry(Some(m)) in es by {
        forall m | m in out.lines ensures ErrorEntry(Some(m)) in es {
          var i :| 0 <= i < |out.lines| && out.lines[i] == m;
          assert es[i] == ErrorEntry(Some(m));
        }
      }
      out
  }

  /** When every entry has a message, every message of every result is
      logged. */
  lemma EveryMessageLogged(rs: seq<BatchResult>, k: nat, m: string)
    requires k < |rs| && ErrorEntry(Some(m)) in Entries(rs[k])
    requires !HandleErrors(Some(rs)).raised
    ensures m in HandleErrors(Some(rs)).lines
  {
    var es := AllEntries(rs);
    LogEntriesExact(es);
    assert ErrorEntry(Some(m)) in es;
    var i :| 0 <= i < |es| && es[i] == ErrorEntry(Some(m));
    assert HandleErrors(Some(rs)).lines[i] == m;
  }

  lemma {:induction false} AllEntriesConcat(a: seq<BatchResult>, b: seq<BatchResult>)
    ensures AllEntries(a + b) == AllEntries(a) + AllEntries(b)
    decreases |a|
  {
    if |a| > 0 {
      assert (a + b)[1..] == a[1..] + b;
      AllEntriesConcat(a[1..], b);
    } else {
      assert a + b == b;
    }
  }

  lemma {:induction false} LogEntriesConcat(a: seq<ErrorEntry>, b: seq<ErrorEntry>)
    ensures LogEntries(a + b) ==
      (if LogEntries(a).raised then LogEntries(a)
       else Logged(LogEntries(a).lines + LogEntries(b).lines, LogEntries(b).raised))
    decreases |a|
  {
    if |a| == 0 {
      assert a + b == b;
    } else if a[0].message.None? {
      HeadRaises(a);
      HeadRaises(a + b);
    } else {
      var m := a[0].message.value;
      LogEntriesConcat(a[1..], b);
      HeadLogged(a);
      HeadLogged(a + b);
      assert (a + b)[1..] == a[1..] + b;
      var ra := LogEntries(a[1..]);
      if !ra.raised {
        assert [m] + (ra.lines + LogEntries(b).lines) == ([m] + ra.lines) + LogEntries(b).lines;
      }
    }
  }

  lemma HeadRaises(es: seq<ErrorEntry>)
    requires |es| > 0 && es[0].message.None?
    ensures LogEntries(es) == Logged([], true)
  {
  }

  lemma HeadLogged(es: seq<ErrorEntry>)
    requires |es| > 0 && es[0].message.Some?
    ensures LogEntries(es) == Logged([es[0].message.value] + LogEntries(es[1..]).lines, LogEntries(es[1..]).raised)
  {
  }

  /** Handling the results of two batches is handling each in turn; a
      raise in the first ends the callback before the second. */
  lemma HandleErrorsConcat(a: seq<BatchResult>, b: seq<BatchResult>)
    ensures var ha := HandleErrors(Some(a));
      HandleErrors(Some(a + b)) ==
        (if ha.raised then ha else Logged(ha.lines + HandleErrors(Some(b)).lines, HandleErrors(Some(b)).raised))
  {
    AllEntriesConcat(a, b);
    LogEntriesConcat(AllEntries(a), AllEntries(b));
  }
}

=== FILE: tier_migration.dfy ===
/** The offload and onload processes.  Both repeat: list the tenants in a
    source status and take the first `tenants_per_cycle`; request a bulk
    update to the target status, retrying up to 100 times; then poll until
    the backend reports the whole batch in the target status or ten
    minutes pass.  The two scripts differ only in the statuses, so one
    model, parameterised by a `Direction`, serves both. */
module TierMigration {
  import opened Common
  import opened Backend

  datatype Direction = Direction(sources: set<Status>, target: Status)

  /** `tenants_offloader.py`: `ACTIVE` or `COLD` tenants go to `OFFLOADED`. */
  const Offload := Direction({Active, Cold}, Offloaded)

  /** `tenants_onloader.py`: `OFFLOADED` tenants go to `ACTIVE`. */
  const Onload := Direction({Offloaded}, Active)

  /** Update attempts per batch. */
  const MaxAttempts := 100

  /** Backoff after a failed attempt: `randrange(0, 5000)` milliseconds. */
  const BackoffRangeMs := 5000

  /** Seconds the poll waits for a batch to converge. */
  const PollTimeout := 600

  /** The batch of a round: the first `tenants_per_cycle` tenants in a
      source status, or none when the listing failed. */
  function Batch(dir: Direction, ts: seq<Tenant>, listed: bool, tenantsPerCycle: int): (b: seq<string>)
    ensures !listed ==> b == []
    ensures 0 <= tenantsPerCycle ==> |b| <= tenantsPerCycle
    ensures forall n :: n in b ==> exists i :: 0 <= i < |ts| && ts[i].name == n && ts[i].status in dir.sources
  {
    if listed then
      var eligible := Select(ts, dir.sources);
      var b := SliceTo(eligible, tenantsPerCycle);
      assert forall n :: n in b ==> n in eligible by {
        forall n | n in b ensures n in eligible {
          var j :| 0 <= j < |b| && b[j] == n;
          assert eligible[j] == n;
        }
      }
      b
    else []
  }

  /** With a successful listing and `0 <= tenants_per_cycle`, the batch is
      the first `tenants_per_cycle` eligible names: all of them when there
      are fewer. */
  lemma BatchIsPrefix(dir: Direction, ts: seq<Tenant>, tenantsPerCycle: nat)
    ensures var b := Batch(dir, ts, true, tenantsPerCycle);
      && |b| == Min(tenantsPerCycle, |Select(ts, dir.sources)|)
      && b == Select(ts, dir.sources)[..|b|]
  {
  }

  /** An onload batch holds only tenants the backend reports `OFFLOADED`,
      and is not empty while any tenant is offloaded and the per-cycle
      count is positive. */
  lemma OnloadBatch(ts: seq<Tenant>, tenantsPerCycle: nat)
    requires UniqueNames(ts)
    ensures var b := Batch(Onload, ts, true, tenantsPerCycle);
      && (forall n :: n in b ==> StatusOf(ts, n) == Some(Offloaded))
      && (tenantsPerCycle > 0 && (exists i :: 0 <= i < |ts| && ts[i].status == Offloaded) ==> |b| > 0)
  {
    var b := Batch(Onload, ts, true, tenantsPerCycle);
    forall n | n in b ensures StatusOf(ts, n) == Some(Offloaded) {
      var i :| 0 <= i < |ts| && ts[i].name == n && ts[i].status in Onload.sources;
      assert n in NameSet(ts);
      var s := StatusOf(ts, n);
      var j :| 0 <= j < |ts| && ts[j] == Tenant(n, s.value);
      assert i == j;
    }
    if tenantsPerCycle > 0 && exists i :: 0 <= i < |ts| && ts[i].status == Offloaded {
      var i :| 0 <= i < |ts| && ts[i].status == Offloaded;
      assert ts[i].name in Select(ts, Onload.sources);
      BatchIsPrefix(Onload, ts, tenantsPerCycle);
    }
  }

  /** The bulk update with retries.  `fails(k)` is whether attempt k raised;
      `draw` supplies the backoffs.  Returns the number of attempts made,
      whether one succeeded and the backoffs slept, in milliseconds. */
  method UpdateWithRetry(fails: nat -> bool, draw: Draw) returns (attempts: nat, ok: bool, backoffs: seq<nat>)
    requires InRange(draw)
    ensures 1 <= attempts <= MaxAttempts
    ensures forall k :: 0 <= k < attempts - 1 ==> fails(k)
    ensures ok <==> !fails(attempts - 1)
    ensures !ok ==> attempts == MaxAttempts
    ensures |backoffs| == (if ok then attempts - 1 else attempts)
    ensures forall k :: 0 <= k < |backoffs| ==> backoffs[k] < BackoffRangeMs
  {
    attempts := 0;
    ok := false;
    backoffs := [];
    while attempts < MaxAttempts && !ok
      invariant 0 <= attempts <= MaxAttempts
      invariant forall k :: 0 <= k < attempts - 1 ==> fails(k)
      invariant ok ==> 1 <= attempts && !fails(attempts - 1)
      invariant !ok && 1 <= attempts ==> fails(attempts - 1)
      invariant |backoffs| == (if ok then attempts - 1 else attempts)
      invariant forall k :: 0 <= k < |backoffs| ==> backoffs[k] < BackoffRangeMs
    {
      if fails(attempts) {
        var sleep := draw(attempts, BackoffRangeMs);
        backoffs := backoffs + [sleep];
      } else {
        ok := true;
      }
      attempts := attempts + 1;
    }
  }

  /** If some attempt among the first 100 succeeds, the update succeeds, at
      the first such attempt. */
  lemma RetrySucceedsIfAnyAttemptDoes(fails: nat -> bool, attempts: nat, ok: bool, k: nat)
    requires 1 <= attempts <= MaxAttempts
    requires forall j :: 0 <= j < attempts - 1 ==> fails(j)
    requires ok <==> !fails(attempts - 1)
    requires !ok ==> attempts == MaxAttempts
    requires k < MaxAttempts && !fails(k)
    ensures ok && attempts - 1 <= k
  {
  }

  /** A successful update takes the whole batch out of the eligible set,
      so the next listing cannot select those tenants again; this is what
      makes the cursor's progress meaningful. */
  lemma UpdatedBatchIsNotReselected(dir: Direction, ts: seq<Tenant>, tenantsPerCycle: int)
    requires dir.target !in dir.sources
    ensures var b := Batch(dir, ts, true, tenantsPerCycle);
      forall n :: n in b ==> n !in Select(SetStatus(ts, (set m | m in b), dir.target), dir.sources)
  {
  }

  datatype PollOutcome = Converged | TimedOut | PollFailed

  /** The count in scope after `n` checks: the latest one a check
      returned, or `stale` when none of them did. */
  function LastSeen(observe: nat -> Option<nat>, stale: Option<nat>, n: nat): Option<nat>
  {
    if n == 0 then stale
    else if observe(n - 1).Some? then observe(n - 1)
    else LastSeen(observe, stale, n - 1)
  }

  /** `LastSeen` is the answer of the latest check that answered. */
  lemma {:induction false} LastSeenIsLatest(observe: nat -> Option<nat>, stale: Option<nat>, n: nat, j: nat)
    requires j < n && observe(j).Some?
    requires forall i :: j < i < n ==> observe(i).None?
    ensures LastSeen(observe, stale, n) == observe(j)
    decreases n
  {
    if n - 1 != j {
      LastSeenIsLatest(observe, stale, n - 1, j);
    }
  }

  /** With no check answering, the stale count stays in scope. */
  lemma {:induction false} LastSeenWithoutAnswers(observe: nat -> Option<nat>, stale: Option<nat>, n: nat)
    requires forall i :: 0 <= i < n ==> observe(i).None?
    ensures LastSeen(observe, stale, n) == stale
    decreases n
  {
    if n > 0 {
      LastSeenWithoutAnswers(observe, stale, n - 1);
    }
  }

  /** The convergence poll.  Check k asks the backend which batch tenants
      are in the target status: `observe(k)` is their number, or `None`
      when the call raised.  A failed call keeps the previous count, which
      may be one left over from an earlier batch (`stale`); with no count
      at all the comparison raises (`PollFailed`).  The clock is read after
      each check and the loop sleeps one second between checks.  The poll
      stops at the first check whose count in scope equals the batch size
      or whose clock reading is 600 s past the start, and not before. */
  method Poll(batchSize: nat, observe: nat -> Option<nat>, clock: Clock, start: int, stale: Option<nat>)
    returns (checks: nat, outcome: PollOutcome, last: Option<nat>)
    requires Advances(clock, 1) && start <= clock(0)
    ensures 1 <= checks <= PollTimeout + 1
    ensures last == LastSeen(observe, stale, checks)
    ensures forall k :: 1 <= k < checks ==> LastSeen(observe, stale, k).Some?
    ensures forall k :: 1 <= k < checks ==> LastSeen(observe, stale, k) != Some(batchSize)
    ensures forall k :: 0 <= k < checks - 1 ==> clock(k) - start < PollTimeout
    ensures outcome == Converged <==> last == Some(batchSize)
    ensures outcome == TimedOut <==> last.Some? && last != Some(batchSize)
    ensures outcome == TimedOut ==> clock(checks - 1) - start >= PollTimeout
    ensures outcome == PollFailed <==> last.None?
    ensures outcome == PollFailed <==> stale.None? && observe(0).None?
    ensures outcome == PollFailed ==> checks == 1
  {
    checks := 0;
    last := stale;
    while true
      invariant checks <= PollTimeout
      invariant start + checks <= clock(checks)
      invariant last == LastSeen(observe, stale, checks)
      invariant LastSeen(observe, stale, 1).None? <==> stale.None? && observe(0).None?
      invariant checks > 0 ==> LastSeen(observe, stale, 1).Some?
      invariant forall k :: 1 <= k <= checks ==> LastSeen(observe, stale, k).Some?
      invariant forall k :: 1 <= k <= checks ==> LastSeen(observe, stale, k) != Some(batchSize)
      invariant forall k :: 0 <= k < checks ==> clock(k) - start < PollTimeout
      decreases PollTimeout - checks
    {
      var seen := observe(checks);
      if seen.Some? {
        last := seen;
      }
      assert last == LastSeen(observe, stale, checks + 1);
      if last.None? {
        return checks + 1, PollFailed, last;
      }
      if last.value == batchSize {
        return checks + 1, Converged, last;
      }
      if clock(checks) - start >= PollTimeout {
        return checks + 1, TimedOut, last;
      }
      AdvancesFar(clock, 1, checks + 1);
      checks := checks + 1;
    }
  }

  /** What the processes keep between rounds: the tenants as the backend
      holds them, the cursor `i`, the progress counter, the batch of the
      latest round (`None` before the first) and the latest polled count. */
  datatype Run = Run(
    tenants: seq<Tenant>,
    i: int,
    counter: nat,
    lastBatch: Option<seq<string>>,
    lastPolled: Option<nat>)

  /** The nondeterministic inputs of one round. */
  datatype RoundEnv = RoundEnv(
    listed: bool,                  // the listing at the top of the round succeeded
    fails: nat -> bool,            // which update attempts raise
    observe: nat -> Option<nat>,   // what each convergence check reports
    clock: Clock,                  // time of each convergence check
    start: int,                    // time the poll starts
    recounted: bool)               // the listing in the empty-batch branch succeeded

  ghost predicate WellFormed(env: RoundEnv)
  {
    Advances(env.clock, 1) && env.start <= env.clock(0)
  }

  datatype RoundOutcome = Continue | AllAtTarget | PollCrashed

  /** One round of the `while i < total_tenants` loop. */
  method Round(dir: Direction, total: int, tenantsPerCycle: int, run: Run, env: RoundEnv, draw: Draw)
    returns (next: Run, outcome: RoundOutcome, updated: bool, polls: nat)
    requires InRange(draw) && WellFormed(env)
    ensures next.lastBatch == Some(Batch(dir, run.tenants, env.listed, tenantsPerCycle))
    ensures updated <==> |next.lastBatch.value| > 0 && exists k :: 0 <= k < MaxAttempts && !env.fails(k)
    ensures updated ==>
      && |next.tenants| == |run.tenants|
      && forall k :: 0 <= k < |run.tenants| && run.tenants[k].name in next.lastBatch.value ==>
           next.tenants[k].status == dir.target
    ensures !updated ==> next.tenants == run.tenants
    ensures var b := next.lastBatch.value;
      && next.i == run.i + |b|
      && next.counter == run.counter + |b|
      && |next.tenants| == |run.tenants|
      && (forall k :: 0 <= k < |run.tenants| ==> next.tenants[k].name == run.tenants[k].name)
      && (forall k :: 0 <= k < |run.tenants| && run.tenants[k].name !in b ==> next.tenants[k] == run.tenants[k])
      && (forall k :: 0 <= k < |run.tenants| && run.tenants[k].name in b ==>
            next.tenants[k] == run.tenants[k] || next.tenants[k].status == dir.target)
    ensures outcome == AllAtTarget <==>
      Batch(dir, run.tenants, env.listed, tenantsPerCycle) == [] && env.recounted
      && CountStatus(run.tenants, dir.target) == total
    ensures outcome == AllAtTarget ==> next.tenants == run.tenants
    ensures var b := next.lastBatch.value;
      |b| > 0 ==>
        && 1 <= polls <= PollTimeout + 1
        && next.lastPolled == LastSeen(env.observe, run.lastPolled, polls)
        && (forall k :: 1 <= k < polls ==> LastSeen(env.observe, run.lastPolled, k) != Some(|b|))
        && (outcome == Continue ==>
              next.lastPolled == Some(|b|) || env.clock(polls - 1) - env.start >= PollTimeout)
    ensures |next.lastBatch.value| == 0 ==> polls == 0 && next.lastPolled == run.lastPolled
    ensures outcome == PollCrashed <==>
      |next.lastBatch.value| > 0 && run.lastPolled.None? && env.observe(0).None?
    ensures outcome == PollCrashed ==> next.lastPolled.None?
  {
    var batch := Batch(dir, run.tenants, env.listed, tenantsPerCycle);
    if |batch| > 0 {
      var attempts, ok, backoffs := UpdateWithRetry(env.fails, draw);
      if exists k :: 0 <= k < MaxAttempts && !env.fails(k) {
        var k :| 0 <= k < MaxAttempts && !env.fails(k);
        RetrySucceedsIfAnyAttemptDoes(env.fails, attempts, ok, k);
      }
      updated := ok;
      var ts := if ok then SetStatus(run.tenants, (set n | n in batch), dir.target) else run.tenants;
      var polled, last;
      polls, polled, last := Poll(|batch|, env.observe, env.clock, env.start, run.lastPolled);
      next := Run(ts, run.i + |batch|, run.counter + |batch|, Some(batch), last);
      outcome := if polled == PollFailed then PollCrashed else Continue;
    } else {
      next := run.(lastBatch := Some(batch));
      updated := false;
      polls := 0;
      outcome := if env.recounted && CountStatus(run.tenants, dir.target) == total then AllAtTarget else Continue;
    }
  }

  datatype RunOutcome = ReachedTotal | AllTenantsAtTarget | Crashed | OutOfRounds

  /** The whole `do` loop, over at most `|envs|` rounds. */
  method Migrate(dir: Direction, total: int, tenantsPerCycle: int, tenants: seq<Tenant>,
                 envs: seq<RoundEnv>, draw: Draw)
    returns (run: Run, rounds: nat, outcome: RunOutcome)
    requires InRange(draw)
    requires forall r :: 0 <= r < |envs| ==> WellFormed(envs[r])
    ensures rounds <= |envs|
    ensures run.counter == run.i && 0 <= run.i
    ensures outcome == ReachedTotal ==> total <= run.i
    ensures outcome == OutOfRounds ==> rounds == |envs| && run.i < total
    ensures outcome == AllTenantsAtTarget ==> CountStatus(run.tenants, dir.target) == total
    ensures outcome == Crashed ==>
      1 <= rounds && run.lastPolled.None? && run.lastBatch.Some? && |run.lastBatch.value| > 0
    ensures total <= 0 ==> rounds == 0 && outcome == ReachedTotal
    ensures rounds == 0 <==> run.lastBatch.None?
    ensures |run.tenants| == |tenants|
    ensures forall k :: 0 <= k < |tenants| ==> run.tenants[k].name == tenants[k].name
    ensures forall k :: 0 <= k < |tenants| ==>
              run.tenants[k] == tenants[k] || run.tenants[k].status == dir.target
  {
    run := Run(tenants, 0, 0, None, None);
    rounds := 0;
    outcome := OutOfRounds;
    while run.i < total
      invariant rounds <= |envs|
      invariant run.counter == run.i && 0 <= run.i
      invariant outcome == OutOfRounds
      invariant rounds == 0 <==> run.lastBatch.None?
      invariant total <= 0 ==> rounds == 0
      invariant |run.tenants| == |tenants|
      invariant forall k :: 0 <= k < |tenants| ==> run.tenants[k].name == tenants[k].name
      invariant forall k :: 0 <= k < |tenants| ==>
                  run.tenants[k] == tenants[k] || run.tenants[k].status == dir.target
      decreases |envs| - rounds
    {
      if rounds == |envs| {
        return;
      }
      var next, o, _, _ := Round(dir, total, tenantsPerCycle, run, envs[rounds], draw);
      run := next;
      rounds := rounds + 1;
      if o == AllAtTarget {
        return run, rounds, AllTenantsAtTarget;
      }
      if o == PollCrashed {
        return run, rounds, Crashed;
      }
    }
    outcome := ReachedTotal;
  }

  /** The closing check: it compares the number of tenants in the target
      status with the size of the LAST batch (not with the total), and it
      raises when the loop never ran, because the batch variable was never
      bound.  `Ok(true)` means the warning is logged. */
  function FinalWarning(dir: Direction, run: Run): (r: Result<bool>)
    ensures r.Err? <==> run.lastBatch.None?
    ensures r.Ok? ==> (r.value <==> CountStatus(run.tenants, dir.target) < |run.lastBatch.value|)
  {
    match run.lastBatch
    case None => Err("name 'tenants' is not defined")
    case Some(b) => Ok(CountStatus(run.tenants, dir.target) < |b|)
  }

  /** The warning looks at the last batch, not at the total: once as many
      tenants as that batch held are in the target status it stays silent,
      however many of the `total` tenants are still missing. */
  lemma WarningComparesWithLastBatch(dir: Direction, run: Run, total: int)
    requires run.lastBatch.Some?
    requires |run.lastBatch.value| <= CountStatus(run.tenants, dir.target) < total
    ensures FinalWarning(dir, run) == Ok(false)
    ensures CountStatus(run.tenants, dir.target) < total
  {
  }

  /** The warning can stay silent while tenants are still missing: an
      empty last batch never warns. */
  lemma EmptyLastBatchNeverWarns(dir: Direction, run: Run)
    requires run.lastBatch == Some([])
    ensures FinalWarning(dir, run) == Ok(false)
  {
  }
}

=== FILE: user_enabling.dfy ===
/** The re-enabling process: each cycle it lists the `FROZEN` tenants,
    samples a percentage of the whole tenant population from them, and for
    each sampled tenant updates its status, rewrites a random subset of its
    objects under their deterministic ids and refreshes its TTL record. */
module UserEnabling {
  import opened Common
  import opened Backend
  import opened Upserts
  import opened Sampling
  import SimulationImporter

  /** Seconds added to the clock when a TTL record is refreshed. */
  const Ttl := 90

  datatype Config = Config(
    percentage: int,        // PERCENTAGE_OF_TENANTS
    objectsPerTenant: int,  // OBJECTS_PER_TENANT
    objectsToUpdate: int)   // OBJECTS_TO_UPDATE

  /** The candidates: names of the tenants whose status is `FROZEN`, in
      listing order. */
  function FrozenNames(ts: seq<Tenant>): seq<string>
  {
    Select(ts, {Frozen})
  }

  /** A name is a candidate exactly when the backend reports it `FROZEN`;
      candidates are distinct because tenant names are. */
  lemma FrozenNamesExact(ts: seq<Tenant>, n: string)
    requires UniqueNames(ts)
    ensures n in FrozenNames(ts) <==> StatusOf(ts, n) == Some(Frozen)
  {
    if StatusOf(ts, n) == Some(Frozen) {
      var i :| 0 <= i < |ts| && ts[i] == Tenant(n, Frozen);
    }
    if n in FrozenNames(ts) {
      var i :| 0 <= i < |ts| && ts[i].name == n && ts[i].status in {Frozen};
      var r := StatusOf(ts, n);
      var j :| 0 <= j < |ts| && ts[j] == Tenant(n, r.value);
      assert i == j;
    }
  }

  lemma {:induction false} SelectDistinct(ts: seq<Tenant>, wanted: set<Status>)
    requires UniqueNames(ts)
    ensures Distinct(Select(ts, wanted))
  {
    if |ts| > 0 {
      SelectDistinct(ts[1..], wanted);
      var rest := Select(ts[1..], wanted);
      assert ts[0].name !in rest by {
        forall i | 0 <= i < |ts[1..]| ensures ts[1..][i].name != ts[0].name {
          assert ts[1..][i] == ts[i + 1];
        }
      }
    }
  }

  /** `total * percentage / 100` computed exactly and truncated toward
      zero, as Python's `int` truncates. */
  function ExactShare(total: nat, percentage: int): int
  {
    if percentage >= 0 then total * percentage / 100 else -(total * -percentage / 100)
  }

  /** The source computes `int(total * (percentage / 100))` in floating
      point, which can come out one step closer to zero than the exact
      share (`int(100 * 0.29)` is 28).  A share is possible when it is the
      exact one or one step closer to zero. */
  ghost predicate PossibleShare(share: int, total: nat, percentage: int)
  {
    var exact := ExactShare(total, percentage);
    if percentage >= 0 then 0 <= share <= exact && exact - 1 <= share
    else exact <= share <= 0 && share <= exact + 1
  }

  /** `get_random_tenants`: no tenants when there are no candidates or no
      tenants at all, otherwise a sample without replacement of
      `min(share, len(candidates))` candidates; `random.sample` raises on
      a negative share. */
  function RandomTenants(candidates: seq<string>, total: nat, share: int, draw: Draw): (r: Result<seq<string>>)
    requires InRange(draw)
    ensures |candidates| == 0 || total == 0 ==> r == Ok([])
    ensures r.Err? <==> |candidates| > 0 && total > 0 && share < 0
    ensures r.Ok? && |candidates| > 0 && total > 0 ==> |r.value| == Min(share, |candidates|)
    ensures r.Ok? ==> forall n :: n in r.value ==> n in candidates
    ensures r.Ok? && Distinct(candidates) ==> Distinct(r.value)
  {
    if |candidates| == 0 || total == 0 then Ok([])
    else if share < 0 then Err("Sample larger than population or is negative")
    else
      var k: nat := Min(share, |candidates|);
      SampleOfDistinct(candidates, k, draw, 0);
      Ok(Sample(candidates, k, draw, 0))
  }

  /** The subset `update_data_batch` rewrites: `objects_to_update` distinct
      indices of `range(objects_per_tenant)`; `random.sample` raises when
      more are asked for than exist, or a negative number. */
  function RewriteIds(cfg: Config, draw: Draw, step: nat): (r: Result<seq<nat>>)
    requires InRange(draw)
    ensures r.Ok? <==> 0 <= cfg.objectsToUpdate <= Max(0, cfg.objectsPerTenant)
    ensures r.Ok? ==> |r.value| == cfg.objectsToUpdate && Distinct(r.value)
    ensures r.Ok? ==> forall i :: i in r.value ==> 0 <= i < cfg.objectsPerTenant
  {
    var all := SimulationImporter.ObjectIds(cfg.objectsPerTenant);
    if cfg.objectsToUpdate < 0 || cfg.objectsToUpdate > |all| then Err("sample larger than population or is negative")
    else
      var s := Sample(all, cfg.objectsToUpdate, draw, step);
      SampleOfDistinct(all, cfg.objectsToUpdate, draw, step);
      Ok(s)
  }

  /** The record `update_ttl_for_tenant` fetches: the first one owned by
      the tenant (the query asks for one). */
  function FirstRecordOf(ledger: seq<TtlRecord>, t: string): (r: Option<TtlRecord>)
    ensures r.None? <==> forall i :: 0 <= i < |ledger| ==> ledger[i].tenantName != t
    ensures r.Some? ==>
      exists i :: (0 <= i < |ledger| && ledger[i] == r.value && r.value.tenantName == t
                   && forall j :: 0 <= j < i ==> ledger[j].tenantName != t)
  {
    var i := FirstIndexOf(ledger, t);
    if i < |ledger| then Some(ledger[i]) else None
  }

  function FirstIndexOf(ledger: seq<TtlRecord>, t: string): (i: nat)
    ensures i <= |ledger|
    ensures i < |ledger| ==> ledger[i].tenantName == t
    ensures forall j :: 0 <= j < i ==> ledger[j].tenantName != t
  {
    if |ledger| == 0 then 0
    else if ledger[0].tenantName == t then 0
    else 1 + FirstIndexOf(ledger[1..], t)
  }

  /** The TTL refresh: the first record of the tenant gets expiration
      `now + Ttl`; with no record nothing is written. */
  function RefreshRequests(ledger: seq<TtlRecord>, t: string, now: int): seq<Request>
  {
    match FirstRecordOf(ledger, t)
    case None => []
    case Some(x) => [RefreshTtl(x.id, now + Ttl)]
  }

  /** The refresh touches at most one record: the first one owned by the
      tenant, and only its expiration.  A tenant without a record leaves
      the ledger as it is. */
  lemma RefreshEffect(st: Store, t: string, now: int)
    requires Valid(st)
    ensures ApplyAll(st, RefreshRequests(st.ledger, t, now)).Ok?
    ensures var r := ApplyAll(st, RefreshRequests(st.ledger, t, now)).value;
      && r.tenants == st.tenants && r.objects == st.objects && |r.ledger| == |st.ledger|
      && (FirstRecordOf(st.ledger, t).None? ==> r.ledger == st.ledger)
      && (FirstRecordOf(st.ledger, t).Some? ==>
            exists i :: 0 <= i < |st.ledger| && st.ledger[i].tenantName == t
              && r.ledger[i] == st.ledger[i].(expiration := now + Ttl)
              && forall j :: 0 <= j < |st.ledger| && j != i ==> r.ledger[j] == st.ledger[j])
  {
    var first := FirstRecordOf(st.ledger, t);
    if first.Some? {
      var x := first.value;
      var qs := [RefreshTtl(x.id, now + Ttl)];
      assert RefreshRequests(st.ledger, t, now) == qs;
      var r := st.(ledger := SetExpiration(st.ledger, x.id, now + Ttl));
      assert ApplyAll(st, qs) == ApplyAll(r, qs[1..]);
      var i :| 0 <= i < |st.ledger| && st.ledger[i] == x && x.tenantName == t;
      forall j | 0 <= j < |st.ledger| && j != i ensures r.ledger[j] == st.ledger[j] {
        assert st.ledger[j].id != x.id;
      }
    }
  }

  /** What enabling one tenant asks of the backend, in order: the status
      update, the rewrite of its objects, the TTL refresh.  `written` is
      the status the update actually carries: the source passes
      `activate_status=HOT`, a misspelled keyword, so the status sent is
      whatever the client library fills in. */
  function EnableRequests(st: Store, t: string, cfg: Config, written: Status,
                          draw: Draw, step: nat, now: int): (r: Result<seq<Request>>)
    requires InRange(draw)
    ensures r.Ok? <==> RewriteIds(cfg, draw, step).Ok?
    ensures r.Ok? ==>
      && |r.value| >= 2
      && r.value[0] == UpdateStatus([t], written)
      && r.value[1] == UpsertObjects(t, RewriteIds(cfg, draw, step).value)
      && r.value[2..] == RefreshRequests(st.ledger, t, now)
  {
    match RewriteIds(cfg, draw, step)
    case Err(e) => Err(e)
    case Ok(ids) => Ok([UpdateStatus([t], written), UpsertObjects(t, ids)] + RefreshRequests(st.ledger, t, now))
  }

  /** Enabling one known tenant: it gets status `written`, every other
      tenant keeps its status; it gains at most ids below
      `objects_per_tenant` and keeps all it had (its objects are
      overwritten, never duplicated); no other tenant's objects change. */
  function EnableTenant(st: Store, t: string, cfg: Config, written: Status,
                        draw: Draw, step: nat, now: int): (r: Result<Store>)
    requires InRange(draw) && Valid(st) && t in NameSet(st.tenants)
    ensures r.Ok? <==> 0 <= cfg.objectsToUpdate <= Max(0, cfg.objectsPerTenant)
    ensures r.Ok? ==> Valid(r.value)
    ensures r.Ok? ==> var st' := r.value;
      && |st'.tenants| == |st.tenants|
      && (forall i :: 0 <= i < |st.tenants| ==> st'.tenants[i].name == st.tenants[i].name)
      && (forall i :: 0 <= i < |st.tenants| && st.tenants[i].name == t ==> st'.tenants[i].status == written)
      && (forall i :: 0 <= i < |st.tenants| && st.tenants[i].name != t ==> st'.tenants[i] == st.tenants[i])
      && ObjectsOf(st, t) <= ObjectsOf(st', t)
      && (forall i :: i in ObjectsOf(st', t) - ObjectsOf(st, t) ==> 0 <= i < cfg.objectsPerTenant)
      && (forall n :: n != t ==> ObjectsOf(st', n) == ObjectsOf(st, n))
  {
    EnableTenantEffect(st, t, cfg, written, draw, step, now);
    match EnableRequests(st, t, cfg, written, draw, step, now)
    case Err(e) => Err(e)
    case Ok(qs) => ApplyAll(st, qs)
  }

  lemma EnableTenantEffect(st: Store, t: string, cfg: Config, written: Status,
                           draw: Draw, step: nat, now: int)
    requires InRange(draw) && Valid(st) && t in NameSet(st.tenants)
    ensures var q := EnableRequests(st, t, cfg, written, draw, step, now);
      q.Ok? ==> ApplyAll(st, q.value).Ok? && var st' := ApplyAll(st, q.value).value;
      && Valid(st')
      && |st'.tenants| == |st.tenants|
      && (forall i :: 0 <= i < |st.tenants| ==> st'.tenants[i].name == st.tenants[i].name)
      && (forall i :: 0 <= i < |st.tenants| && st.tenants[i].name == t ==> st'.tenants[i].status == written)
      && (forall i :: 0 <= i < |st.tenants| && st.tenants[i].name != t ==> st'.tenants[i] == st.tenants[i])
      && ObjectsOf(st, t) <= ObjectsOf(st', t)
      && (forall i :: i in ObjectsOf(st', t) - ObjectsOf(st, t) ==> 0 <= i < cfg.objectsPerTenant)
      && (forall n :: n != t ==> ObjectsOf(st', n) == ObjectsOf(st, n))
  {
    var q := EnableRequests(st, t, cfg, written, draw, step, now);
    if q.Ok? {
      var st' := EnableResult(st, t, cfg, written, draw, step, now);
      assert ApplyAll(st, q.value) == Ok(st');
      RewriteObjects(st, st', t, RewriteIds(cfg, draw, step).value, cfg.objectsPerTenant);
    }
  }

  /** Adding ids below `limit` to one tenant's objects keeps what it had,
      adds nothing at or above `limit` and touches no other tenant. */
  lemma RewriteObjects(st: Store, st': Store, t: string, ids: seq<nat>, limit: int)
    requires forall i :: i in ids ==> 0 <= i < limit
    requires st'.objects == st.objects[t := ObjectsOf(st, t) + set i | i in ids]
    ensures ObjectsOf(st, t) <= ObjectsOf(st', t)
    ensures forall i :: i in ObjectsOf(st', t) - ObjectsOf(st, t) ==> 0 <= i < limit
    ensures forall n :: n != t ==> ObjectsOf(st', n) == ObjectsOf(st, n)
  {
    assert ObjectsOf(st', t) == ObjectsOf(st, t) + set i | i in ids;
    forall i | i in ObjectsOf(st', t) - ObjectsOf(st, t) ensures 0 <= i < limit {
      assert i in ids;
    }
  }

  lemma EnableResult(st: Store, t: string, cfg: Config, written: Status,
                     draw: Draw, step: nat, now: int) returns (st': Store)
    requires InRange(draw) && Valid(st) && t in NameSet(st.tenants)
    requires EnableRequests(st, t, cfg, written, draw, step, now).Ok?
    ensures ApplyAll(st, EnableRequests(st, t, cfg, written, draw, step, now).value) == Ok(st')
    ensures Valid(st')
    ensures st'.tenants == SetStatus(st.tenants, {t}, written)
    ensures st'.objects == st.objects[t := ObjectsOf(st, t) + set i | i in RewriteIds(cfg, draw, step).value]
  {
    var st2 := EnablePrefix(st, t, cfg, written, draw, step, now);
    var rs := RefreshRequests(st2.ledger, t, now);
    RefreshEffect(st2, t, now);
    ApplyAllValid(st2, rs);
    st' := ApplyAll(st2, rs).value;
    assert ApplyAll(st, EnableRequests(st, t, cfg, written, draw, step, now).value) == ApplyAll(st2, rs);
  }

  /** The status update and the rewrite, the first two requests of
      enabling a tenant. */
  lemma EnablePrefix(st: Store, t: string, cfg: Config, written: Status,
                     draw: Draw, step: nat, now: int) returns (st2: Store)
    requires InRange(draw) && Valid(st) && t in NameSet(st.tenants)
    requires EnableRequests(st, t, cfg, written, draw, step, now).Ok?
    ensures var qs := EnableRequests(st, t, cfg, written, draw, step, now).value;
      && ApplyAll(st, qs) == ApplyAll(st2, RefreshRequests(st2.ledger, t, now))
      && Valid(st2)
      && st2.tenants == SetStatus(st.tenants, {t}, written)
      && st2.ledger == st.ledger
      && st2.objects == st.objects[t := ObjectsOf(st, t) + set i | i in RewriteIds(cfg, draw, step).value]
  {
    var qs := EnableRequests(st, t, cfg, written, draw, step, now).value;
    var ids := RewriteIds(cfg, draw, step).value;
    var st1 := st.(tenants := SetStatus(st.tenants, {t}, written));
    assert (set n | n in [t]) == {t};
    assert Apply(st, qs[0]) == Ok(st1);
    st2 := st1.(objects := st1.objects[t := ObjectsOf(st1, t) + set i | i in ids]);
    assert t in NameSet(st1.tenants) by {
      var i :| 0 <= i < |st.tenants| && st.tenants[i].name == t;
      assert st1.tenants[i].name == t;
    }
    assert Apply(st1, qs[1]) == Ok(st2);
    assert ApplyAll(st, qs) == ApplyAll(st1, qs[1..]);
    assert ApplyAll(st1, qs[1..]) == ApplyAll(st2, qs[1..][1..]);
    assert qs[1..][1..] == qs[2..];
    assert UniqueNames(st1.tenants);
  }

  /** Draws are numbered so that the tenant sample and the rewrite of the
      k-th tenant use disjoint ranges of draws. */
  function RewriteStep(candidates: nat, cfg: Config, k: nat): nat
  {
    candidates + k * Max(0, cfg.objectsToUpdate)
  }

  /** Enables the tenants in order; the first failure ends the process. */
  function EnableAll(st: Store, names: seq<string>, cfg: Config, written: Status,
                     draw: Draw, base: nat, k: nat, now: nat -> int): (r: Result<Store>)
    requires InRange(draw) && Valid(st)
    requires forall n :: n in names ==> n in NameSet(st.tenants)
    ensures r.Ok? ==> Valid(r.value) && Enabled(st, r.value, names, written)
    ensures |names| > 0 ==> (r.Ok? <==> 0 <= cfg.objectsToUpdate <= Max(0, cfg.objectsPerTenant))
    decreases |names|
  {
    if |names| == 0 then Ok(st)
    else
      match EnableTenant(st, names[0], cfg, written, draw, RewriteStep(base, cfg, k), now(k))
      case Err(e) => Err(e)
      case Ok(st1) =>
        KnownAfterEnable(st, st1, names);
        var r := EnableAll(st1, names[1..], cfg, written, draw, base, k + 1, now);
        if r.Ok? then
          EnabledCompose(st, st1, r.value, names, written);
          r
        else r
  }

  /** `st'` is `st` with exactly the tenants `names` set to `written`, in
      place, and the objects of every other tenant unchanged. */
  ghost predicate Enabled(st: Store, st': Store, names: seq<string>, written: Status)
  {
    && |st'.tenants| == |st.tenants|
    && (forall i :: 0 <= i < |st.tenants| ==> st'.tenants[i].name == st.tenants[i].name)
    && (forall i :: 0 <= i < |st.tenants| && st.tenants[i].name in names ==> st'.tenants[i].status == written)
    && (forall i :: 0 <= i < |st.tenants| && st.tenants[i].name !in names ==> st'.tenants[i] == st.tenants[i])
    && (forall n :: n !in names ==> ObjectsOf(st', n) == ObjectsOf(st, n))
  }

  /** Enabling the first name, then the rest, enables them all. */
  lemma EnabledCompose(st: Store, st1: Store, st2: Store, names: seq<string>, written: Status)
    requires |names| > 0
    requires |st1.tenants| == |st.tenants|
    requires forall i :: 0 <= i < |st.tenants| ==> st1.tenants[i].name == st.tenants[i].name
    requires forall i :: 0 <= i < |st.tenants| && st.tenants[i].name == names[0] ==> st1.tenants[i].status == written
    requires forall i :: 0 <= i < |st.tenants| && st.tenants[i].name != names[0] ==> st1.tenants[i] == st.tenants[i]
    requires forall n :: n != names[0] ==> ObjectsOf(st1, n) == ObjectsOf(st, n)
    requires Enabled(st1, st2, names[1..], written)
    ensures Enabled(st, st2, names, written)
  {
    assert forall n :: n in names <==> n == names[0] || n in names[1..];
  }

  lemma KnownAfterEnable(st: Store, st1: Store, names: seq<string>)
    requires |names| > 0
    requires forall n :: n in names ==> n in NameSet(st.tenants)
    requires |st1.tenants| == |st.tenants|
    requires forall i :: 0 <= i < |st.tenants| ==> st1.tenants[i].name == st.tenants[i].name
    ensures forall n :: n in names[1..] ==> n in NameSet(st1.tenants)
  {
    forall n | n in names[1..] ensures n in NameSet(st1.tenants) {
      assert n in names;
      var i :| 0 <= i < |st.tenants| && st.tenants[i].name == n;
      assert st1.tenants[i].name == n;
    }
  }

  /** One cycle of `user_enabling_loop`: list, sample, enable.  A
      negative share with any `FROZEN` tenant ends the cycle in an error.
      Every tenant the cycle enables was `FROZEN` when listed, and every
      tenant it does not enable keeps its status. */
  function EnableCycle(st: Store, cfg: Config, written: Status, share: int,
                       draw: Draw, now: nat -> int): (r: Result<Store>)
    requires InRange(draw) && Valid(st)
    requires PossibleShare(share, |st.tenants|, cfg.percentage)
    ensures |FrozenNames(st.tenants)| > 0 && share < 0 ==> r.Err?
    ensures var s := RandomTenants(FrozenNames(st.tenants), |st.tenants|, share, draw);
      r.Err? <==> s.Err? || (|s.value| > 0 && !(0 <= cfg.objectsToUpdate <= Max(0, cfg.objectsPerTenant)))
    ensures r.Ok? ==> var s := RandomTenants(FrozenNames(st.tenants), |st.tenants|, share, draw);
      s.Ok? && Enabled(st, r.value, s.value, written)
    ensures r.Ok? ==> Valid(r.value)
    ensures r.Ok? ==> var st' := r.value;
      && |st'.tenants| == |st.tenants|
      && (forall i :: 0 <= i < |st.tenants| ==>
            st'.tenants[i] == st.tenants[i] || st'.tenants[i] == Tenant(st.tenants[i].name, written))
      && (forall i :: 0 <= i < |st.tenants| && st.tenants[i].status != Frozen ==> st'.tenants[i] == st.tenants[i])
  {
    var candidates := FrozenNames(st.tenants);
    var sampled := RandomTenants(candidates, |st.tenants|, share, draw);
    if sampled.Err? then Err(sampled.error) else
    var chosen := sampled.value;
    FrozenAreKnown(st.tenants, chosen);
    var r := EnableAll(st, chosen, cfg, written, draw, |candidates|, 0, now);
    if r.Ok? then
      CycleShape(st, r.value, chosen, written);
      r
    else r
  }

  lemma FrozenAreKnown(ts: seq<Tenant>, chosen: seq<string>)
    requires forall n :: n in chosen ==> n in FrozenNames(ts)
    ensures forall n :: n in chosen ==> n in NameSet(ts)
  {
  }

  /** A cycle that enables only listed `FROZEN` tenants leaves every other
      tenant as it was and gives the enabled ones status `written`. */
  lemma CycleShape(st: Store, st': Store, chosen: seq<string>, written: Status)
    requires Valid(st)
    requires forall n :: n in chosen ==> n in FrozenNames(st.tenants)
    requires Enabled(st, st', chosen, written)
    ensures |st'.tenants| == |st.tenants|
    ensures forall i :: 0 <= i < |st.tenants| ==>
      st'.tenants[i] == st.tenants[i] || st'.tenants[i] == Tenant(st.tenants[i].name, written)
    ensures forall i :: 0 <= i < |st.tenants| && st.tenants[i].status != Frozen ==> st'.tenants[i] == st.tenants[i]
  {
    ChosenWereFrozen(st.tenants, chosen);
    EnabledShape(st, st', chosen, written);
  }

  /** Under `Enabled` every tenant either is unchanged or is itself with
      status `written`. */
  lemma EnabledShape(st: Store, st': Store, names: seq<string>, written: Status)
    requires Enabled(st, st', names, written)
    ensures forall i :: 0 <= i < |st.tenants| ==>
      st'.tenants[i] == st.tenants[i] || st'.tenants[i] == Tenant(st.tenants[i].name, written)
  {
    forall i | 0 <= i < |st.tenants|
      ensures st'.tenants[i] == st.tenants[i] || st'.tenants[i] == Tenant(st.tenants[i].name, written)
    {
      if st.tenants[i].name in names {
        assert st'.tenants[i] == Tenant(st'.tenants[i].name, st'.tenants[i].status);
      }
    }
  }

  lemma ChosenWereFrozen(ts: seq<Tenant>, chosen: seq<string>)
    requires UniqueNames(ts)
    requires forall n :: n in chosen ==> n in FrozenNames(ts)
    ensures forall i :: 0 <= i < |ts| && ts[i].name in chosen ==> ts[i].status == Frozen
  {
    forall i | 0 <= i < |ts| && ts[i].name in chosen
      ensures ts[i].status == Frozen
    {
      FrozenNamesExact(ts, ts[i].name);
      var x := StatusOf(ts, ts[i].name);
      var j :| 0 <= j < |ts| && ts[j] == Tenant(ts[i].name, x.value);
      assert i == j;
    }
  }

  /** The number of tenants a cycle enables: none without candidates,
      otherwise the share, capped by the number of candidates. */
  lemma EnabledCount(ts: seq<Tenant>, share: int, draw: Draw)
    requires InRange(draw) && UniqueNames(ts)
    ensures var chosen := RandomTenants(FrozenNames(ts), |ts|, share, draw);
      && (chosen.Err? <==> |FrozenNames(ts)| > 0 && share < 0)
      && (chosen.Ok? ==> |chosen.value| == (if |FrozenNames(ts)| == 0 then 0 else Min(share, |FrozenNames(ts)|)))
      && (chosen.Ok? ==> Distinct(chosen.value))
  {
    SelectDistinct(ts, {Frozen});
  }

  /** The rewrite uses the ids the importer assigns, so on a tenant the
      importer has filled it adds no object: it overwrites. */
  lemma RewriteOverwrites(st: Store, t: string, cfg: Config, written: Status,
                          draw: Draw, step: nat, now: int)
    requires InRange(draw) && Valid(st) && t in NameSet(st.tenants)
    requires forall i :: 0 <= i < cfg.objectsPerTenant ==> i in ObjectsOf(st, t)
    requires EnableTenant(st, t, cfg, written, draw, step, now).Ok?
    ensures ObjectsOf(EnableTenant(st, t, cfg, written, draw, step, now).value, t) == ObjectsOf(st, t)
  {
    var st' := EnableTenant(st, t, cfg, written, draw, step, now).value;
    forall i | i in ObjectsOf(st', t) ensures i in ObjectsOf(st, t) {
      assert i in ObjectsOf(st, t) || i in ObjectsOf(st', t) - ObjectsOf(st, t);
    }
  }
}
